=== FILE: README.md ===
# Emotion-aware chatbot core, modelled in Dafny

The repository is a Streamlit chatbot. It reads the user's emotion from a text classifier and shapes its reply to fit. Under the UI and the HTTP clients sits a set of small, deterministic pieces of logic, and this project models them as pure Dafny functions:

- **Emotion analysis** (`src/emotion_analyzer.py`):
  - normalisation of the classifier's reply to the 18 tracked labels;
  - the first-maximal argmax that names the dominant emotion;
  - the keyword fallback classifier, which scores 0.3 per keyword found and defaults to contentment at 0.5;
  - the bounded emotion history, with its mean-over-the-last-five trend and its dominant-emotion sequence.
- **Conversation ledger** (`src/conversation_manager.py`):
  - an append-only message list with role validation;
  - the side list of user emotions, and the invariant that ties it to the messages;
  - suffix retrieval;
  - the save payload and the rebuild on load, which round-trip;
  - `clear`.
- **Response shaping** (`src/response_generator.py`):
  - first-match strategy selection;
  - the temperature table;
  - the six-exchange message window;
  - top-3 trend selection;
  - the canned fallback replies;
  - trimming and filtering of history for the API.
- **Utilities** (`src/utils.py`):
  - the top-N emotion summary;
  - required-key validation;
  - the retry loop, with its attempt count, capped exponential backoff and error propagation.
- **Caching and metrics** (`src/optimization.py`, `src/performance.py`):
  - a time-to-live cache with least-recently-used eviction;
  - bounded metric lists;
  - pruning of conversation turns;
  - API, error, cache and per-function timing counters;
  - the performance report.
- **Security helpers** (`security/security_config.py`):
  - the API-key format check;
  - the pattern-stripping input sanitiser;
  - the sliding-window rate limiter.
- **Session aggregations** (`src/visualization.py`):
  - the bounded real-time emotion list;
  - the averaging personality profile;
  - the strategy usage counter;
  - the heat-map matrix.

Modelling choices:

- **Dicts.** A Python dict is an `OrderedMaps.Dict`: a sequence of distinct keys in insertion order, plus a map. Iteration order is observable in the source: `max` picks the first maximal entry, `min` the first minimal one, and `sorted` is stable.
- **Time.** Clocks (`time.time()`, `datetime.now()`) become `now`/`stamp` parameters.
- **Scores.** Scores and times are `real`.
- **Slices.** Python's negative-index slices are written out in `Slices.PyTail` and `Slices.PyHead`. These include the `[-0:]` case, which returns the whole list.

Where the tests and the code disagree, the model follows the code. Strategy selection returns the strategy's key, such as `high_positive`, although tests/test_complete_system.py:147 expects the approach name `amplify_positive`.

## Model

| member | source | states |
|---|---|---|
| EmotionVocabulary.SourceVocabularyFits | src/emotion_analyzer.py:42-47 | The 18 tracked labels and the six keyword lists fit together: the keyword emotions are distinct tracked labels, and contentment has no keyword list. |
| EmotionVocabulary.VocabularyShape | src/emotion_analyzer.py:42-47 | The tracked labels are exactly the source's 18, in source order, and are distinct. The lexicon lists joy, sadness, anger, fear, surprise and amusement, in source order, and each keyword list has at least five words and no repeats. |
| EmotionVocabulary.JoyEntry | src/emotion_analyzer.py:170 | Joy is tracked, and its keyword list has the seven words of the source. |
| Text.LowerChar | src/emotion_analyzer.py:166 | One character's `str.lower()`. `A`-`Z` become `a`-`z`, U+212A becomes `k`, U+0130 becomes `i` and a combining dot. Any character whose lower case holds no ASCII letter is kept. |
| Text.Lower | src/emotion_analyzer.py:166 | No upper-case ASCII letter is left, the text never shrinks, and a text with nothing to lower comes back unchanged. |
| Text.LowerEach | src/emotion_analyzer.py:166 | Without U+0130, the text is lowered in place: each character becomes its own lower case. |
| Text.LowerAppend | src/emotion_analyzer.py:166 | Lowering a concatenation lowers each part. |
| Text.CapitalsLower | src/emotion_analyzer.py:166 | `HAPPY` lowers to the keyword `happy`. |
| Text.KelvinSignLowers | src/emotion_analyzer.py:166 | The Kelvin sign lowers to `k`, so `SHOCKED` written with it lowers to `shocked` and matches the keyword. |
| EmotionVocabulary.JoyScoresPastOne | src/emotion_analyzer.py:170-184 | A text holding all seven joy keywords scores joy at least 2.1. The fallback does not cap scores at 1. |
| EmotionScores.DefaultEmotions | src/emotion_analyzer.py:157-159 | Exactly the tracked labels, each scored 0.0, in label order: the first occurrence of each label, which is the labels themselves when they are distinct. |
| EmotionScores.FillMissing | src/emotion_analyzer.py:147-149 | Scores already present keep their values and places. Every missing label is appended at 0.0, in label order. |
| EmotionScores.Collect | src/emotion_analyzer.py:137-144 | Only tracked labels are kept, matching names after lower-casing. Each comes in the order of its first prediction and carries the score of its LAST prediction in the reply. |
| EmotionScores.ExtractEmotions | src/emotion_analyzer.py:120-151 | The keys are exactly the tracked labels. They come in order: first the predicted ones in the order of their first prediction, then the rest in label order. Each carries its reply score or 0.0. With no predictions, or no grouped predictions, the result is the all-zero default. |
| EmotionScores.ArgMaxUpTo | src/emotion_analyzer.py:105 | The index of the first maximal score among the first n entries. |
| EmotionScores.ArgMax | src/emotion_analyzer.py:105-106 | The first entry, in dict order, whose score no other entry exceeds. |
| EmotionAnalysis.AnalyzeReply | src/emotion_analyzer.py:101-114 | Normalised scores, a dominant emotion that is a tracked label and the first maximal one, and a confidence equal to its score. |
| EmotionAnalysis.ReplyTieGoesFirst | src/emotion_analyzer.py:104-149 | When the reply's first tracked name has the top score, it is the dominant emotion, wherever it stands among the tracked labels. |
| EmotionVocabulary.ReplyTieGoesToFirstPredicted | src/emotion_analyzer.py:104-149 | A reply predicting `Sadness` then `Joy`, both at 0.5, gives sadness at 0.5, although joy is listed first among the tracked labels. |
| EmotionAnalysis.FallbackAnalysis | src/emotion_analyzer.py:161-198 | Keys are the tracked labels. The dominant emotion is contentment exactly when no keyword is found, and then the confidence is 0.5. The confidence is the dominant emotion's score. |
| EmotionAnalysis.AnalyzeEmotion | src/emotion_analyzer.py:59-118 | A classifier reply is analysed; any other outcome (an error status, or an exception) goes to the keyword fallback. The result always covers the tracked labels, and its confidence is the dominant score. |
| KeywordFallback.HitCountAll | src/emotion_analyzer.py:182-184 | When every keyword of a list occurs in the text, all of them count. |
| KeywordFallback.AddHits | src/emotion_analyzer.py:182-184 | One emotion's score rises by 0.3 per keyword found as a substring. |
| KeywordFallback.ScoreKeywords | src/emotion_analyzer.py:181-184 | Each keyword emotion gains 0.3 times its hit count; every other score is unchanged. |
| KeywordFallback.KeywordScores | src/emotion_analyzer.py:178-184 | Every tracked label, in label order, starts at 0.0 and ends at 0.3 times its hit count. |
| KeywordFallback.ZeroMaxIffNoHits | src/emotion_analyzer.py:187-188 | The first maximal score is 0 exactly when no keyword of any emotion is found. Otherwise it is positive and is not contentment. |
| KeywordFallback.Settle | src/emotion_analyzer.py:187-198 | With a zero maximum, contentment becomes dominant at 0.5 and nothing else changes. Otherwise the argmax stands. Either way the confidence bounds every score. |
| FallbackProperties.FallbackUnfolds | src/emotion_analyzer.py:166-198 | The fallback is keyword scoring, then the first-maximal argmax, then the contentment default. |
| FallbackProperties.FallbackScore | src/emotion_analyzer.py:178-184 | Every label other than contentment scores 0.3 times its hit count. |
| FallbackProperties.FallbackDominant | src/emotion_analyzer.py:187-190 | When some keyword occurs, the scores are the raw keyword scores, and the dominant emotion is their first maximum with a positive confidence. |
| FallbackProperties.FallbackTieGoesFirst | src/emotion_analyzer.py:157-190 | When some keyword occurs, the scores come in label order. Every label before the dominant one scores strictly less than the confidence, and none scores more, so ties go to the label listed first. |
| FallbackProperties.FallbackConfidenceIsMax | src/emotion_analyzer.py:187-195 | No score exceeds the confidence. |
| FallbackProperties.FallbackNotCapped | src/emotion_analyzer.py:181-184 | An emotion with all its keywords present scores 0.3 times the list's length, however large. |
| FallbackProperties.FallbackAllHits | src/emotion_analyzer.py:181-184 | The same bound, from a full hit count. |
| Windows.Push | src/emotion_analyzer.py:209-213 | A push onto a window within capacity keeps the newest capacity-many elements. |
| Windows.PushAllKeepsLast | src/emotion_analyzer.py:207-213 | After any sequence of pushes, the window is the last capacity-many elements of everything pushed, in order. |
| EmotionHistories.NewHistory | src/emotion_analyzer.py:203-205 | An empty history within its bound. |
| EmotionHistories.AddEmotion | src/emotion_analyzer.py:207-213 | The bound is kept. The history is the last max_history results, and the newest is last. |
| EmotionHistories.AddAllKeepsLast | src/emotion_analyzer.py:207-213 | After any run of additions, the history is the last max_history results inserted, in insertion order. |
| EmotionHistories.DominantSequence | src/emotion_analyzer.py:230-232 | Same length as the history; element i is record i's dominant emotion. |
| EmotionHistories.DominantSequenceSlides | src/emotion_analyzer.py:207-232 | Adding a result slides the dominant-emotion sequence by the new dominant emotion. |
| EmotionHistories.TrendWindow | src/emotion_analyzer.py:222 | The last min(5, len) records' scores, in order. |
| EmotionHistories.Trend | src/emotion_analyzer.py:215-218 | An empty history gives the empty dict. |
| EmotionHistories.TrendIsMean | src/emotion_analyzer.py:220-228 | The trend's keys are the labels of the last five records, in the order those records first mention them; this order breaks ties when the trend is sorted. Each value is the label's total over them (0 where missing) divided by their number. |
| EmotionHistories.TrendOfOne | src/emotion_analyzer.py:220-228 | With a single record, the trend is that record's scores. |
| ScoreSums.AddScoresHas | src/emotion_analyzer.py:223-224 | A label is in the running sums exactly when it was there or was just added. |
| ScoreSums.AddScoresAt | src/emotion_analyzer.py:224 | Adding a record raises each of its labels by its score, starting from 0. |
| ScoreSums.SumScoresKeys | src/emotion_analyzer.py:222-224 | The sums cover exactly the labels scored in some record of the window. |
| ScoreSums.SumScoresAt | src/emotion_analyzer.py:222-224 | Each sum is the label's total over the window. |
| ScoreSums.AddScoresOrderFirsts | src/emotion_analyzer.py:223-224 | A label new to the sums is appended after them, and one already there keeps its place. |
| ScoreSums.SumScoresOrder | src/emotion_analyzer.py:222-224 | The sums' keys are the window's labels in the order they are first mentioned, record after record. |
| ScoreSums.Divide | src/emotion_analyzer.py:228 | The same keys, in the same order, each divided by n. |
| ScoreSums.MeanIsMean | src/emotion_analyzer.py:221-228 | The mean's keys are the scored labels, in first-mention order. Each value is the total divided by the window length. |
| ScoreSums.MeanOfOne | src/emotion_analyzer.py:221-228 | The mean of one record is that record. |
| Conversations.GeneratedId | src/conversation_manager.py:32 | The generated id is `conv_` followed by the time stamp. |
| Conversations.ChooseId | src/conversation_manager.py:32 | A non-empty id given by the caller is kept. A missing or empty one is replaced by the generated id. |
| Conversations.NewLedger | src/conversation_manager.py:24-35 | No messages, an empty side list, and the chosen id. |
| Conversations.EmotionsOf | src/conversation_manager.py:118-121 | The filter `load_conversation` rebuilds the side list with: never longer than the messages. |
| Conversations.EmotionsOfOne | src/conversation_manager.py:118-121 | One message contributes its scores exactly when it is a user message with non-empty scores. |
| Conversations.EmotionsOfAppend | src/conversation_manager.py:118-121 | The filter distributes over concatenation, so the side list keeps message order. |
| Conversations.EmotionsOfMembers | src/conversation_manager.py:118-121 | A score dict is in the rebuilt side list exactly when some user message carries it as non-empty emotions. |
| Conversations.AddMessage | src/conversation_manager.py:37-58 | A role other than user or assistant fails and changes nothing. Otherwise exactly one message is appended. The side list grows by the emotions exactly when the role is user and the emotions are non-empty; otherwise it is unchanged. |
| Conversations.AddMessageConsistent | src/conversation_manager.py:55-58 | add_message keeps the side list equal to the filter of the messages. |
| Conversations.GetHistory | src/conversation_manager.py:60-71 | None gives all messages. A positive k gives the last min(k, len) in order. Zero gives everything, because `[-0:]` is the whole list. A negative k drops the first -k messages. |
| Conversations.GetEmotionHistory | src/conversation_manager.py:73-79 | On a consistent ledger, the non-empty emotions of the user messages, in message order. |
| Conversations.Save | src/conversation_manager.py:81-99 | Saving no messages fails. Otherwise the payload has the id, the messages, and created_at equal to the first message's timestamp. |
| Conversations.Load | src/conversation_manager.py:102-123 | The messages are restored, and the side list is rebuilt from them, so the ledger is consistent. |
| Conversations.SaveLoadRoundTrip | src/conversation_manager.py:81-123 | Loading a saved consistent conversation gives back the same ledger. |
| Conversations.Clear | src/conversation_manager.py:125-129 | Both lists are empty and the id is a fresh `conv_` id. |
| Responses.DefaultStrategies | src/response_generator.py:57-80 | Exactly the source's four strategies, in source order. Their thresholds strictly decrease, their keys differ, every threshold lies in (0, 1), and each lists some emotion. |
| Responses.DefaultStrategiesDisjoint | src/response_generator.py:57-80 | No emotion is listed by two built-in strategies, so the table order decides nothing for them. |
| Responses.MatchFrom | src/response_generator.py:124-128 | Returns -1 exactly when no strategy lists the emotion at or below the confidence. Otherwise it returns the index of the first strategy that does. |
| Responses.DetermineStrategy | src/response_generator.py:118-129 | As written: the key of the first matching strategy (the comparison is inclusive), or balanced_engagement when none matches. |
| Responses.DetermineApproach | src/response_generator.py:118-129 | The corrected selection: the approach of the first matching strategy, or the default. |
| Responses.FirstMatchUnique | src/response_generator.py:124-128 | The first match is unique. |
| Responses.Temperature | src/response_generator.py:201-209 | 0.8, 0.6 and 0.4 exactly for the three named approaches, 0.7 otherwise. |
| Responses.DefaultTemperatureIsConstant | src/response_generator.py:57-129 | With the built-in strategies, the selected key always maps to temperature 0.7. |
| Responses.JoySelectsKey | src/response_generator.py:57-129 | joy at 0.8 selects `high_positive`, at temperature 0.7. |
| Responses.JoyApproach | src/response_generator.py:57-209 | With the corrected selection, joy at 0.7 or above selects amplify_positive, at temperature 0.8. |
| Responses.SupportApproaches | src/response_generator.py:57-80 | Sadness at 0.3 or above selects empathetic_support; contentment at 0.4 or above selects gentle_encouragement. |
| Responses.BelowThresholdIsDefault | src/response_generator.py:124-129 | Below every threshold of the strategies that list the emotion, both selections fall back to the default. |
| Responses.Pairs | src/response_generator.py:190-196 | Each exchange becomes a user message and an assistant message, with missing keys rendered as the empty string. |
| Responses.BuildMessageHistory | src/response_generator.py:185-199 | Length 2 + 2*min(6, len). The system prompt comes first, then the last six exchanges as pairs, then the current message. |
| Responses.TrendTop | src/response_generator.py:211-217 | None for an empty trend. Otherwise the top min(3, len) entries by score, in a stable order. |
| Responses.Lookup | src/response_generator.py:223-234 | The first table entry for the key, or the default. |
| Responses.CannedRepliesNonEmpty | src/response_generator.py:223-232 | The table is exactly the source's eight entries, in source order. Their emotions differ, and every reply, and the default, is non-empty. |
| Responses.FallbackResponse | src/response_generator.py:219-234 | Always non-empty. An unknown emotion gets the default reply. |
| Responses.NonSystem | src/response_generator.py:312-321 | System messages are dropped. Every other message survives as role and content only, and nothing else appears. |
| Responses.NonSystemAppend | src/response_generator.py:312-321 | The filter distributes over concatenation, so relative order is preserved. |
| Responses.NonSystemKeepsAll | src/response_generator.py:312-321 | Without system messages, the filter keeps every message in place. |
| Responses.FormatMessagesForApi | src/response_generator.py:293-322 | Python's `[-max_history:]`, then system messages removed. A positive max_history keeps the last max_history messages, so at most that many items. Zero keeps the whole history, and a negative value drops the first -max_history messages. No item has role system. |
| StableSort.SortDesc | src/utils.py:147-154 | Sorted descending, a permutation of the input, and stable: items of equal score keep their order. |
| StableSort.PrefixIsTop | src/utils.py:154 | A prefix of a descending list is descending and dominates the rest. |
| Rankings.TopItems | src/utils.py:147-154 | The top min(n, len) entries: descending, drawn from the dict, in stable order. |
| Rankings.TopIsTop | src/utils.py:147-154 | An entry left out of the top n scores no higher than any entry that is in it. |
| Utilities.Numbered | src/utils.py:158-160 | Lines numbered from 1, in order. |
| Utilities.EmotionSummary | src/utils.py:126-165 | top_n <= 0 fails, and that check comes before the empty check. None or an empty dict gives "no data". Otherwise min(top_n, len) numbered lines, non-increasing, each a real entry. |
| Utilities.MissingKeys | src/utils.py:99-103 | Exactly the required keys the config lacks. |
| Utilities.ValidateConfig | src/utils.py:95-103 | True exactly when every required key is present. |
| Utilities.Backoff | src/utils.py:343-346 | The wait before retry r is at most 60. It is non-negative for a non-negative factor and negative for a negative one. |
| Utilities.Cap | src/utils.py:345 | The wait never exceeds 60 or the uncapped value, and an uncapped value within 60 is kept as is. |
| Utilities.BackoffMonotone | src/utils.py:343-346 | For a non-negative factor, the waits never decrease from one retry to the next. |
| Utilities.Pow2Monotone | src/utils.py:345 | 2^a <= 2^b when a <= b. |
| Utilities.Schedule | src/utils.py:343-346 | Wait i is the backoff before retry i+1. |
| Utilities.WithRetry | src/utils.py:314-358 | For max_retries >= 0: at most max_retries+1 calls, each retried failure retryable, and the first success returned. A non-retryable error propagates at once. A retryable failure surfaces only after all attempts, with the waits following the schedule. Every wait slept lies in [0, 60]. `time.sleep` fails with ValueError exactly when the factor is negative, right after the first retryable failure. The wait overflows exactly at retry 1025, when 2**1024 no longer fits a float; with at most 1024 retries and a non-negative factor, no sleep fails. |
| Caching.NewCache | src/optimization.py:17-21 | Empty entries and timestamps, with the given size and ttl. |
| Caching.ExpiredKeys | src/optimization.py:29-35 | Exactly the keys whose age exceeds the ttl (strictly). |
| Caching.EvictExpired | src/optimization.py:29-39 | Expired keys leave both dicts; every live entry and timestamp is kept unchanged. |
| Caching.ArgMinUpTo | src/optimization.py:45 | The first minimal timestamp among the first n. |
| Caching.Oldest | src/optimization.py:45 | The first key, in dict order, with the minimal timestamp. |
| Caching.Drop | src/optimization.py:46-47 | The key leaves both dicts, and the size drops by one when the key was present. |
| Caching.EvictLru | src/optimization.py:41-47 | Below max_size nothing changes. At or above it, the first oldest entry is removed. With an empty cache this fails, as `min` of nothing raises. |
| Caching.Get | src/optimization.py:49-58 | The value is returned exactly when the key is present and not expired, and a hit refreshes its timestamp to now. Expired keys are evicted; every surviving entry keeps its value, and every other key keeps its timestamp. |
| Caching.Store | src/optimization.py:65-66 | The key holds the value stamped now; every other key is unchanged. |
| Caching.Set | src/optimization.py:60-66 | With max_size >= 1 it succeeds, the key holds the value, both dicts keep the same keys, and the size bound is preserved. Every other entry left in the cache keeps its value and timestamp. |
| Caching.SetOtherThenGet | src/optimization.py:49-66 | After setting a, then another key b, a get of a within its ttl still returns a's value, unless the second set evicted it. |
| Caching.SetEvictsOldest | src/optimization.py:41-66 | On a full cache, set removes the oldest live entry, even when the key being set is already present. |
| Caching.SetThenGet | src/optimization.py:49-66 | A value set is returned by a get within the ttl. |
| Caching.Clear | src/optimization.py:68-71 | Both dicts are empty. |
| Caching.AppendKeepLast | src/optimization.py:250-262 | Append, then keep the last limit values. |
| Caching.LogResponseTime | src/optimization.py:256-262 | At most 1000 values, the newest last; they are the last 1000 logged. |
| Caching.LogMemoryUsage | src/optimization.py:250-254 | At most 100 samples, the newest last; they are the last 100 logged. |
| Caching.OptimizeHistory | src/optimization.py:175-189 | A manager without turns, or a history within the limit, is untouched. Otherwise exactly max_history turns are kept, sorted newest first (by confidence on ties), and none dropped outranks one kept. |
| Performance.NewMetrics | src/performance.py:50-61 | All counters are zero and no function has been timed. |
| Performance.RecordApiCall | src/performance.py:65-71 | One more call, one more error exactly on failure, and the time added. Errors never exceed calls. |
| Performance.RecordCacheAccess | src/performance.py:73-78 | Exactly one of hits and misses rises by one. |
| Performance.AddTime | src/performance.py:91-94 | One more call and its time in the total; the maximum becomes the larger of the old maximum and the time, and the minimum becomes finite and no larger than either. |
| Performance.RecordFunctionTime | src/performance.py:80-94 | That function's statistics, created empty on first use, absorb the time. Other functions' statistics are unchanged. |
| Performance.StatsBound | src/performance.py:80-94 | After n >= 1 timings: count n, the total is their sum, min and max bound every time, min is one of them, and min <= max. |
| Performance.RecordTimesIsStatsOf | src/performance.py:80-94 | Timing a new function n times leaves exactly the statistics of those times, and no other function changes. |
| Performance.PerformanceReport | src/performance.py:96-126 | No data exactly when there are no calls. Otherwise the average response time; the error rate as 100 times errors over calls; the hit rate as 100 times hits over accesses, or 0 without accesses, both within [0, 100]; and each function's average, extremes and count. |
| Security.ValidateApiKeyFormat | security/security_config.py:44-53 | True exactly for keys of at least ten characters that, for OpenAI, start with `sk-`. |
| Security.RemovePatterns | security/security_config.py:66-70 | The patterns are removed in order. The text never grows, and it is unchanged exactly when no pattern occurs. |
| Security.SanitizeInput | security/security_config.py:63-72 | As written: one pass, then strip. Never longer than the input, and clean input comes back only stripped. |
| Security.SanitizeLeavesScriptTag | security/security_config.py:66-72 | `<<scriptscript` comes out as `<script`, which is not clean. |
| Security.Scrub | security/security_config.py:66-70 | The corrected removal repeats until the text is clean, and clean input is unchanged. |
| Security.SanitizeClean | security/security_config.py:63-72 | The corrected sanitiser never returns a dangerous pattern, and on clean input it agrees with the one-pass version. |
| Security.Recent | security/security_config.py:84-85 | Exactly the timestamps after the window start, each as often as in the input. |
| Security.RecentAppend | security/security_config.py:84-85 | The filter distributes over concatenation and keeps a single timestamp exactly when it is after the start, so the kept timestamps stay in their order. |
| Security.CheckRateLimit | security/security_config.py:74-94 | Only timestamps inside the window count. With max_requests of them the request is refused and nothing is stored. Otherwise it is allowed, the user's list becomes the counted timestamps plus now (at most max_requests, all inside the window), and other users are untouched. |
| Security.RateLimitFills | security/security_config.py:74-94 | A new user's first max_requests requests at one instant are all allowed. |
| Security.RateLimitRefusesNext | security/security_config.py:87-88 | The next request at that instant is refused. |
| Visualization.AddEmotionData | src/visualization.py:319-323 | As written: pop only when over max_points, then append. The list keeps its newest entries, and its bound is max_points+1. |
| Visualization.AddEmotionDataOverflows | src/visualization.py:321-323 | A list of 50 grows to 51. |
| Visualization.AddAllSettlesAboveLimit | src/visualization.py:319-323 | From empty, the list settles at the last max_points+1 entries. |
| Visualization.AddEmotionDataCapped | src/visualization.py:319-323 | The corrected version keeps at most max_points entries, the newest last. |
| Visualization.AddAllCappedKeepsNewest | src/visualization.py:319-323 | The corrected list is always the last max_points entries added. |
| Visualization.MergeTraits | src/visualization.py:331-337 | Existing traits are averaged with the new value and new traits are inserted. Absent traits are unchanged, and the existing keys keep their order. |
| Visualization.UpdatePersonality | src/visualization.py:325-337 | The first update stores the traits. Later ones average existing traits, add new ones and leave the rest, and values in [0, 1] stay in [0, 1]. |
| Visualization.TotalPut | src/visualization.py:344-347 | Setting one count changes the total by the difference. |
| Visualization.UpdateResponseStrategy | src/visualization.py:339-347 | The strategy's count rises by one (to 1 if new), the others are unchanged, and the total rises by exactly one. |
| Visualization.Cell | src/visualization.py:244-255 | With emotion details, the detail score (0 if missing). Without them, 1.0 exactly at the exchange's emotion (neutral by default), else 0.0. |
| Visualization.Title | src/visualization.py:264 | Same length and same tail. A lower-case ASCII first letter becomes its upper case, and any other first character is kept. |
| Visualization.HeatRows | src/visualization.py:241-255 | One row per primary emotion, one cell per exchange. |
| Visualization.EmotionHeatmap | src/visualization.py:234-264 | Nothing for an empty history. Otherwise 8 rows labelled with the title-cased emotions, each as long as the history. |
| Visualization.FallbackColumnIsOneHot | src/visualization.py:249-255 | An exchange without details contributes a one-hot column. |
| Visualization.NeutralColumnIsZero | src/visualization.py:241-255 | The eight rows are the source's primary emotions, and `neutral` is not among them. An exchange with neither details nor an emotion, or with emotion `neutral`, contributes a column of zeros. |

## Left out

- The HTTP calls to the emotion classifier and the language model, including both `generate_response` methods: these are foreign services and async I/O. `EmotionAnalysis.AnalyzeEmotion` takes the call's outcome as a parameter.
- The second `generate_response` (src/response_generator.py:249-291) shadows the first. The code after a `return` at src/response_generator.py:236-247 is unreachable. Neither is modelled.
- File and configuration I/O: JSON and YAML loading and saving, the file writes of `save_conversation`/`load_conversation`, directory creation, and the encryption key file. Only the payload and the rebuild are modelled.
- config/emotions_config.yaml is not part of this model. The built-in default strategies are used.
- Encryption, hashing and session tokens in security/security_config.py: these are library calls.
- `BatchProcessor`, `cache_response`, `timing_decorator`, `precompute_personality_insights` and `optimize_streamlit_performance`: they are asynchronous polling, decorators over wall-clock time, or Streamlit calls.
- psutil memory sampling and `statistics.quantiles`/`statistics.mean` in `ResourceMonitor.get_performance_summary`: these are a process query and float statistics. The trimming of `log_memory_usage` is modelled with the sample as a parameter.
- All Plotly/Streamlit chart construction, and app.py.
- Float arithmetic and rounding. Scores are exact reals, so `0.3 + 0.3 + 0.3` is exactly `0.9`. The report's `round` calls and the time stamp are not modelled.
- Timestamp parsing and formatting. Ids take the formatted stamp as a string.
- The personality-profile class with trait learning (`PersonalityProfile`, `update_from_emotion`, `process_user_input`): tests/test_complete_system.py:9 imports it and tests/test_complete_system.py:226 calls it, but src/conversation_manager.py does not define it, so there is no code to model.
- Text.Lower: lowers `A`-`Z`, U+0130 and U+212A as Python's `str.lower()` does, which are all the characters whose lower case holds an ASCII letter. Every other non-ASCII character is kept as it is. Its Python lower case holds no ASCII letter, so keeping it cannot change whether an ASCII keyword or label matches. `Text.IsSpace` is the full set of Python's `str.isspace()`.
- EmotionAnalysis.FallbackAnalysis: the keyword matches are exactly Python's, by `Text.Lower`, but the lower-cased text of a non-ASCII letter other than U+0130 and U+212A is not Python's.
- Visualization.Title: upper-cases a lower-case ASCII first letter and keeps every other character. Python's `str.title` also lower-cases the rest of each word (`"JOY".title()` is `"Joy"`), starts a new word after every non-letter, and covers all of Unicode. The eight heat-map labels are single lower-case ASCII words, and on them the two agree.
- Responses.FallbackResponse: states that the reply is non-empty and that an unknown emotion gets the default. The per-emotion entries are stated by `Responses.Lookup` over the table.
- Responses.NonSystem: history items are records with a role and content. A Python message dict missing either key would raise; that case is not modelled.
- Visualization.UpdatePersonality: the first call stores the caller's dict itself, so later updates also change the caller's dict through aliasing. The model has values, not references.
- Visualization.AddEmotionData: a negative `max_points` would pop from an empty list. The model's bound is a `nat`, since the only value used is 50.
- Caching.Get: one `now` stands for every clock reading of a call. Python's `get` reads `time.time()` up to three times (src/optimization.py:31, :27 and :55), so an entry whose ttl runs out between the first two readings is a miss there and a hit in the model. `Caching.Set` likewise uses one `now` for its eviction and its timestamp.
- Caching.OptimizeHistory: the contract covers `max_history >= 0`. A negative limit is computed with Python's slice (`Slices.PyHead`) but no property is stated for it.
- EmotionAnalysis.AnalyzeReply: the classifier's JSON with missing keys is a reply with empty lists. An absent name is the empty string, and an absent score is 0.0.

## Findings

| source | as written | input that shows it | evidently intended | confidence | as-written member | corrected member |
|---|---|---|---|---|---|---|
| src/response_generator.py:127 | `_determine_response_strategy` returns the strategy's key (`high_positive`, …). `_get_temperature_for_strategy` compares it with approach names, so every built-in strategy gets 0.7. | dominant emotion `joy`, confidence 0.8 | return the approach (`amplify_positive`), so that joy gets temperature 0.8 | not executed | Responses.JoySelectsKey | Responses.JoyApproach |
| security/security_config.py:66-70 | one left-to-right removal pass per pattern, so removing `<script` can join its neighbours into a new `<script` | `<<scriptscript` sanitises to `<script` | the output contains no dangerous pattern | not executed | Security.SanitizeLeavesScriptTag | Security.SanitizeClean |
| src/visualization.py:321-323 | pops only when the length is already greater than `max_points`, then appends | a list of 50 entries grows to 51 | at most `max_points` entries are kept | not executed | Visualization.AddEmotionDataOverflows | Visualization.AddAllCappedKeepsNewest |

=== FILE: conversation.dfy ===
/**
 * `ConversationManager` of `src/conversation_manager.py`: an append-only
 * list of messages with role validation, the side list of the emotions
 * of user messages, suffix retrieval, the save payload and the rebuild
 * done on load. The clock reading that stamps ids and messages is a
 * parameter; the JSON file itself is the `SavedConversation` value.
 */
module Conversations {
  import opened Results
  import opened OrderedMaps
  import opened Slices

  /** `Message`: role, content, ISO timestamp and the optional scores. */
  datatype Message = Message(role: string, content: string, timestamp: string, emotions: Option<Dict<real>>)

  /** The manager's state: id, messages in order, and the emotion side list. */
  datatype Ledger = Ledger(conversationId: string, messages: seq<Message>, emotionHistory: seq<Dict<real>>)

  /** The JSON payload `save_conversation` writes. */
  datatype SavedConversation = SavedConversation(conversationId: string, createdAt: string, messages: seq<Message>)

  const RoleError := "Role must be either 'user' or 'assistant'"
  const EmptyError := "No messages to save"

  /** The id generated from a clock reading `stamp` (`%Y%m%d_%H%M%S`). */
  function GeneratedId(stamp: string): (id: string)
    ensures |id| == 5 + |stamp| && id[..5] == "conv_" && id[5..] == stamp
  {
    "conv_" + stamp
  }

  /** `conversation_id or f"conv_..."`: an absent or empty id is generated. */
  function ChooseId(id: Option<string>, stamp: string): (r: string)
    ensures id.Some? && id.value != "" ==> r == id.value
    ensures id.None? || id.value == "" ==> r == GeneratedId(stamp)
  {
    match id
    case Some(s) => if s != "" then s else GeneratedId(stamp)
    case None => GeneratedId(stamp)
  }

  /** `ConversationManager(conversation_id)`: nothing recorded yet. */
  function NewLedger(id: Option<string>, stamp: string): (l: Ledger)
    ensures l.messages == [] && l.emotionHistory == []
    ensures l.conversationId == ChooseId(id, stamp)
  {
    Ledger(ChooseId(id, stamp), [], [])
  }

  /** Python truthiness of the `emotions` argument: present and non-empty. */
  predicate HasEmotions(emotions: Option<Dict<real>>)
  {
    emotions.Some? && Size(emotions.value) > 0
  }

  /** A message whose scores go to the side list. */
  predicate Carries(m: Message)
  {
    m.role == "user" && HasEmotions(m.emotions)
  }

  /**
   * `[msg['emotions'] for msg in messages if msg['role'] == 'user' and
   * msg['emotions']]`: the filter `load_conversation` rebuilds with.
   */
  function EmotionsOf(ms: seq<Message>): (r: seq<Dict<real>>)
    ensures |r| <= |ms|
    decreases |ms|
  {
    if |ms| == 0 then []
    else EmotionsOf(ms[..|ms| - 1]) + (if Carries(ms[|ms| - 1]) then [ms[|ms| - 1].emotions.value] else [])
  }

  /** A single message contributes its scores exactly when it carries them. */
  lemma EmotionsOfOne(m: Message)
    ensures EmotionsOf([m]) == if Carries(m) then [m.emotions.value] else []
  {
    assert [m][..0] == [];
  }

  /** The filter keeps order: it distributes over concatenation. */
  lemma {:induction false} EmotionsOfAppend(a: seq<Message>, b: seq<Message>)
    ensures EmotionsOf(a + b) == EmotionsOf(a) + EmotionsOf(b)
    decreases |b|
  {
    if |b| > 0 {
      var b0, m := b[..|b| - 1], b[|b| - 1];
      EmotionsOfAppend(a, b0);
      assert (a + b)[..|a + b| - 1] == a + b0;
      assert (a + b)[|a + b| - 1] == m;
      var tail := if Carries(m) then [m.emotions.value] else [];
      assert EmotionsOf(a + b) == EmotionsOf(a) + EmotionsOf(b0) + tail;
      assert EmotionsOf(b) == EmotionsOf(b0) + tail;
    } else {
      assert a + b == a;
    }
  }

  /**
   * The side list holds exactly the score maps of the user messages that
   * carry non-empty scores.
   */
  lemma {:induction false} EmotionsOfMembers(ms: seq<Message>, d: Dict<real>)
    ensures d in EmotionsOf(ms) <==> exists i :: 0 <= i < |ms| && Carries(ms[i]) && ms[i].emotions.value == d
    decreases |ms|
  {
    if |ms| > 0 {
      var init := ms[..|ms| - 1];
      EmotionsOfMembers(init, d);
      if exists i :: 0 <= i < |ms| && Carries(ms[i]) && ms[i].emotions.value == d {
        var i :| 0 <= i < |ms| && Carries(ms[i]) && ms[i].emotions.value == d;
        if i < |ms| - 1 {
          assert init[i] == ms[i];
        }
      }
      if exists i :: 0 <= i < |init| && Carries(init[i]) && init[i].emotions.value == d {
        var i :| 0 <= i < |init| && Carries(init[i]) && init[i].emotions.value == d;
        assert ms[i] == init[i];
      }
    }
  }

  /** The side list is the filter of the messages. */
  ghost predicate Consistent(l: Ledger)
  {
    l.emotionHistory == EmotionsOf(l.messages)
  }

  /**
   * `add_message`: a role other than `user` or `assistant` is rejected
   * and nothing changes; otherwise the message is appended, and its
   * scores join the side list exactly when it is a user message with
   * non-empty scores.
   */
  function AddMessage(l: Ledger, role: string, content: string, emotions: Option<Dict<real>>, now: string)
    : (r: Result<Ledger, string>)
    ensures role != "user" && role != "assistant" <==> r.Failure?
    ensures r.Failure? ==> r.error == RoleError
    ensures r.Success? ==>
      && r.value.conversationId == l.conversationId
      && r.value.messages == l.messages + [Message(role, content, now, emotions)]
    ensures r.Success? && role == "user" && HasEmotions(emotions) ==>
      r.value.emotionHistory == l.emotionHistory + [emotions.value]
    ensures r.Success? && !(role == "user" && HasEmotions(emotions)) ==>
      r.value.emotionHistory == l.emotionHistory
  {
    if role != "user" && role != "assistant" then Failure(RoleError)
    else
      var m := Message(role, content, now, emotions);
      var side := if role == "user" && HasEmotions(emotions) then l.emotionHistory + [emotions.value] else l.emotionHistory;
      Success(Ledger(l.conversationId, l.messages + [m], side))
  }

  /** `add_message` keeps the side list the filter of the messages. */
  lemma AddMessageConsistent(l: Ledger, role: string, content: string, emotions: Option<Dict<real>>, now: string)
    requires Consistent(l)
    ensures var r := AddMessage(l, role, content, emotions, now);
      r.Success? ==> Consistent(r.value)
  {
    var r := AddMessage(l, role, content, emotions, now);
    if r.Success? {
      var ms := r.value.messages;
      assert ms[..|ms| - 1] == l.messages;
    }
  }

  /**
   * `get_conversation_history`: everything when no limit is given, else
   * Python's `messages[-max_messages:]`.
   */
  function GetHistory(l: Ledger, maxMessages: Option<int>): (r: seq<Message>)
    ensures maxMessages.None? ==> r == l.messages
    ensures maxMessages.Some? && maxMessages.value > 0 ==> r == Last(l.messages, maxMessages.value)
    ensures maxMessages == Some(0) ==> r == l.messages
    ensures maxMessages.Some? && maxMessages.value < 0 ==>
      r == l.messages[Min(-maxMessages.value, |l.messages|)..]
  {
    match maxMessages
    case None => l.messages
    case Some(k) => PyTail(l.messages, k)
  }

  /** `get_emotion_history` */
  function GetEmotionHistory(l: Ledger): (r: seq<Dict<real>>)
    ensures Consistent(l) ==> r == EmotionsOf(l.messages)
  {
    l.emotionHistory
  }

  /**
   * `save_conversation`, the payload part: an empty conversation is an
   * error; otherwise the id, the first message's timestamp as creation
   * time, and the messages.
   */
  function Save(l: Ledger): (r: Result<SavedConversation, string>)
    ensures |l.messages| == 0 <==> r.Failure?
    ensures r.Failure? ==> r.error == EmptyError
    ensures r.Success? ==>
      && r.value.conversationId == l.conversationId
      && r.value.createdAt == l.messages[0].timestamp
      && r.value.messages == l.messages
  {
    if |l.messages| == 0 then Failure(EmptyError)
    else Success(SavedConversation(l.conversationId, l.messages[0].timestamp, l.messages))
  }

  /**
   * `load_conversation`: a new manager with the saved id (generated
   * afresh if empty), the saved messages, and the side list rebuilt.
   */
  function Load(saved: SavedConversation, stamp: string): (l: Ledger)
    ensures Consistent(l)
    ensures l.messages == saved.messages
    ensures l.conversationId == ChooseId(Some(saved.conversationId), stamp)
  {
    Ledger(ChooseId(Some(saved.conversationId), stamp), saved.messages, EmotionsOf(saved.messages))
  }

  /**
   * Saving and loading a consistent conversation gives back its id,
   * messages and side list.
   */
  lemma SaveLoadRoundTrip(l: Ledger, stamp: string)
    requires Consistent(l) && l.conversationId != ""
    requires Save(l).Success?
    ensures Load(Save(l).value, stamp) == l
  {
  }

  /** `clear`: the state of a manager just created without an id. */
  function Clear(l: Ledger, stamp: string): (r: Ledger)
    ensures r == NewLedger(None, stamp)
    ensures Consistent(r)
  {
    Ledger(GeneratedId(stamp), [], [])
  }
}

=== FILE: emotion_analysis.dfy ===
/**
 * The analyzer's entry points, `HumeEmotionAnalyzer.analyze_emotion` and
 * its two outcomes: the analysis of a classifier reply and the keyword
 * fallback. The HTTP request itself is replaced by its outcome.
 *
 * The vocabulary (`self.primary_emotions`) and the fallback lexicon are
 * parameters; `EmotionVocabulary` holds the analyzer's own values.
 */
module EmotionAnalysis {
  import opened Results
  import opened OrderedMaps
  import opened Text
  import opened EmotionScores
  import opened KeywordFallback

  /**
   * The result built from a classifier reply (lines 104-114): the scores
   * are the normalised reply, the dominant emotion is its first maximal
   * label and the confidence that label's score.
   */
  function AnalyzeReply(labels: seq<string>, reply: ClassifierReply, text: string, now: real): (r: EmotionResult)
    requires |labels| > 0
    ensures r.emotions == ExtractEmotions(labels, reply)
    ensures r.dominantEmotion in labels
    ensures Get(r.emotions, r.dominantEmotion) == Some(r.confidence)
    ensures DominantOf(r.emotions, r.dominantEmotion, r.confidence)
    ensures r.timestamp == now && r.text == text
  {
    var emotions := ExtractEmotions(labels, reply);
    assert HasKey(emotions, labels[0]);
    var i := ArgMax(emotions);
    assert emotions.keys[i] in emotions.vals;
    EmotionResult(emotions, emotions.keys[i], ValueAt(emotions, i), now, text)
  }

  /**
   * Ties in a reply go to the label predicted first: when the first
   * tracked name of the reply scores the highest, it is the dominant
   * emotion, whatever its place among the tracked labels.
   */
  lemma ReplyTieGoesFirst(labels: seq<string>, reply: ClassifierReply, text: string, now: real, top: real)
    requires |labels| > 0 && |ReplyNames(labels, reply)| > 0
    requires ReplyScore(reply, ReplyNames(labels, reply)[0]) == top
    requires forall e :: ReplyScore(reply, e) <= top
    ensures var r := AnalyzeReply(labels, reply, text, now);
      r.dominantEmotion == ReplyNames(labels, reply)[0] && r.confidence == top
  {
    var names := ReplyNames(labels, reply);
    var r := AnalyzeReply(labels, reply, text, now);
    var d := r.emotions;
    FirstsHead(names, labels);
    assert d.keys[0] == names[0];
    var i: nat :| FirstMaxAt(d, i) && d.keys[i] == r.dominantEmotion && ValueAt(d, i) == r.confidence;
    assert names[0] in labels;
    assert ValueAt(d, 0) == top;
    assert i == 0;
  }

  /**
   * `_fallback_emotion_analysis`: each label scores 0.3 per keyword of its
   * own found in the lower-cased text (no cap at 1.0); with no keyword at
   * all the dominant emotion is `contentment` at 0.5, else the first
   * maximal keyword score; the confidence is the dominant emotion's score.
   */
  function FallbackAnalysis(labels: seq<string>, lexicon: Lexicon, text: string, now: real): (r: EmotionResult)
    requires Fits(labels, lexicon)
    ensures Valid(r.emotions)
    ensures forall k :: HasKey(r.emotions, k) <==> k in labels
    ensures Get(r.emotions, r.dominantEmotion) == Some(r.confidence)
    ensures NoHits(lexicon, Lower(text)) <==> r.dominantEmotion == "contentment"
    ensures NoHits(lexicon, Lower(text)) ==> r.confidence == 0.5
    ensures r.timestamp == now && r.text == text
  {
    var lowered := Lower(text);
    var scores := KeywordScores(labels, lexicon, lowered);
    assert HasKey(scores, "contentment");
    var i := ArgMax(scores);
    ZeroMaxIffNoHits(scores, lexicon, lowered, i);
    Settle(scores, i, text, now)
  }

  /** The outcome of the classifier request. */
  datatype ClassifierOutcome =
    | Reply(reply: ClassifierReply)
    | HttpError(status: int)
    | Unavailable

  /**
   * `analyze_emotion`: a reply is analysed; a non-200 status, a missing
   * session or any raised exception falls back to the keyword classifier.
   */
  function AnalyzeEmotion(labels: seq<string>, lexicon: Lexicon, outcome: ClassifierOutcome, text: string, now: real): (r: EmotionResult)
    requires Fits(labels, lexicon)
    ensures outcome.Reply? ==> r == AnalyzeReply(labels, outcome.reply, text, now)
    ensures !outcome.Reply? ==> r == FallbackAnalysis(labels, lexicon, text, now)
    ensures Valid(r.emotions)
    ensures forall k :: HasKey(r.emotions, k) <==> k in labels
    ensures Get(r.emotions, r.dominantEmotion) == Some(r.confidence)
    ensures r.timestamp == now && r.text == text
  {
    match outcome
    case Reply(reply) => AnalyzeReply(labels, reply, text, now)
    case _ => FallbackAnalysis(labels, lexicon, text, now)
  }
}

=== FILE: emotion_history.dfy ===
/**
 * `EmotionHistory` of `src/emotion_analyzer.py`: a bounded first-in
 * first-out window of analysis results, the mean of the scores over its
 * last five results, and the sequence of dominant emotions.
 */
module EmotionHistories {
  import opened OrderedMaps
  import opened Slices
  import opened Windows
  import opened EmotionScores
  import opened ScoreSums

  /** `max_history` (10 by default) and the results kept, oldest first. */
  datatype History = History(maxHistory: int, records: seq<EmotionResult>)

  /** A history within its bound. */
  predicate Bounded(h: History)
  {
    |h.records| <= Capacity(h.maxHistory)
  }

  /** `EmotionHistory(max_history)`: nothing kept yet. */
  function NewHistory(maxHistory: int): (h: History)
    ensures Bounded(h) && h.maxHistory == maxHistory && |h.records| == 0
  {
    History(maxHistory, [])
  }

  /**
   * `add_emotion`: append, then drop the oldest once if over the limit.
   * A bounded history stays bounded, keeps the newest results and has the
   * new one last.
   */
  function AddEmotion(h: History, e: EmotionResult): (r: History)
    ensures r.maxHistory == h.maxHistory
    ensures Bounded(h) ==> Bounded(r) && r.records == Last(h.records + [e], Capacity(h.maxHistory))
    ensures Bounded(h) && h.maxHistory > 0 ==> |r.records| > 0 && r.records[|r.records| - 1] == e
  {
    History(h.maxHistory, Push(h.records, e, h.maxHistory))
  }

  /** `add_emotion` for each of `es` in turn. */
  function AddAll(h: History, es: seq<EmotionResult>): (r: History)
    ensures r.maxHistory == h.maxHistory
    ensures r.records == PushAll(h.records, es, h.maxHistory)
    decreases |es|
  {
    if |es| == 0 then h else AddAll(AddEmotion(h, es[0]), es[1..])
  }

  /**
   * Whatever was added, a history that starts bounded holds exactly the
   * last `max_history` results ever added, oldest first.
   */
  lemma AddAllKeepsLast(h: History, es: seq<EmotionResult>)
    requires Bounded(h)
    ensures AddAll(h, es).records == Last(h.records + es, Capacity(h.maxHistory))
    ensures Bounded(AddAll(h, es))
  {
    PushAllKeepsLast(h.records, es, h.maxHistory);
  }

  /** `get_dominant_emotion_sequence`: the dominant emotion of each result kept. */
  function DominantSequence(h: History): (r: seq<string>)
    ensures |r| == |h.records|
    ensures forall i :: 0 <= i < |r| ==> r[i] == h.records[i].dominantEmotion
  {
    Dominants(h.records)
  }

  function Dominants(rs: seq<EmotionResult>): seq<string>
  {
    seq(|rs|, i requires 0 <= i < |rs| => rs[i].dominantEmotion)
  }

  /** The dominant-emotion sequence moves with the window. */
  lemma DominantSequenceSlides(h: History, e: EmotionResult)
    requires Bounded(h)
    ensures DominantSequence(AddEmotion(h, e))
         == Last(DominantSequence(h) + [e.dominantEmotion], Capacity(h.maxHistory))
  {
    var n := Capacity(h.maxHistory);
    DominantsOfLast(h.records + [e], n);
    DominantsAppend(h.records, e);
  }

  lemma DominantsOfLast(rs: seq<EmotionResult>, n: nat)
    ensures Dominants(Last(rs, n)) == Last(Dominants(rs), n)
  {
  }

  lemma DominantsAppend(rs: seq<EmotionResult>, e: EmotionResult)
    ensures Dominants(rs + [e]) == Dominants(rs) + [e.dominantEmotion]
  {
  }

  // ---------------------------------------------------------------------
  // Trend
  // ---------------------------------------------------------------------

  /** The score maps of `rs`, in order. */
  function ScoresOf(rs: seq<EmotionResult>): (r: seq<Scores>)
    ensures |r| == |rs|
    ensures forall i :: 0 <= i < |rs| ==> r[i] == rs[i].emotions
  {
    seq(|rs|, i requires 0 <= i < |rs| => rs[i].emotions)
  }

  /** Every result's score map is a well-formed dict. */
  ghost predicate WellFormed(h: History)
  {
    forall i :: 0 <= i < |h.records| ==> Valid(h.records[i].emotions)
  }

  /** The score maps of the last five results, the ones the trend averages. */
  function TrendWindow(h: History): (w: seq<Scores>)
    ensures |w| == Min(5, |h.records|)
    ensures WellFormed(h) ==> AllValid(w)
    ensures forall i :: 0 <= i < |w| ==> w[i] == h.records[|h.records| - |w| + i].emotions
  {
    var last := PyTail(h.records, 5);
    assert h.records == h.records[..|h.records| - |last|] + last;
    assert forall i :: 0 <= i < |last| ==> last[i] == h.records[|h.records| - |last| + i];
    ScoresOf(last)
  }

  /**
   * `get_emotion_trend`: `{}` for an empty history, else every emotion
   * scored in the last five results with its total divided by their count.
   */
  function Trend(h: History): (r: Scores)
    requires WellFormed(h)
    ensures |h.records| == 0 ==> r == Empty()
    ensures Valid(r)
  {
    if |h.records| == 0 then Empty()
    else Mean(TrendWindow(h))
  }

  /**
   * The trend's keys are the emotions scored in the last five results, and
   * each one's value is its total over the window divided by the window
   * size, a result without that emotion counting 0. The keys come in the
   * order the window first mentions them, which decides ties when the
   * trend is sorted.
   */
  lemma TrendIsMean(h: History)
    requires WellFormed(h) && |h.records| > 0
    ensures var w := TrendWindow(h);
      && (forall x :: HasKey(Trend(h), x) <==> Scored(w, x))
      && (forall x :: HasKey(Trend(h), x) ==> Trend(h).vals[x] == TotalOf(w, x) / |w| as real)
      && Trend(h).keys == Firsts(KeysOf(w))
  {
    MeanIsMean(TrendWindow(h));
  }

  /** With a single result the trend is that result's scores, in its order. */
  lemma TrendOfOne(h: History)
    requires WellFormed(h) && |h.records| == 1
    ensures Trend(h) == h.records[0].emotions
  {
    var w := TrendWindow(h);
    assert w == [h.records[0].emotions];
    MeanOfOne(h.records[0].emotions);
  }
}

=== FILE: emotion_scores.dfy ===
/**
 * Emotion scores as `src/emotion_analyzer.py` produces them: the result
 * record, the classifier reply it reads, the normalisation of that reply
 * to the tracked vocabulary, and the argmax that names the dominant
 * emotion.
 */
module EmotionScores {
  import opened Results
  import opened OrderedMaps
  import opened Text

  /** A score per emotion label, in dict insertion order. */
  type Scores = Dict<real>

  datatype EmotionResult = EmotionResult(
    emotions: Scores,
    dominantEmotion: string,
    confidence: real,
    timestamp: real,
    text: string)

  /**
   * The part of the classifier's JSON reply the analyzer reads:
   * `results.predictions[i].models.language.grouped_predictions[j].predictions[k]`
   * with a `name` and a `score`. An absent list is an empty one here; an
   * absent `name` is `""` and an absent `score` is `0.0`.
   */
  datatype Prediction = Prediction(name: string, score: real)
  datatype LanguagePrediction = LanguagePrediction(groupedPredictions: seq<seq<Prediction>>)
  datatype ClassifierReply = ClassifierReply(predictions: seq<LanguagePrediction>)

  /**
   * Position `i` holds the first maximal score of `d`: nothing scores
   * higher and everything before it scores strictly lower.
   */
  ghost predicate FirstMaxAt(d: Scores, i: nat)
  {
    && Valid(d)
    && i < |d.keys|
    && (forall j :: 0 <= j < |d.keys| ==> ValueAt(d, j) <= ValueAt(d, i))
    && (forall j :: 0 <= j < i ==> ValueAt(d, j) < ValueAt(d, i))
  }

  /**
   * `d` names `name` as its dominant emotion with score `score`, the way
   * `max(d.items(), key=lambda x: x[1])` picks it: the first maximal entry.
   */
  ghost predicate DominantOf(d: Scores, name: string, score: real)
  {
    exists i: nat :: FirstMaxAt(d, i) && d.keys[i] == name && ValueAt(d, i) == score
  }

  // ---------------------------------------------------------------------
  // Classifier reply
  // ---------------------------------------------------------------------

  /** One step of that loop: `name` is added at 0.0 unless present. */
  function AddMissing(acc: Scores, name: string): (r: Scores)
    ensures r.vals == (if name in acc.vals then acc.vals else acc.vals[name := 0.0])
    ensures Valid(acc) ==> Valid(r) && r.keys == (if name in acc.keys then acc.keys else acc.keys + [name])
  {
    if HasKey(acc, name) then acc else Put(acc, name, 0.0)
  }

  /**
   * The loop that adds every label of `labels` still missing, at 0.0; the
   * entries already there keep their values and their places, and the
   * missing labels follow them in label order.
   */
  function FillMissing(acc: Scores, labels: seq<string>): (r: Scores)
    decreases |labels|
    ensures Valid(acc) ==> Valid(r)
    ensures Valid(acc) ==> r.keys == Firsts(acc.keys + labels)
    ensures forall k :: k in r.vals <==> k in acc.vals || k in labels
    ensures forall k :: k in acc.vals ==> r.vals[k] == acc.vals[k]
    ensures forall k :: k in r.vals && k !in acc.vals ==> r.vals[k] == 0.0
  {
    if |labels| == 0 then
      assert acc.keys + labels == acc.keys;
      assert Valid(acc) ==> Firsts(acc.keys) == acc.keys by {
        if Valid(acc) {
          FirstsOfDistinct(acc.keys);
        }
      }
      acc
    else
      var r := FillMissing(AddMissing(acc, labels[0]), labels[1..]);
      assert forall k :: k in labels <==> k == labels[0] || k in labels[1..];
      assert Valid(acc) ==> r.keys == Firsts(acc.keys + labels) by {
        if Valid(acc) {
          FirstsInsertThen(acc.keys, labels[0], labels[1..]);
          assert labels == [labels[0]] + labels[1..];
        }
      }
      r
  }

  /**
   * `_default_emotions`: every label at 0.0. The dict comprehension keeps
   * one entry per distinct label, in first-occurrence order.
   */
  function DefaultEmotions(labels: seq<string>): (r: Scores)
    ensures Valid(r)
    ensures r.keys == Firsts(labels)
    ensures Distinct(labels) ==> r.keys == labels
    ensures forall k :: HasKey(r, k) <==> k in labels
    ensures forall k :: k in r.vals ==> r.vals[k] == 0.0
  {
    assert [] + labels == labels;
    assert Distinct(labels) ==> Firsts(labels) == labels by {
      if Distinct(labels) {
        FirstsOfDistinct(labels);
      }
    }
    FillMissing(Empty(), labels)
  }

  /** The score of the last prediction whose lower-cased name is `e`. */
  function LastScore(preds: seq<Prediction>, e: string): Option<real>
  {
    if |preds| == 0 then None
    else if Lower(preds[|preds| - 1].name) == e then Some(preds[|preds| - 1].score)
    else LastScore(preds[..|preds| - 1], e)
  }

  /** The lower-cased prediction names that are tracked labels, in prediction order. */
  function TrackedNames(labels: seq<string>, preds: seq<Prediction>): (r: seq<string>)
    ensures forall x :: x in r ==> x in labels
    decreases |preds|
  {
    if |preds| == 0 then []
    else
      var name := Lower(preds[|preds| - 1].name);
      TrackedNames(labels, preds[..|preds| - 1]) + (if name in labels then [name] else [])
  }

  /**
   * The loop that keeps the predictions named after a tracked label: each
   * label in the order of its first prediction, with its last score.
   */
  function Collect(labels: seq<string>, preds: seq<Prediction>): (r: Scores)
    ensures Valid(r)
    ensures r.keys == Firsts(TrackedNames(labels, preds))
    ensures forall k :: k in r.vals ==> k in labels
    ensures forall e :: e in labels ==> Get(r, e) == LastScore(preds, e)
  {
    if |preds| == 0 then Empty()
    else
      var acc := Collect(labels, preds[..|preds| - 1]);
      var t := TrackedNames(labels, preds[..|preds| - 1]);
      var name := Lower(preds[|preds| - 1].name);
      if name in labels then
        assert (t + [name])[..|t|] == t;
        FirstsMembers(t);
        assert Firsts(t + [name]) == if name in t then Firsts(t) else Firsts(t) + [name];
        Put(acc, name, preds[|preds| - 1].score)
      else
        assert t + [] == t;
        acc
  }

  /** The tracked names of the reply's first grouped predictions, none without them. */
  function ReplyNames(labels: seq<string>, reply: ClassifierReply): seq<string>
  {
    if |reply.predictions| == 0 || |reply.predictions[0].groupedPredictions| == 0 then []
    else TrackedNames(labels, reply.predictions[0].groupedPredictions[0])
  }

  /** The score the analyzer reports for `e` from a classifier reply. */
  function ReplyScore(reply: ClassifierReply, e: string): real
  {
    if |reply.predictions| == 0 || |reply.predictions[0].groupedPredictions| == 0 then 0.0
    else LastScore(reply.predictions[0].groupedPredictions[0], e).GetOr(0.0)
  }

  /**
   * `_extract_emotions`: exactly the tracked labels, each with the score of
   * its last (case-insensitive) prediction, 0.0 when it has none; an empty
   * prediction or grouped-prediction list gives the all-zero default.
   */
  function ExtractEmotions(labels: seq<string>, reply: ClassifierReply): (r: Scores)
    ensures Valid(r)
    ensures r.keys == Firsts(ReplyNames(labels, reply) + labels)
    ensures forall k :: HasKey(r, k) <==> k in labels
    ensures forall e :: e in labels ==> Get(r, e) == Some(ReplyScore(reply, e))
    ensures |reply.predictions| == 0 ==> r == DefaultEmotions(labels)
    ensures |reply.predictions| > 0 && |reply.predictions[0].groupedPredictions| == 0 ==> r == DefaultEmotions(labels)
  {
    assert [] + labels == labels;
    if |reply.predictions| == 0 then DefaultEmotions(labels)
    else
      var grouped := reply.predictions[0].groupedPredictions;
      if |grouped| == 0 then DefaultEmotions(labels)
      else
        var acc := Collect(labels, grouped[0]);
        FirstsOfFirsts(TrackedNames(labels, grouped[0]), labels);
        FillMissing(acc, labels)
  }

  /** Index of the first maximal score among the first `n` entries. */
  function ArgMaxUpTo(d: Scores, n: nat): (i: nat)
    requires Valid(d) && 0 < n <= |d.keys|
    ensures i < n
    ensures forall j :: 0 <= j < n ==> ValueAt(d, j) <= ValueAt(d, i)
    ensures forall j :: 0 <= j < i ==> ValueAt(d, j) < ValueAt(d, i)
  {
    if n == 1 then 0
    else
      var j := ArgMaxUpTo(d, n - 1);
      if ValueAt(d, n - 1) > ValueAt(d, j) then n - 1 else j
  }

  /** The fold Python's `max` performs: the first maximal entry wins. */
  function ArgMax(d: Scores): (i: nat)
    requires Valid(d) && |d.keys| > 0
    ensures FirstMaxAt(d, i)
  {
    ArgMaxUpTo(d, |d.keys|)
  }
}

=== FILE: fallback_properties.dfy ===
/**
 * Properties of the keyword fallback of `EmotionAnalysis`: the score of
 * each emotion, the dominant emotion it names, and that its confidence
 * is the largest score and is not capped at 1.0.
 */
module FallbackProperties {
  import opened Results
  import opened OrderedMaps
  import opened Text
  import opened EmotionScores
  import opened KeywordFallback
  import opened EmotionAnalysis

  /** The scores and the maximum position the fallback works from. */
  lemma {:induction false} FallbackUnfolds(labels: seq<string>, lexicon: Lexicon, text: string, now: real)
    returns (scores: Scores, i: nat)
    requires Fits(labels, lexicon)
    ensures scores == KeywordScores(labels, lexicon, Lower(text))
    ensures FirstMaxAt(scores, i)
    ensures FallbackAnalysis(labels, lexicon, text, now) == Settle(scores, i, text, now)
    ensures NoHits(lexicon, Lower(text)) <==> ValueAt(scores, i) == 0.0
    ensures !NoHits(lexicon, Lower(text)) ==> ValueAt(scores, i) > 0.0
  {
    scores := KeywordScores(labels, lexicon, Lower(text));
    assert HasKey(scores, "contentment");
    i := ArgMax(scores);
    ZeroMaxIffNoHits(scores, lexicon, Lower(text), i);
  }

  /**
   * A tracked emotion other than `contentment` scores 0.3 per keyword of
   * its own found in the lower-cased text, with no cap.
   */
  lemma {:induction false} FallbackScore(labels: seq<string>, lexicon: Lexicon, text: string, now: real, e: string)
    requires Fits(labels, lexicon)
    requires e in labels && e != "contentment"
    ensures var r := FallbackAnalysis(labels, lexicon, text, now);
      e in r.emotions.vals && r.emotions.vals[e] == 0.3 * HitCount(Lower(text), KeywordsOf(lexicon, e)) as real
  {
    var scores, i := FallbackUnfolds(labels, lexicon, text, now);
    assert e in scores.vals;
  }

  /**
   * When some keyword occurs, the fallback reports the keyword scores
   * unchanged and names their first maximal entry, with a positive
   * confidence.
   */
  lemma {:induction false} FallbackDominant(labels: seq<string>, lexicon: Lexicon, text: string, now: real)
    requires Fits(labels, lexicon)
    requires !NoHits(lexicon, Lower(text))
    ensures var r := FallbackAnalysis(labels, lexicon, text, now);
      && r.emotions == KeywordScores(labels, lexicon, Lower(text))
      && DominantOf(r.emotions, r.dominantEmotion, r.confidence)
      && r.confidence > 0.0
  {
    var scores, i := FallbackUnfolds(labels, lexicon, text, now);
  }

  /**
   * Ties go to the label listed first: when some keyword occurs, the
   * scores are reported in label order, every label before the dominant
   * one scores strictly less, and none scores more.
   */
  lemma {:induction false} FallbackTieGoesFirst(labels: seq<string>, lexicon: Lexicon, text: string, now: real)
    requires Fits(labels, lexicon) && Distinct(labels)
    requires !NoHits(lexicon, Lower(text))
    ensures var r := FallbackAnalysis(labels, lexicon, text, now);
      && r.emotions.keys == labels
      && (forall k :: 0 <= k < |labels| ==> r.emotions.vals[labels[k]] <= r.confidence)
      && (forall j, k :: 0 <= k < j < |labels| && labels[j] == r.dominantEmotion ==>
            r.emotions.vals[labels[k]] < r.confidence)
  {
    var scores, i := FallbackUnfolds(labels, lexicon, text, now);
    var r := FallbackAnalysis(labels, lexicon, text, now);
    assert r.emotions == scores && r.dominantEmotion == labels[i] && r.confidence == ValueAt(scores, i);
    forall j, k | 0 <= k < j < |labels| && labels[j] == r.dominantEmotion
      ensures r.emotions.vals[labels[k]] < r.confidence
    {
      assert j == i;
      assert ValueAt(scores, k) < ValueAt(scores, i);
    }
    forall k | 0 <= k < |labels| ensures r.emotions.vals[labels[k]] <= r.confidence {
      assert ValueAt(scores, k) <= ValueAt(scores, i);
    }
  }

  /** The fallback confidence is the largest score it reports. */
  lemma {:induction false} FallbackConfidenceIsMax(labels: seq<string>, lexicon: Lexicon, text: string, now: real)
    requires Fits(labels, lexicon)
    ensures var r := FallbackAnalysis(labels, lexicon, text, now);
      forall e :: e in r.emotions.vals ==> r.emotions.vals[e] <= r.confidence
  {
    var scores, i := FallbackUnfolds(labels, lexicon, text, now);
  }

  /**
   * Emotion `e` is tracked, is not the keyword-less default, and every one
   * of its keywords occurs in the lower-cased text.
   */
  ghost predicate AllKeywordsFound(labels: seq<string>, lexicon: Lexicon, text: string, e: string)
  {
    && Fits(labels, lexicon)
    && e in labels && e != "contentment"
    && forall k :: k in KeywordsOf(lexicon, e) ==> Contains(Lower(text), k)
  }

  /** The fallback scores `e` at `x` and reports a confidence of at least `x`. */
  ghost predicate FallbackScoresAtLeast(labels: seq<string>, lexicon: Lexicon, text: string, now: real, e: string, x: real)
  {
    && Fits(labels, lexicon)
    && var r := FallbackAnalysis(labels, lexicon, text, now);
       && e in r.emotions.vals && r.emotions.vals[e] == x
       && r.confidence >= x
  }

  /**
   * The fallback score is not capped at 1.0: an emotion whose keywords all
   * occur scores 0.3 per keyword, and the confidence is at least that.
   */
  lemma {:induction false} FallbackNotCapped(labels: seq<string>, lexicon: Lexicon, text: string, now: real, e: string)
    requires AllKeywordsFound(labels, lexicon, text, e)
    ensures FallbackScoresAtLeast(labels, lexicon, text, now, e, 0.3 * |KeywordsOf(lexicon, e)| as real)
  {
    HitCountAll(Lower(text), KeywordsOf(lexicon, e));
    FallbackAllHits(labels, lexicon, text, now, e);
  }

  lemma {:induction false} FallbackAllHits(labels: seq<string>, lexicon: Lexicon, text: string, now: real, e: string)
    requires Fits(labels, lexicon)
    requires e in labels && e != "contentment"
    requires HitCount(Lower(text), KeywordsOf(lexicon, e)) == |KeywordsOf(lexicon, e)|
    ensures FallbackScoresAtLeast(labels, lexicon, text, now, e, 0.3 * |KeywordsOf(lexicon, e)| as real)
  {
    FallbackConfidenceIsMax(labels, lexicon, text, now);
    FallbackScore(labels, lexicon, text, now, e);
  }
}

=== FILE: keyword_fallback.dfy ===
/**
 * The keyword-count scoring behind `_fallback_emotion_analysis`: each
 * emotion gains 0.3 per keyword of its own found in the lower-cased text,
 * and the first maximal score names the dominant emotion unless every
 * score is zero.
 */
module KeywordFallback {
  import opened Results
  import opened OrderedMaps
  import opened Text
  import opened EmotionScores

  /** A keyword lexicon: each emotion label with its keywords, dict order. */
  type Lexicon = Dict<seq<string>>

  /**
   * What the fallback needs of its vocabulary and lexicon: every lexicon
   * emotion is a tracked label (else `emotions[emotion] += 0.3` would raise
   * `KeyError`), and the neutral default `contentment` is tracked but has
   * no keywords.
   */
  ghost predicate Fits(labels: seq<string>, lexicon: Lexicon)
  {
    && Valid(lexicon)
    && (forall k :: k in lexicon.vals ==> k in labels)
    && "contentment" in labels
    && "contentment" !in lexicon.vals
  }

  /** The keywords of emotion `e` (none for emotions outside the lexicon). */
  function KeywordsOf(lexicon: Lexicon, e: string): seq<string>
  {
    GetOr(lexicon, e, [])
  }

  /** How many of `keywords` occur in `text`. */
  function HitCount(text: string, keywords: seq<string>): nat
  {
    if |keywords| == 0 then 0
    else (if Contains(text, keywords[0]) then 1 else 0) + HitCount(text, keywords[1..])
  }

  lemma {:induction false} HitCountAll(text: string, keywords: seq<string>)
    requires forall k :: k in keywords ==> Contains(text, k)
    ensures HitCount(text, keywords) == |keywords|
    decreases |keywords|
  {
    if |keywords| > 0 {
      assert keywords[0] in keywords;
      HitCountAll(text, keywords[1..]);
    }
  }

  /**
   * The inner loop: `emotions[e] += 0.3` once per keyword found; nothing
   * else changes.
   */
  function AddHits(emotions: Scores, lowered: string, e: string, keywords: seq<string>): (r: Scores)
    requires e in emotions.vals
    decreases |keywords|
    ensures r.keys == emotions.keys
    ensures r.vals == emotions.vals[e := emotions.vals[e] + 0.3 * HitCount(lowered, keywords) as real]
  {
    if |keywords| == 0 then emotions
    else
      var next := if Contains(lowered, keywords[0]) then Put(emotions, e, emotions.vals[e] + 0.3) else emotions;
      AddHits(next, lowered, e, keywords[1..])
  }

  /**
   * The outer loop over the lexicon entries `names`: each named emotion
   * gains 0.3 per keyword of its own found; the keys and the other scores
   * are unchanged.
   */
  function ScoreKeywords(emotions: Scores, lowered: string, lexicon: Lexicon, names: seq<string>): (r: Scores)
    requires Distinct(names)
    requires forall n :: n in names ==> n in lexicon.vals && n in emotions.vals
    decreases |names|
    ensures r.keys == emotions.keys
    ensures r.vals.Keys == emotions.vals.Keys
    ensures forall k :: k in emotions.vals && k !in names ==> r.vals[k] == emotions.vals[k]
    ensures forall k :: k in names ==>
      r.vals[k] == emotions.vals[k] + 0.3 * HitCount(lowered, lexicon.vals[k]) as real
  {
    if |names| == 0 then emotions
    else
      var e := names[0];
      var next := AddHits(emotions, lowered, e, lexicon.vals[e]);
      assert next.vals.Keys == emotions.vals.Keys;
      assert forall n :: n in names[1..] ==> n in names && n != e;
      var r := ScoreKeywords(next, lowered, lexicon, names[1..]);
      assert forall k :: k in names ==>
        r.vals[k] == emotions.vals[k] + 0.3 * HitCount(lowered, lexicon.vals[k]) as real
      by {
        forall k | k in names
          ensures r.vals[k] == emotions.vals[k] + 0.3 * HitCount(lowered, lexicon.vals[k]) as real
        {
          if k == e {
            assert e !in names[1..];
          } else {
            assert k in names[1..];
          }
        }
      }
      r
  }

  /**
   * The scores after the keyword loops: every label present once, in label
   * order, 0.3 per keyword of its own found in `lowered`.
   */
  function KeywordScores(labels: seq<string>, lexicon: Lexicon, lowered: string): (r: Scores)
    requires Fits(labels, lexicon)
    ensures Valid(r)
    ensures r.keys == Firsts(labels)
    ensures Distinct(labels) ==> r.keys == labels
    ensures forall k :: HasKey(r, k) <==> k in labels
    ensures forall e :: e in r.vals ==> r.vals[e] == 0.3 * HitCount(lowered, KeywordsOf(lexicon, e)) as real
  {
    var base := DefaultEmotions(labels);
    ScoreKeywords(base, lowered, lexicon, lexicon.keys)
  }

  /** No keyword of the lexicon occurs in `lowered`. */
  ghost predicate NoHits(lexicon: Lexicon, lowered: string)
  {
    forall e :: e in lexicon.vals ==> HitCount(lowered, lexicon.vals[e]) == 0
  }

  /**
   * The keyword scores' maximum is zero exactly when no keyword occurs;
   * otherwise it is positive and belongs to an emotion other than the
   * keyword-less `contentment`.
   */
  lemma ZeroMaxIffNoHits(scores: Scores, lexicon: Lexicon, lowered: string, i: nat)
    requires FirstMaxAt(scores, i)
    requires forall e :: e in scores.vals ==> scores.vals[e] == 0.3 * HitCount(lowered, KeywordsOf(lexicon, e)) as real
    requires forall e :: e in lexicon.vals ==> e in scores.vals
    requires "contentment" in scores.vals && "contentment" !in lexicon.vals
    ensures NoHits(lexicon, lowered) <==> ValueAt(scores, i) == 0.0
    ensures !NoHits(lexicon, lowered) ==> ValueAt(scores, i) > 0.0 && scores.keys[i] != "contentment"
  {
    var top := scores.keys[i];
    assert top in scores.vals;
    if ValueAt(scores, i) == 0.0 {
      forall e | e in lexicon.vals ensures HitCount(lowered, lexicon.vals[e]) == 0 {
        assert e in scores.keys;
        var j :| 0 <= j < |scores.keys| && scores.keys[j] == e;
        assert ValueAt(scores, j) <= 0.0;
      }
    } else {
      assert HitCount(lowered, KeywordsOf(lexicon, top)) > 0;
      assert top in lexicon.vals;
    }
  }

  /**
   * The last step of the fallback: the first maximal score names the
   * dominant emotion, unless it is zero, in which case `contentment` is
   * set to 0.5 and named instead.
   */
  function Settle(scores: Scores, i: nat, text: string, now: real): (r: EmotionResult)
    requires FirstMaxAt(scores, i) && "contentment" in scores.vals
    ensures Valid(r.emotions)
    ensures r.emotions.vals.Keys == scores.vals.Keys
    ensures Get(r.emotions, r.dominantEmotion) == Some(r.confidence)
    ensures forall e :: e in r.emotions.vals ==> r.emotions.vals[e] <= r.confidence
    ensures forall e :: e in scores.vals && e != "contentment" ==> r.emotions.vals[e] == scores.vals[e]
    ensures ValueAt(scores, i) == 0.0 ==>
      && r.dominantEmotion == "contentment" && r.confidence == 0.5
      && r.emotions.vals == scores.vals["contentment" := 0.5]
    ensures ValueAt(scores, i) != 0.0 ==>
      && r.emotions == scores && r.dominantEmotion == scores.keys[i] && r.confidence == ValueAt(scores, i)
      && DominantOf(r.emotions, r.dominantEmotion, r.confidence)
    ensures r.timestamp == now && r.text == text
  {
    ValuesBelowMax(scores, i);
    if ValueAt(scores, i) == 0.0 then
      EmotionResult(Put(scores, "contentment", 0.5), "contentment", 0.5, now, text)
    else
      assert scores.keys[i] in scores.vals;
      EmotionResult(scores, scores.keys[i], ValueAt(scores, i), now, text)
  }

  lemma ValuesBelowMax(d: Scores, i: nat)
    requires FirstMaxAt(d, i)
    ensures forall k :: k in d.vals ==> d.vals[k] <= ValueAt(d, i)
  {
    forall k | k in d.vals ensures d.vals[k] <= ValueAt(d, i) {
      assert k in d.keys;
      var j :| 0 <= j < |d.keys| && d.keys[j] == k;
      assert ValueAt(d, j) <= ValueAt(d, i);
    }
  }
}

=== FILE: optimization.dfy ===
/**
 * `CacheManager` of `src/optimization.py` (a time-to-live cache with
 * least-recently-used eviction), the trimming of `ResourceMonitor`'s
 * metric lists, and `OptimizedConversationManager.optimize_conversation_history`.
 * `time.time()` is the parameter `now`.
 */
module Caching {
  import opened Results
  import opened OrderedMaps
  import opened Slices
  import opened StableSort

  /** `self.cache`, `self.timestamps`, `max_size` and `ttl_seconds`. */
  datatype Cache<V> = Cache(entries: Dict<V>, stamps: Dict<real>, maxSize: int, ttl: real)

  /** Both dicts are well formed and hold the same keys. */
  ghost predicate Inv<V>(c: Cache<V>)
  {
    Valid(c.entries) && Valid(c.stamps) && c.entries.vals.Keys == c.stamps.vals.Keys
  }

  /** At most `max_size` entries. */
  predicate Bounded<V>(c: Cache<V>)
  {
    Size(c.entries) <= c.maxSize
  }

  const EmptyMinError := "min() arg is an empty sequence"

  /** `CacheManager(max_size, ttl_seconds)` */
  function NewCache<V>(maxSize: int, ttl: real): (c: Cache<V>)
    ensures Inv(c) && Size(c.entries) == 0 && Size(c.stamps) == 0
    ensures c.maxSize == maxSize && c.ttl == ttl
  {
    Cache(Empty(), Empty(), maxSize, ttl)
  }

  /** `_is_expired`: no timestamp, or older than the time to live (strictly). */
  predicate IsExpired<V>(c: Cache<V>, key: string, now: real)
  {
    key !in c.stamps.vals || now - c.stamps.vals[key] > c.ttl
  }

  /** The keys `_evict_expired` collects. */
  function ExpiredKeys<V>(c: Cache<V>, now: real): (r: set<string>)
    ensures forall k :: k in r <==> k in c.stamps.vals && now - c.stamps.vals[k] > c.ttl
  {
    set k | k in c.stamps.vals && now - c.stamps.vals[k] > c.ttl
  }

  /**
   * `_evict_expired`: every entry whose timestamp is older than the time to
   * live leaves both dicts; the rest keep their values, stamps and order.
   */
  function EvictExpired<V>(c: Cache<V>, now: real): (r: Cache<V>)
    ensures r.maxSize == c.maxSize && r.ttl == c.ttl
    ensures forall k :: k in r.entries.vals <==> k in c.entries.vals && !(k in c.stamps.vals && now - c.stamps.vals[k] > c.ttl)
    ensures forall k :: k in r.stamps.vals <==> k in c.stamps.vals && now - c.stamps.vals[k] <= c.ttl
    ensures forall k :: k in r.entries.vals ==> r.entries.vals[k] == c.entries.vals[k]
    ensures forall k :: k in r.stamps.vals ==> r.stamps.vals[k] == c.stamps.vals[k] && !IsExpired(r, k, now)
    ensures Size(r.entries) <= Size(c.entries)
    ensures Inv(c) ==> Inv(r)
  {
    var drop := ExpiredKeys(c, now);
    Cache(RemoveAll(c.entries, drop), RemoveAll(c.stamps, drop), c.maxSize, c.ttl)
  }

  /** Entry `i` holds the first minimal timestamp. */
  ghost predicate FirstMinAt(d: Dict<real>, i: nat)
  {
    && Valid(d)
    && i < |d.keys|
    && (forall j :: 0 <= j < |d.keys| ==> ValueAt(d, i) <= ValueAt(d, j))
    && (forall j :: 0 <= j < i ==> ValueAt(d, i) < ValueAt(d, j))
  }

  function ArgMinUpTo(d: Dict<real>, n: nat): (i: nat)
    requires Valid(d) && 0 < n <= |d.keys|
    ensures i < n
    ensures forall j :: 0 <= j < n ==> ValueAt(d, i) <= ValueAt(d, j)
    ensures forall j :: 0 <= j < i ==> ValueAt(d, i) < ValueAt(d, j)
  {
    if n == 1 then 0
    else
      var j := ArgMinUpTo(d, n - 1);
      if ValueAt(d, n - 1) < ValueAt(d, j) then n - 1 else j
  }

  /** `min(self.timestamps.keys(), key=...)`: the first key with the oldest stamp. */
  function Oldest(d: Dict<real>): (i: nat)
    requires Valid(d) && |d.keys| > 0
    ensures FirstMinAt(d, i)
  {
    ArgMinUpTo(d, |d.keys|)
  }

  /** `k` leaves both dicts. */
  function Drop<V>(c: Cache<V>, k: string): (r: Cache<V>)
    ensures r.entries.vals == c.entries.vals - {k} && r.stamps.vals == c.stamps.vals - {k}
    ensures r.maxSize == c.maxSize && r.ttl == c.ttl
    ensures Inv(c) ==> Inv(r)
    ensures Inv(c) && k in c.entries.vals ==> Size(r.entries) == Size(c.entries) - 1
  {
    Cache(Remove(c.entries, k), Remove(c.stamps, k), c.maxSize, c.ttl)
  }

  /**
   * `_evict_lru`: when the cache holds `max_size` entries or more, the
   * first entry with the oldest timestamp leaves both dicts; `min` of no
   * timestamps at all (only possible with `max_size <= 0`) raises.
   */
  function EvictLru<V>(c: Cache<V>): (r: Result<Cache<V>, string>)
    requires Inv(c)
    ensures Size(c.entries) < c.maxSize ==> r == Success(c)
    ensures r.Failure? <==> Size(c.entries) >= c.maxSize && Size(c.entries) == 0
    ensures r.Success? && Size(c.entries) >= c.maxSize ==>
      exists i: nat :: FirstMinAt(c.stamps, i) && r.value == Drop(c, c.stamps.keys[i])
    ensures r.Success? ==> Inv(r.value) && r.value.maxSize == c.maxSize && r.value.ttl == c.ttl
    ensures r.Success? && Size(c.entries) >= c.maxSize ==> Size(r.value.entries) == Size(c.entries) - 1
  {
    SizeIsCount(c.entries);
    SizeIsCount(c.stamps);
    if Size(c.entries) < c.maxSize then Success(c)
    else if Size(c.stamps) == 0 then Failure(EmptyMinError)
    else
      var i := Oldest(c.stamps);
      assert c.stamps.keys[i] in c.entries.vals;
      Success(Drop(c, c.stamps.keys[i]))
  }

  /**
   * `get`: expired entries are evicted first; a live entry is returned and
   * its timestamp refreshed to `now`, anything else is a miss.
   */
  function Get<V>(c: Cache<V>, key: string, now: real): (r: (Cache<V>, Option<V>))
    ensures r.1.Some? <==> key in c.entries.vals && key in c.stamps.vals && now - c.stamps.vals[key] <= c.ttl
    ensures r.1.Some? ==> r.1.value == c.entries.vals[key] && key in r.0.stamps.vals && r.0.stamps.vals[key] == now
    ensures forall k :: k in r.0.entries.vals <==> k in c.entries.vals && !(k in c.stamps.vals && now - c.stamps.vals[k] > c.ttl)
    ensures r.0.maxSize == c.maxSize && r.0.ttl == c.ttl
    ensures Inv(c) ==> Inv(r.0)
    ensures Size(r.0.entries) <= Size(c.entries)
    ensures forall k :: k in r.0.entries.vals ==> r.0.entries.vals[k] == c.entries.vals[k]
    ensures forall k :: k != key && k in r.0.stamps.vals ==> k in c.stamps.vals && r.0.stamps.vals[k] == c.stamps.vals[k]
  {
    var live := EvictExpired(c, now);
    if key in live.entries.vals && !IsExpired(live, key, now) then
      (Cache(live.entries, Put(live.stamps, key, now), live.maxSize, live.ttl), Some(live.entries.vals[key]))
    else (live, None)
  }

  /**
   * `set`: expired entries are evicted, then the least recently used one
   * if the cache is full (even when `key` is already present), then the
   * value is stored with timestamp `now`.
   */
  function Set<V>(c: Cache<V>, key: string, value: V, now: real): (r: Result<Cache<V>, string>)
    requires Inv(c)
    ensures c.maxSize >= 1 ==> r.Success?
    ensures r.Success? ==> Holds(r.value, key, value, now) && Inv(r.value)
    ensures r.Success? ==> r.value.maxSize == c.maxSize && r.value.ttl == c.ttl
    ensures r.Success? && Bounded(c) && c.maxSize >= 1 ==> Bounded(r.value)
    ensures r.Success? ==> forall k :: k != key && k in r.value.entries.vals ==>
      && k in c.entries.vals && r.value.entries.vals[k] == c.entries.vals[k]
      && k in c.stamps.vals && r.value.stamps.vals[k] == c.stamps.vals[k]
  {
    var evicted := EvictLru(EvictExpired(c, now));
    if evicted.Failure? then Failure(evicted.error)
    else Success(Store(evicted.value, key, value, now))
  }

  /** `key` is cached with `value`, stamped `stamp`. */
  ghost predicate Holds<V>(c: Cache<V>, key: string, value: V, stamp: real)
  {
    key in c.entries.vals && c.entries.vals[key] == value && key in c.stamps.vals && c.stamps.vals[key] == stamp
  }

  /**
   * The last two lines of `set`: the value and its timestamp are written,
   * other keys keep theirs, and the cache grows by at most one entry.
   */
  function Store<V>(c: Cache<V>, key: string, value: V, now: real): (r: Cache<V>)
    requires Inv(c)
    ensures Holds(r, key, value, now) && Inv(r)
    ensures r.maxSize == c.maxSize && r.ttl == c.ttl
    ensures forall k :: k != key ==> OrderedMaps.Get(r.entries, k) == OrderedMaps.Get(c.entries, k) && OrderedMaps.Get(r.stamps, k) == OrderedMaps.Get(c.stamps, k)
    ensures Size(r.entries) <= Size(c.entries) + 1
    ensures key in c.entries.vals ==> Size(r.entries) == Size(c.entries)
  {
    Cache(Put(c.entries, key, value), Put(c.stamps, key, now), c.maxSize, c.ttl)
  }

  /**
   * On a full cache `set` evicts the entry with the oldest timestamp even
   * when `key` is already present, so the cache then shrinks by one.
   */
  lemma SetEvictsOldest<V>(c: Cache<V>, key: string, value: V, now: real)
    requires Inv(c) && c.maxSize >= 1
    requires Size(EvictExpired(c, now).entries) >= c.maxSize
    ensures exists i: nat :: EvictedOldest(EvictExpired(c, now), Set(c, key, value, now).value, key, i)
  {
    var live := EvictExpired(c, now);
    var e := EvictLru(live).value;
    var i: nat :| FirstMinAt(live.stamps, i) && e == Drop(live, live.stamps.keys[i]);
    var oldest := live.stamps.keys[i];
    var stored := Store(e, key, value, now);
    assert Set(c, key, value, now) == Success(stored);
    if oldest != key {
      assert OrderedMaps.Get(stored.entries, oldest) == OrderedMaps.Get(e.entries, oldest);
    }
    assert EvictedOldest(live, stored, key, i);
  }

  /**
   * `i` is the first position of the oldest timestamp of `live`, and that
   * key is gone from `r` unless it is `key` itself, in which case an
   * existing `key` leaves the cache one entry smaller.
   */
  ghost predicate EvictedOldest<V>(live: Cache<V>, r: Cache<V>, key: string, i: nat)
  {
    && FirstMinAt(live.stamps, i)
    && (live.stamps.keys[i] != key ==> live.stamps.keys[i] !in r.entries.vals)
    && (live.stamps.keys[i] != key && key in live.entries.vals ==> Size(r.entries) == Size(live.entries) - 1)
  }

  /** A value just stored is returned by any `get` within its time to live. */
  lemma SetThenGet<V>(c: Cache<V>, key: string, value: V, now: real, later: real)
    requires Inv(c) && Set(c, key, value, now).Success?
    requires later - now <= c.ttl
    ensures Get(Set(c, key, value, now).value, key, later).1 == Some(value)
  {
  }

  /**
   * Storing another key leaves an entry alone: a value set, then another
   * key set, is still returned by a `get` within its time to live as long
   * as the second `set` did not evict it.
   */
  lemma SetOtherThenGet<V>(c: Cache<V>, a: string, va: V, b: string, vb: V, t1: real, t2: real, t3: real)
    requires Inv(c) && Set(c, a, va, t1).Success?
    requires Set(Set(c, a, va, t1).value, b, vb, t2).Success?
    requires a != b && a in Set(Set(c, a, va, t1).value, b, vb, t2).value.entries.vals
    requires t3 - t1 <= c.ttl
    ensures Get(Set(Set(c, a, va, t1).value, b, vb, t2).value, a, t3).1 == Some(va)
  {
  }

  /** `clear` */
  function Clear<V>(c: Cache<V>): (r: Cache<V>)
    ensures Inv(r) && Size(r.entries) == 0 && Size(r.stamps) == 0
    ensures r == NewCache(c.maxSize, c.ttl)
  {
    Cache(Empty(), Empty(), c.maxSize, c.ttl)
  }

  // ---------------------------------------------------------------------
  // Metric windows
  // ---------------------------------------------------------------------

  const ResponseTimeWindow: nat := 1000
  const MemoryWindow: nat := 100

  /** Append, then keep `[-limit:]` if over the limit. */
  function AppendKeepLast(s: seq<real>, x: real, limit: nat): (r: seq<real>)
    ensures limit > 0 ==> r == Last(s + [x], limit)
    ensures limit == 0 ==> r == s + [x]
  {
    var a := s + [x];
    if |a| > limit then PyTail(a, limit) else a
  }

  /** `log_response_time`: the last 1000 response times, newest last. */
  function LogResponseTime(times: seq<real>, t: real): (r: seq<real>)
    ensures |r| <= ResponseTimeWindow && |r| > 0 && r[|r| - 1] == t
    ensures r == Last(times + [t], ResponseTimeWindow)
  {
    AppendKeepLast(times, t, ResponseTimeWindow)
  }

  /** The trimming of `log_memory_usage`, the sample passed in. */
  function LogMemoryUsage(samples: seq<real>, mb: real): (r: seq<real>)
    ensures |r| <= MemoryWindow && |r| > 0 && r[|r| - 1] == mb
    ensures r == Last(samples + [mb], MemoryWindow)
  {
    AppendKeepLast(samples, mb, MemoryWindow)
  }

  // ---------------------------------------------------------------------
  // optimize_conversation_history
  // ---------------------------------------------------------------------

  /** A conversation turn: its timestamp, its emotion confidence and its text. */
  datatype Turn = Turn(timestamp: real, confidence: real, text: string)

  /** The sort key `(x.timestamp, x.emotion_result.confidence)`. */
  function TurnRank(t: Turn): Rank
  {
    Rank(t.timestamp, t.confidence)
  }

  /**
   * `optimize_conversation_history`: a manager without turns (`None`) and a
   * history within the limit are left alone; otherwise the turns are
   * sorted newest first (ties by confidence, stably) and the first
   * `max_history` kept.
   */
  function OptimizeHistory(turns: Option<seq<Turn>>, maxHistory: int): (r: Option<seq<Turn>>)
    ensures turns.None? <==> r.None?
    ensures turns.Some? && |turns.value| <= maxHistory ==> r == turns
    ensures turns.Some? && |turns.value| > maxHistory >= 0 ==>
      && |r.value| == maxHistory
      && SortedDesc(r.value, TurnRank)
      && exists rest: seq<Turn> :: multiset(r.value) + multiset(rest) == multiset(turns.value)
           && forall x, y :: x in rest && y in r.value ==> !Below(TurnRank(y), TurnRank(x))
  {
    match turns
    case None => None
    case Some(ts) =>
      if |ts| <= maxHistory then turns
      else
        var sorted := SortDesc(ts, TurnRank);
        var kept := PyHead(sorted, maxHistory);
        if maxHistory >= 0 then
          var rest := sorted[maxHistory..];
          assert sorted == kept + rest;
          PrefixIsTop(sorted, TurnRank, maxHistory);
          Some(kept)
        else Some(kept)
  }
}

=== FILE: ordered_maps.dfy ===
/**
 * Python dictionaries with string keys.
 *
 * Iteration order of a Python dict is observable in the modelled code
 * (the first maximal entry wins `max`, `sorted` is stable, `min` over
 * cache keys returns the first minimal key), so a dict is its keys in
 * insertion order together with a Dafny `map` holding the values.
 */
module OrderedMaps {
  import opened Results

  datatype Dict<V> = Dict(keys: seq<string>, vals: map<string, V>)

  /** The keys are distinct and are exactly the keys of the value map. */
  ghost predicate Valid<V>(d: Dict<V>)
  {
    && Distinct(d.keys)
    && (forall k :: k in d.vals <==> k in d.keys)
  }

  /** `{}` */
  function Empty<V>(): (r: Dict<V>)
    ensures Valid(r) && |r.keys| == 0
  {
    Dict([], map[])
  }

  /** `k in d` */
  predicate HasKey<V>(d: Dict<V>, k: string)
  {
    k in d.vals
  }

  /** `d.get(k)` */
  function Get<V>(d: Dict<V>, k: string): (r: Option<V>)
    ensures r.Some? <==> HasKey(d, k)
  {
    if k in d.vals then Some(d.vals[k]) else None
  }

  /** `d.get(k, default)` */
  function GetOr<V>(d: Dict<V>, k: string, default: V): (r: V)
    ensures Get(d, k) == if HasKey(d, k) then Some(r) else None
  {
    if k in d.vals then d.vals[k] else default
  }

  /** `len(d)` */
  function Size<V>(d: Dict<V>): nat
  {
    |d.keys|
  }

  /** The value stored at the `i`-th key in iteration order. */
  function ValueAt<V>(d: Dict<V>, i: nat): V
    requires Valid(d) && i < |d.keys|
  {
    d.vals[d.keys[i]]
  }

  /** `list(d.items())` */
  function Items<V>(d: Dict<V>): (r: seq<(string, V)>)
    requires Valid(d)
    ensures |r| == |d.keys|
    ensures forall i :: 0 <= i < |r| ==> r[i] == (d.keys[i], d.vals[d.keys[i]])
  {
    seq(|d.keys|, i requires 0 <= i < |d.keys| => (d.keys[i], d.vals[d.keys[i]]))
  }

  /** `d[k] = v`: an existing key keeps its position, a new key goes last. */
  function Put<V>(d: Dict<V>, k: string, v: V): (r: Dict<V>)
    ensures r.vals == d.vals[k := v]
    ensures k in d.vals ==> r.keys == d.keys
    ensures k !in d.vals ==> r.keys == d.keys + [k]
    ensures Valid(d) ==> Valid(r)
  {
    if k in d.vals then Dict(d.keys, d.vals[k := v])
    else
      var r := Dict(d.keys + [k], d.vals[k := v]);
      assert Valid(d) ==> Valid(r) by {
        if Valid(d) {
          forall i, j | 0 <= i < j < |r.keys| ensures r.keys[i] != r.keys[j] {
            if j == |d.keys| {
              assert r.keys[i] == d.keys[i] && d.keys[i] in d.vals;
            }
          }
        }
      }
      r
  }

  /** `del d[k]` when present, nothing otherwise: the order of the rest is kept. */
  function Remove<V>(d: Dict<V>, k: string): (r: Dict<V>)
    ensures r.vals == d.vals - {k}
    ensures forall x :: x in r.keys <==> x in d.keys && x != k
    ensures Valid(d) ==> Valid(r)
    ensures Valid(d) && k in d.vals ==> |r.keys| == |d.keys| - 1
    ensures k !in d.keys ==> r.keys == d.keys
  {
    var r := Dict(Without(d.keys, k), d.vals - {k});
    assert Valid(d) ==> Valid(r) && (k in d.vals ==> |r.keys| == |d.keys| - 1) by {
      if Valid(d) {
        WithoutDistinct(d.keys, k);
      }
    }
    r
  }

  /** Keys never repeat. */
  ghost predicate Distinct(s: seq<string>)
  {
    forall i, j :: 0 <= i < j < |s| ==> s[i] != s[j]
  }

  /** The tail of a distinct list is distinct and lacks its head. */
  lemma DistinctTail(s: seq<string>)
    requires Distinct(s) && |s| > 0
    ensures Distinct(s[1..]) && s[0] !in s[1..]
    ensures forall x :: x in s <==> x == s[0] || x in s[1..]
  {
    assert s == [s[0]] + s[1..];
  }

  /**
   * The first occurrence of each string of `xs`, in order: the keys of a
   * dict into which the strings of `xs` are inserted one after another.
   */
  function Firsts(xs: seq<string>): seq<string>
    decreases |xs|
  {
    if |xs| == 0 then []
    else if xs[|xs| - 1] in xs[..|xs| - 1] then Firsts(xs[..|xs| - 1])
    else Firsts(xs[..|xs| - 1]) + [xs[|xs| - 1]]
  }

  /** Every string of `xs` keeps its first occurrence, and nothing else appears. */
  lemma {:induction false} FirstsMembers(xs: seq<string>)
    ensures forall x :: x in Firsts(xs) <==> x in xs
    decreases |xs|
  {
    if |xs| > 0 {
      var init, x := xs[..|xs| - 1], xs[|xs| - 1];
      FirstsMembers(init);
      assert xs == init + [x];
    }
  }

  /** The first occurrences never repeat. */
  lemma {:induction false} FirstsDistinct(xs: seq<string>)
    ensures Distinct(Firsts(xs))
    decreases |xs|
  {
    if |xs| > 0 {
      var init, x := xs[..|xs| - 1], xs[|xs| - 1];
      FirstsDistinct(init);
      FirstsMembers(init);
      var f := Firsts(init);
      if x !in init {
        assert forall i :: 0 <= i < |f| ==> f[i] in f;
        assert Firsts(xs) == f + [x];
      }
    }
  }

  /** A list without repeats is its own first occurrences. */
  lemma {:induction false} FirstsOfDistinct(xs: seq<string>)
    requires Distinct(xs)
    ensures Firsts(xs) == xs
    decreases |xs|
  {
    if |xs| > 0 {
      var init, x := xs[..|xs| - 1], xs[|xs| - 1];
      assert Distinct(init);
      assert x !in init by {
        assert forall i :: 0 <= i < |init| ==> init[i] == xs[i];
      }
      FirstsOfDistinct(init);
      assert xs == init + [x];
    }
  }

  /** One key more: it goes last unless already present. */
  lemma FirstsSnoc(keys: seq<string>, x: string)
    requires Distinct(keys)
    ensures Firsts(keys + [x]) == if x in keys then keys else keys + [x]
  {
    var ks := keys + [x];
    assert ks[..|ks| - 1] == keys && ks[|ks| - 1] == x;
    FirstsOfDistinct(keys);
  }

  /** Dropping repeats first changes nothing about where later strings go. */
  lemma {:induction false} FirstsOfFirsts(a: seq<string>, b: seq<string>)
    ensures Firsts(Firsts(a) + b) == Firsts(a + b)
    decreases |b|
  {
    if |b| == 0 {
      assert Firsts(a) + b == Firsts(a);
      assert a + b == a;
      FirstsDistinct(a);
      FirstsOfDistinct(Firsts(a));
    } else {
      var b0, x := b[..|b| - 1], b[|b| - 1];
      FirstsOfFirsts(a, b0);
      assert (Firsts(a) + b)[..|Firsts(a) + b| - 1] == Firsts(a) + b0;
      assert (a + b)[..|a + b| - 1] == a + b0;
      assert (Firsts(a) + b)[|Firsts(a) + b| - 1] == x == (a + b)[|a + b| - 1];
      FirstsMembers(a);
      assert x in Firsts(a) + b0 <==> x in a + b0;
    }
  }

  /** Distinct strings inserted first keep their places at the front. */
  lemma {:induction false} FirstsPrefix(a: seq<string>, b: seq<string>)
    requires Distinct(a)
    ensures |a| <= |Firsts(a + b)| && Firsts(a + b)[..|a|] == a
    decreases |b|
  {
    if |b| == 0 {
      assert a + b == a;
      FirstsOfDistinct(a);
    } else {
      FirstsPrefix(a, b[..|b| - 1]);
      assert (a + b)[..|a + b| - 1] == a + b[..|b| - 1];
    }
  }

  /** The first string inserted is the first key. */
  lemma FirstsHead(a: seq<string>, b: seq<string>)
    requires |a| > 0
    ensures |Firsts(a + b)| > 0 && Firsts(a + b)[0] == a[0]
  {
    assert a + b == [a[0]] + (a[1..] + b);
    FirstsPrefix([a[0]], a[1..] + b);
  }

  /**
   * Inserting one key into distinct keys (it goes last unless present),
   * then the rest, places every key as inserting them all at once does.
   */
  lemma FirstsInsertThen(keys: seq<string>, x: string, rest: seq<string>)
    requires Distinct(keys)
    ensures Firsts((if x in keys then keys else keys + [x]) + rest) == Firsts(keys + ([x] + rest))
  {
    FirstsSnoc(keys, x);
    FirstsOfFirsts(keys + [x], rest);
    assert keys + [x] + rest == keys + ([x] + rest);
  }

  /** `s` with every occurrence of `k` dropped, order kept. */
  function Without(s: seq<string>, k: string): (r: seq<string>)
    ensures forall x :: x in r <==> x in s && x != k
    ensures k !in s ==> r == s
    ensures |r| <= |s|
  {
    if |s| == 0 then []
    else
      var rest := Without(s[1..], k);
      assert forall x :: x in s <==> x == s[0] || x in s[1..];
      if s[0] == k then rest
      else
        var r := [s[0]] + rest;
        assert forall x :: x in r <==> x == s[0] || x in rest;
        r
  }

  lemma {:induction false} WithoutDistinct(s: seq<string>, k: string)
    requires Distinct(s)
    ensures Distinct(Without(s, k))
    ensures k in s ==> |Without(s, k)| == |s| - 1
  {
    if |s| > 0 {
      assert Distinct(s[1..]);
      WithoutDistinct(s[1..], k);
      var rest := Without(s[1..], k);
      if s[0] == k {
        assert k !in s[1..];
      } else {
        var r := [s[0]] + rest;
        assert s[0] !in rest;
        assert r == Without(s, k);
        assert k in s ==> k in s[1..];
      }
    }
  }

  /** `s` with every element of `drop` dropped, order kept. */
  function WithoutAll(s: seq<string>, drop: set<string>): (r: seq<string>)
    ensures forall x :: x in r <==> x in s && x !in drop
    ensures |r| <= |s|
  {
    if |s| == 0 then []
    else
      var rest := WithoutAll(s[1..], drop);
      assert forall x :: x in s <==> x == s[0] || x in s[1..];
      if s[0] in drop then rest
      else
        var r := [s[0]] + rest;
        assert forall x :: x in r <==> x == s[0] || x in rest;
        r
  }

  lemma {:induction false} WithoutAllDistinct(s: seq<string>, drop: set<string>)
    requires Distinct(s)
    ensures Distinct(WithoutAll(s, drop))
  {
    if |s| > 0 {
      DistinctTail(s);
      WithoutAllDistinct(s[1..], drop);
      var rest := WithoutAll(s[1..], drop);
      if s[0] !in drop {
        var r := [s[0]] + rest;
        assert s[0] !in rest;
        assert r == WithoutAll(s, drop);
      }
    }
  }

  /** `for k in drop: d.pop(k, None)`: the order of the rest is kept. */
  function RemoveAll<V>(d: Dict<V>, drop: set<string>): (r: Dict<V>)
    ensures r.vals == d.vals - drop
    ensures forall x :: x in r.keys <==> x in d.keys && x !in drop
    ensures Valid(d) ==> Valid(r)
  {
    var r := Dict(WithoutAll(d.keys, drop), d.vals - drop);
    assert Valid(d) ==> Valid(r) by {
      if Valid(d) {
        WithoutAllDistinct(d.keys, drop);
      }
    }
    r
  }

  /** For a well-formed dict, `len(d)` counts its distinct keys. */
  lemma SizeIsCount<V>(d: Dict<V>)
    requires Valid(d)
    ensures Size(d) == |d.vals.Keys|
  {
    assert d.vals.Keys == set x | x in d.keys;
    DistinctCount(d.keys);
  }

  lemma {:induction false} DistinctCount(s: seq<string>)
    requires Distinct(s)
    ensures |set x | x in s| == |s|
  {
    if |s| > 0 {
      DistinctTail(s);
      DistinctCount(s[1..]);
      assert (set x | x in s) == {s[0]} + (set x | x in s[1..]);
    }
  }
}

=== FILE: performance.dfy ===
/**
 * `PerformanceMonitor` of `src/performance.py`: API, error and cache
 * counters, per-function timing statistics, and the rates of the
 * performance report. Rounding of the reported figures and the report's
 * timestamp are not modelled.
 */
module Performance {
  import opened OrderedMaps

  /** `float('inf')` or a finite time. */
  datatype Ext = Infinity | Finite(v: real)

  /** One entry of `function_times`. */
  datatype FuncStats = FuncStats(count: nat, totalTime: real, maxTime: real, minTime: Ext)

  /** `self.metrics`, without the sample lists no operation here touches. */
  datatype Metrics = Metrics(
    apiCalls: nat, totalResponseTime: real, errors: nat,
    cacheHits: nat, cacheMisses: nat, functionTimes: Dict<FuncStats>)

  /** Errors never outnumber calls, and every timed function was called. */
  ghost predicate Inv(m: Metrics)
  {
    && m.errors <= m.apiCalls
    && Valid(m.functionTimes)
    && forall f :: f in m.functionTimes.vals ==> m.functionTimes.vals[f].count >= 1
  }

  /** `PerformanceMonitor()` */
  function NewMetrics(): (m: Metrics)
    ensures Inv(m) && m.apiCalls == 0 && m.errors == 0 && m.cacheHits == 0 && m.cacheMisses == 0
    ensures Size(m.functionTimes) == 0
  {
    Metrics(0, 0.0, 0, 0, 0, Empty())
  }

  /** `record_api_call`: one more call, and one more error when it failed. */
  function RecordApiCall(m: Metrics, responseTime: real, success: bool): (r: Metrics)
    ensures r.apiCalls == m.apiCalls + 1
    ensures r.errors == m.errors + (if success then 0 else 1)
    ensures r.totalResponseTime == m.totalResponseTime + responseTime
    ensures r.cacheHits == m.cacheHits && r.cacheMisses == m.cacheMisses && r.functionTimes == m.functionTimes
    ensures Inv(m) ==> Inv(r)
  {
    m.(apiCalls := m.apiCalls + 1,
       totalResponseTime := m.totalResponseTime + responseTime,
       errors := if success then m.errors else m.errors + 1)
  }

  /** `record_cache_access`: exactly one of the two counters goes up by one. */
  function RecordCacheAccess(m: Metrics, hit: bool): (r: Metrics)
    ensures r.cacheHits + r.cacheMisses == m.cacheHits + m.cacheMisses + 1
    ensures hit ==> r.cacheHits == m.cacheHits + 1 && r.cacheMisses == m.cacheMisses
    ensures !hit ==> r.cacheMisses == m.cacheMisses + 1 && r.cacheHits == m.cacheHits
    ensures r.apiCalls == m.apiCalls && r.errors == m.errors && r.functionTimes == m.functionTimes
    ensures Inv(m) ==> Inv(r)
  {
    if hit then m.(cacheHits := m.cacheHits + 1) else m.(cacheMisses := m.cacheMisses + 1)
  }

  function MinExt(a: Ext, t: real): (r: real)
    ensures r <= t
    ensures a.Finite? ==> r <= a.v && (r == a.v || r == t)
    ensures a.Infinity? ==> r == t
  {
    match a
    case Infinity => t
    case Finite(v) => if v <= t then v else t
  }

  function MaxReal(a: real, b: real): (r: real)
    ensures r >= a && r >= b && (r == a || r == b)
  {
    if a >= b then a else b
  }

  /** One more timing folded into a function's statistics. */
  function AddTime(s: FuncStats, t: real): (r: FuncStats)
    ensures r.count == s.count + 1 && r.totalTime == s.totalTime + t
    ensures r.maxTime == MaxReal(s.maxTime, t) && r.minTime == Finite(MinExt(s.minTime, t))
  {
    FuncStats(s.count + 1, s.totalTime + t, MaxReal(s.maxTime, t), Finite(MinExt(s.minTime, t)))
  }

  const FreshStats := FuncStats(0, 0.0, 0.0, Infinity)

  /**
   * `record_function_time`: the function's statistics (created empty on
   * first use) count one more call of that duration; other functions'
   * statistics are unchanged.
   */
  function RecordFunctionTime(m: Metrics, name: string, t: real): (r: Metrics)
    ensures HasKey(r.functionTimes, name)
    ensures r.functionTimes.vals[name] == AddTime(GetOr(m.functionTimes, name, FreshStats), t)
    ensures forall f :: f != name ==> Get(r.functionTimes, f) == Get(m.functionTimes, f)
    ensures r.apiCalls == m.apiCalls && r.errors == m.errors
    ensures r.cacheHits == m.cacheHits && r.cacheMisses == m.cacheMisses
    ensures Inv(m) ==> Inv(r)
  {
    var s := GetOr(m.functionTimes, name, FreshStats);
    m.(functionTimes := Put(m.functionTimes, name, AddTime(s, t)))
  }

  // ---------------------------------------------------------------------
  // The statistics of a sequence of timings
  // ---------------------------------------------------------------------

  function Sum(ts: seq<real>): real
  {
    if |ts| == 0 then 0.0 else Sum(ts[..|ts| - 1]) + ts[|ts| - 1]
  }

  /** The statistics after recording `ts` in order, starting fresh. */
  function StatsOf(ts: seq<real>): FuncStats
  {
    if |ts| == 0 then FreshStats else AddTime(StatsOf(ts[..|ts| - 1]), ts[|ts| - 1])
  }

  /**
   * After `n >= 1` recordings the count is `n`, the total their sum, the
   * minimum a lower and the maximum an upper bound of every time, the
   * minimum one of them, and the minimum never above the maximum.
   */
  lemma {:induction false} StatsBound(ts: seq<real>)
    requires |ts| >= 1
    ensures var s := StatsOf(ts);
      && s.count == |ts| && s.totalTime == Sum(ts)
      && s.minTime.Finite?
      && (forall i :: 0 <= i < |ts| ==> s.minTime.v <= ts[i] <= s.maxTime)
      && (exists i :: 0 <= i < |ts| && s.minTime.v == ts[i])
      && s.minTime.v <= s.maxTime
  {
    var init := ts[..|ts| - 1];
    var t := ts[|ts| - 1];
    if |init| > 0 {
      StatsBound(init);
      assert forall i :: 0 <= i < |init| ==> ts[i] == init[i];
      var s := StatsOf(init);
      var k :| 0 <= k < |init| && s.minTime.v == init[k];
      if MinExt(s.minTime, t) != t {
        assert MinExt(s.minTime, t) == ts[k];
      }
    }
  }

  /** `record_function_time(name, t)` for each `t` of `ts` in turn. */
  function RecordTimes(m: Metrics, name: string, ts: seq<real>): (r: Metrics)
    ensures Inv(m) ==> Inv(r)
  {
    if |ts| == 0 then m else RecordFunctionTime(RecordTimes(m, name, ts[..|ts| - 1]), name, ts[|ts| - 1])
  }

  /**
   * Timing a function not seen before `|ts|` times leaves exactly the
   * statistics of `ts` under its name, and every other function's alone.
   */
  lemma {:induction false} RecordTimesIsStatsOf(m: Metrics, name: string, ts: seq<real>)
    requires !HasKey(m.functionTimes, name) && |ts| >= 1
    ensures var r := RecordTimes(m, name, ts);
      HasKey(r.functionTimes, name) && r.functionTimes.vals[name] == StatsOf(ts)
    ensures forall f :: f != name ==> Get(RecordTimes(m, name, ts).functionTimes, f) == Get(m.functionTimes, f)
  {
    var init := ts[..|ts| - 1];
    if |init| > 0 {
      RecordTimesIsStatsOf(m, name, init);
    }
  }

  // ---------------------------------------------------------------------
  // get_performance_report
  // ---------------------------------------------------------------------

  /** A function's line of the report. */
  datatype FuncReport = FuncReport(averageTime: real, maxTime: real, minTime: Ext, calls: nat)

  /** The report: the no-data message, or the figures (percentages unrounded). */
  datatype Report =
    | NoData
    | Figures(totalApiCalls: nat, averageResponseTime: real, errorRate: real, cacheHitRate: real,
              totalErrors: nat, functionMetrics: Dict<FuncReport>)

  /**
   * `get_performance_report`: nothing but the no-data message before the
   * first API call; otherwise the average response time, the error and
   * cache hit rates as percentages (0 without cache accesses), and each
   * function's average, extremes and call count.
   */
  function PerformanceReport(m: Metrics): (r: Report)
    requires Inv(m)
    ensures m.apiCalls == 0 <==> r.NoData?
    ensures r.Figures? ==>
      && r.totalApiCalls == m.apiCalls && r.totalErrors == m.errors
      && r.averageResponseTime * m.apiCalls as real == m.totalResponseTime
      && r.errorRate * m.apiCalls as real == 100.0 * m.errors as real
      && 0.0 <= r.errorRate <= 100.0
      && (m.cacheHits + m.cacheMisses > 0 ==>
            r.cacheHitRate * (m.cacheHits + m.cacheMisses) as real == 100.0 * m.cacheHits as real)
      && 0.0 <= r.cacheHitRate <= 100.0
      && (m.cacheHits + m.cacheMisses == 0 ==> r.cacheHitRate == 0.0)
      && (m.cacheMisses == 0 && m.cacheHits > 0 ==> r.cacheHitRate == 100.0)
      && r.functionMetrics.keys == m.functionTimes.keys
      && (forall f :: f in r.functionMetrics.vals <==> f in m.functionTimes.vals)
      && (forall f :: f in r.functionMetrics.vals ==>
            var s := m.functionTimes.vals[f];
            r.functionMetrics.vals[f] == FuncReport(s.totalTime / s.count as real, s.maxTime, s.minTime, s.count))
  {
    if m.apiCalls == 0 then NoData
    else
      var n := m.apiCalls as real;
      var accesses := m.cacheHits + m.cacheMisses;
      var hitRate := if accesses > 0 then m.cacheHits as real / accesses as real else 0.0;
      var errorRate := m.errors as real / n;
      RatioBound(m.errors, m.apiCalls);
      Percent(m.errors, m.apiCalls);
      assert accesses > 0 ==> 0.0 <= hitRate <= 1.0 && hitRate * 100.0 * accesses as real == 100.0 * m.cacheHits as real by {
        if accesses > 0 {
          RatioBound(m.cacheHits, accesses);
          Percent(m.cacheHits, accesses);
        }
      }
      assert m.cacheMisses == 0 && m.cacheHits > 0 ==> hitRate == 1.0 by {
        if m.cacheMisses == 0 && m.cacheHits > 0 {
          assert accesses == m.cacheHits;
          SelfRatio(m.cacheHits);
        }
      }
      var fm := map f | f in m.functionTimes.vals ::
        var s := m.functionTimes.vals[f];
        FuncReport(s.totalTime / s.count as real, s.maxTime, s.minTime, s.count);
      Figures(m.apiCalls, m.totalResponseTime / n, errorRate * 100.0, hitRate * 100.0,
              m.errors, Dict(m.functionTimes.keys, fm))
  }

  lemma Percent(a: nat, b: nat)
    requires 0 < b
    ensures (a as real / b as real) * 100.0 * b as real == 100.0 * a as real
  {
  }

  lemma SelfRatio(a: nat)
    requires 0 < a
    ensures a as real / a as real == 1.0
  {
  }

  lemma RatioBound(a: nat, b: nat)
    requires 0 < b && a <= b
    ensures 0.0 <= a as real / b as real <= 1.0
  {
  }
}

=== FILE: rankings.dfy ===
/**
 * `sorted(d.items(), key=lambda x: x[1], reverse=True)[:n]`, the top-`n`
 * selection used both by `_format_emotion_trend` in
 * `src/response_generator.py` and by `get_emotion_analysis_summary` in
 * `src/utils.py`.
 */
module Rankings {
  import opened OrderedMaps
  import opened Slices
  import opened StableSort

  /** The sort key `lambda x: x[1]`. */
  function ScoreRank(p: (string, real)): Rank
  {
    Rank(p.1, 0.0)
  }

  /**
   * The first `n` items after a stable sort by score, highest first: as
   * many as asked for or as there are, in non-increasing order, each an
   * item of `d`, and among equal scores the ones first in `d`.
   */
  function TopItems(d: Dict<real>, n: nat): (r: seq<(string, real)>)
    requires Valid(d)
    ensures |r| == Min(n, Size(d))
    ensures SortedDesc(r, ScoreRank)
    ensures forall i :: 0 <= i < |r| ==> r[i] in Items(d)
    ensures forall v :: IsPrefix(WithKey(r, ScoreRank, v), WithKey(Items(d), ScoreRank, v))
  {
    var sorted := SortDesc(Items(d), ScoreRank);
    var top := PyHead(sorted, n);
    PrefixIsTop(sorted, ScoreRank, |top|);
    assert forall i :: 0 <= i < |top| ==> top[i] in multiset(sorted);
    forall v ensures IsPrefix(WithKey(top, ScoreRank, v), WithKey(Items(d), ScoreRank, v)) {
      WithKeyPrefix(sorted, ScoreRank, v, |top|);
    }
    top
  }

  ghost predicate IsPrefix<T>(a: seq<T>, b: seq<T>)
  {
    |a| <= |b| && a == b[..|a|]
  }

  /** Selecting from a prefix keeps a prefix of the selection. */
  lemma {:induction false} WithKeyPrefix<T>(s: seq<T>, key: T -> Rank, v: Rank, m: nat)
    requires m <= |s|
    ensures IsPrefix(WithKey(s[..m], key, v), WithKey(s, key, v))
    decreases m
  {
    if m > 0 {
      var p := s[..m];
      assert p[0] == s[0] && p[1..] == s[1..][..m - 1];
      WithKeyPrefix(s[1..], key, v, m - 1);
    }
  }

  /** No item of `d` left out of the top `n` scores more than one kept. */
  lemma TopIsTop(d: Dict<real>, n: nat, e: string)
    requires Valid(d) && HasKey(d, e)
    ensures var top := TopItems(d, n);
      (exists i :: 0 <= i < |top| && top[i].0 == e) ||
      forall i :: 0 <= i < |top| ==> d.vals[e] <= top[i].1
  {
    var items := Items(d);
    var sorted := SortDesc(items, ScoreRank);
    var top := PyHead(sorted, n);
    assert top == TopItems(d, n);
    PrefixIsTop(sorted, ScoreRank, |top|);
    var k :| 0 <= k < |d.keys| && d.keys[k] == e;
    assert items[k] in multiset(sorted);
    var j :| 0 <= j < |sorted| && sorted[j] == items[k];
    if j < |top| {
      assert top[j].0 == e;
    }
  }
}

=== FILE: response_generator.dfy ===
/**
 * The deterministic parts of `EmotionAwareResponseGenerator` in
 * `src/response_generator.py`: strategy selection over the built-in
 * strategy table, the temperature table, the message window sent to the
 * chat model, the top three trend entries put into the prompt, the canned
 * fallback replies, and the history trimming of `format_messages_for_api`.
 */
module Responses {
  import opened Results
  import opened OrderedMaps
  import opened Slices
  import opened StableSort
  import opened Rankings

  /**
   * One entry of `response_strategies`: its key, its `threshold` (absent
   * means 0.3), its emotion list and its `approach`.
   */
  datatype Strategy = Strategy(name: string, threshold: real, emotions: seq<string>, approach: string)

  const DefaultThreshold: real := 0.3
  const DefaultStrategyName := "balanced_engagement"

  /** `_default_strategies`, in dict order. */
  function DefaultStrategies(): (r: seq<Strategy>)
    ensures |r| == 4
    ensures forall i, j :: 0 <= i < j < |r| ==> r[i].threshold > r[j].threshold && r[i].name != r[j].name
    ensures forall i :: 0 <= i < |r| ==> 0.0 < r[i].threshold < 1.0 && |r[i].emotions| > 0
  {
    [ Strategy("high_positive", 0.7, ["joy", "excitement", "amusement", "enthusiasm"], "amplify_positive"),
      Strategy("moderate_positive", 0.4, ["contentment", "interest", "satisfaction"], "gentle_encouragement"),
      Strategy("negative", 0.3, ["sadness", "anger", "fear", "disappointment", "shame"], "empathetic_support"),
      Strategy("neutral", 0.2, ["doubt", "tiredness"], "balanced_engagement") ]
  }

  /**
   * No emotion is listed by two built-in strategies, so for the defaults
   * the order of the table decides nothing: an emotion can only ever
   * select the one strategy that lists it.
   */
  lemma DefaultStrategiesDisjoint()
    ensures var ss := DefaultStrategies();
      forall i, j, e :: 0 <= i < j < |ss| && e in ss[i].emotions ==> e !in ss[j].emotions
  {
  }

  /** The test of line 125-126: the emotion is listed and the threshold reached. */
  predicate Matches(s: Strategy, dominant: string, confidence: real)
  {
    dominant in s.emotions && confidence >= s.threshold
  }

  /** `i` is the first strategy of `ss` that matches. */
  predicate FirstMatch(ss: seq<Strategy>, dominant: string, confidence: real, i: int)
  {
    && 0 <= i < |ss|
    && Matches(ss[i], dominant, confidence)
    && forall j :: 0 <= j < i ==> !Matches(ss[j], dominant, confidence)
  }

  predicate NoMatch(ss: seq<Strategy>, dominant: string, confidence: real)
  {
    forall j :: 0 <= j < |ss| ==> !Matches(ss[j], dominant, confidence)
  }

  /** The index of the first matching strategy at or after `from`, if any. */
  function MatchFrom(ss: seq<Strategy>, dominant: string, confidence: real, from: nat): (r: int)
    requires from <= |ss|
    requires forall j :: 0 <= j < from ==> !Matches(ss[j], dominant, confidence)
    ensures r == -1 <==> NoMatch(ss, dominant, confidence)
    ensures r != -1 ==> FirstMatch(ss, dominant, confidence, r)
    decreases |ss| - from
  {
    if from == |ss| then -1
    else if Matches(ss[from], dominant, confidence) then from
    else MatchFrom(ss, dominant, confidence, from + 1)
  }

  /**
   * `_determine_response_strategy` as written: the KEY of the first
   * matching strategy, `balanced_engagement` when none matches.
   */
  function DetermineStrategy(ss: seq<Strategy>, dominant: string, confidence: real): (r: string)
    ensures NoMatch(ss, dominant, confidence) ==> r == DefaultStrategyName
    ensures forall i :: FirstMatch(ss, dominant, confidence, i) ==> r == ss[i].name
  {
    var i := MatchFrom(ss, dominant, confidence, 0);
    FirstMatchUnique(ss, dominant, confidence, i);
    if i == -1 then DefaultStrategyName else ss[i].name
  }

  /**
   * The selection the prompt and temperature tables are keyed by: the
   * APPROACH of the first matching strategy, `balanced_engagement` when
   * none matches.
   */
  function DetermineApproach(ss: seq<Strategy>, dominant: string, confidence: real): (r: string)
    ensures NoMatch(ss, dominant, confidence) ==> r == DefaultStrategyName
    ensures forall i :: FirstMatch(ss, dominant, confidence, i) ==> r == ss[i].approach
  {
    var i := MatchFrom(ss, dominant, confidence, 0);
    FirstMatchUnique(ss, dominant, confidence, i);
    if i == -1 then DefaultStrategyName else ss[i].approach
  }

  /** At most one index is the first match. */
  lemma FirstMatchUnique(ss: seq<Strategy>, dominant: string, confidence: real, i: int)
    requires (i == -1 && NoMatch(ss, dominant, confidence)) || FirstMatch(ss, dominant, confidence, i)
    ensures forall j :: FirstMatch(ss, dominant, confidence, j) ==> j == i
  {
  }

  /** `_get_temperature_for_strategy`: the four approaches, 0.7 otherwise. */
  function Temperature(tag: string): (t: real)
    ensures t == 0.4 || t == 0.6 || t == 0.7 || t == 0.8
    ensures t == 0.8 <==> tag == "amplify_positive"
    ensures t == 0.6 <==> tag == "gentle_encouragement"
    ensures t == 0.4 <==> tag == "empathetic_support"
  {
    if tag == "amplify_positive" then 0.8
    else if tag == "gentle_encouragement" then 0.6
    else if tag == "empathetic_support" then 0.4
    else 0.7
  }

  /**
   * With the built-in strategies, the tag `_determine_response_strategy`
   * returns is never an approach name, so every reply is generated at
   * temperature 0.7.
   */
  lemma DefaultTemperatureIsConstant(dominant: string, confidence: real)
    ensures Temperature(DetermineStrategy(DefaultStrategies(), dominant, confidence)) == 0.7
  {
    var ss := DefaultStrategies();
    var i := MatchFrom(ss, dominant, confidence, 0);
    FirstMatchUnique(ss, dominant, confidence, i);
  }

  /** The concrete input: joy at 0.8 selects `high_positive`, not `amplify_positive`. */
  lemma JoySelectsKey()
    ensures DetermineStrategy(DefaultStrategies(), "joy", 0.8) == "high_positive"
    ensures Temperature(DetermineStrategy(DefaultStrategies(), "joy", 0.8)) == 0.7
  {
    assert FirstMatch(DefaultStrategies(), "joy", 0.8, 0);
  }

  /** With the approach selected, joy at or above 0.7 is answered at 0.8. */
  lemma JoyApproach(confidence: real)
    requires confidence >= 0.7
    ensures DetermineApproach(DefaultStrategies(), "joy", confidence) == "amplify_positive"
    ensures Temperature(DetermineApproach(DefaultStrategies(), "joy", confidence)) == 0.8
  {
    assert FirstMatch(DefaultStrategies(), "joy", confidence, 0);
  }

  /** The remaining expectations of the system test hold for the approach. */
  lemma SupportApproaches(confidence: real)
    ensures confidence >= 0.3 ==> DetermineApproach(DefaultStrategies(), "sadness", confidence) == "empathetic_support"
    ensures confidence >= 0.4 ==> DetermineApproach(DefaultStrategies(), "contentment", confidence) == "gentle_encouragement"
  {
    if confidence >= 0.3 {
      assert FirstMatch(DefaultStrategies(), "sadness", confidence, 2);
    }
    if confidence >= 0.4 {
      assert FirstMatch(DefaultStrategies(), "contentment", confidence, 1);
    }
  }

  /** Confidence strictly below every threshold listing the emotion falls to the default. */
  lemma BelowThresholdIsDefault(ss: seq<Strategy>, dominant: string, confidence: real)
    requires forall i :: 0 <= i < |ss| && dominant in ss[i].emotions ==> confidence < ss[i].threshold
    ensures DetermineApproach(ss, dominant, confidence) == DefaultStrategyName
    ensures DetermineStrategy(ss, dominant, confidence) == DefaultStrategyName
  {
  }

  // ---------------------------------------------------------------------
  // Message window
  // ---------------------------------------------------------------------

  /** A chat-API message: exactly a role and a content. */
  datatype ApiMessage = ApiMessage(role: string, content: string)

  /** The user/assistant pair each exchange contributes, missing keys as `''`. */
  function Pairs(xs: seq<Dict<string>>): (r: seq<ApiMessage>)
    ensures |r| == 2 * |xs|
    ensures forall i :: 0 <= i < |xs| ==>
      && r[2 * i] == ApiMessage("user", GetOr(xs[i], "user", ""))
      && r[2 * i + 1] == ApiMessage("assistant", GetOr(xs[i], "bot", ""))
    decreases |xs|
  {
    if |xs| == 0 then []
    else
      var init := xs[..|xs| - 1];
      var x := xs[|xs| - 1];
      var r := Pairs(init) + [ApiMessage("user", GetOr(x, "user", "")), ApiMessage("assistant", GetOr(x, "bot", ""))];
      assert forall i :: 0 <= i < |init| ==> xs[i] == init[i];
      r
  }

  /**
   * `_build_message_history`: the system prompt, a user/assistant pair for
   * each of the last six exchanges, and the current user message.
   */
  function BuildMessageHistory(history: seq<Dict<string>>, systemPrompt: string, userMessage: string): (r: seq<ApiMessage>)
    ensures |r| == 2 + 2 * Min(6, |history|)
    ensures r[0] == ApiMessage("system", systemPrompt)
    ensures r[|r| - 1] == ApiMessage("user", userMessage)
    ensures var recent := Last(history, 6);
      forall i :: 0 <= i < |recent| ==>
        && r[1 + 2 * i] == ApiMessage("user", GetOr(recent[i], "user", ""))
        && r[2 + 2 * i] == ApiMessage("assistant", GetOr(recent[i], "bot", ""))
  {
    var recent := if |history| > 0 then PyTail(history, 6) else [];
    var pairs := Pairs(recent);
    var r := [ApiMessage("system", systemPrompt)] + pairs + [ApiMessage("user", userMessage)];
    assert forall k :: 0 <= k < |pairs| ==> r[1 + k] == pairs[k];
    r
  }

  // ---------------------------------------------------------------------
  // Trend shown in the prompt
  // ---------------------------------------------------------------------

  /**
   * The selection `_format_emotion_trend` renders: `None` for an empty
   * trend (the "no previous emotional context" sentence), else the three
   * highest-scoring items, ties in trend order.
   */
  function TrendTop(trend: Dict<real>): (r: Option<seq<(string, real)>>)
    requires Valid(trend)
    ensures r.None? <==> Size(trend) == 0
    ensures r.Some? ==> r.value == TopItems(trend, 3) && |r.value| == Min(3, Size(trend))
  {
    if Size(trend) == 0 then None else Some(TopItems(trend, 3))
  }

  // ---------------------------------------------------------------------
  // Canned replies and history trimming
  // ---------------------------------------------------------------------

  /** `fallback_responses` in `_fallback_response`, in table order. */
  const CannedReplies: seq<(string, string)> := [
    ("joy", "I can sense your positive energy! That's wonderful to hear."),
    ("sadness", "I understand you might be feeling down. I'm here to listen."),
    ("anger", "I can tell you might be frustrated. Let's talk through this."),
    ("fear", "It sounds like you might be worried. That's completely understandable."),
    ("surprise", "That sounds unexpected! I'd love to hear more about it."),
    ("amusement", "I love that you're finding humor in things!"),
    ("excitement", "Your enthusiasm comes through clearly!"),
    ("contentment", "You seem to be in a peaceful place right now.")]

  const FallbackDefault := "I'm here to chat with you and understand how you're feeling."

  /** `table.get(key, default)` over a table of pairs: the first entry for `key`. */
  function Lookup(table: seq<(string, string)>, key: string, default: string): (r: string)
    ensures (forall i :: 0 <= i < |table| ==> table[i].0 != key) ==> r == default
    ensures forall i :: 0 <= i < |table| && table[i].0 == key && (forall j :: 0 <= j < i ==> table[j].0 != key) ==>
      r == table[i].1
    decreases |table|
  {
    if |table| == 0 then default
    else if table[0].0 == key then table[0].1
    else
      var r := Lookup(table[1..], key, default);
      assert forall i :: 1 <= i < |table| ==> table[i] == table[1..][i - 1];
      r
  }

  /** Every reply of the table, and the default, is non-empty. */
  ghost predicate AllNonEmpty(table: seq<(string, string)>, default: string)
  {
    |default| > 0 && forall i :: 0 <= i < |table| ==> |table[i].1| > 0
  }

  /** Looking up in a table of non-empty replies never gives an empty one. */
  lemma {:induction false} LookupNonEmpty(table: seq<(string, string)>, key: string, default: string)
    requires AllNonEmpty(table, default)
    ensures |Lookup(table, key, default)| > 0
    decreases |table|
  {
    if |table| > 0 && table[0].0 != key {
      assert AllNonEmpty(table[1..], default);
      LookupNonEmpty(table[1..], key, default);
    }
  }

  lemma CannedRepliesNonEmpty()
    ensures AllNonEmpty(CannedReplies, FallbackDefault)
    ensures |CannedReplies| == 8
    ensures forall i, j :: 0 <= i < j < |CannedReplies| ==> CannedReplies[i].0 != CannedReplies[j].0
  {
  }

  /**
   * `_fallback_response`: the canned reply for one of the eight emotions,
   * the fixed default for any other; never empty.
   */
  function FallbackResponse(emotion: string): (r: string)
    ensures |r| > 0
    ensures (forall i :: 0 <= i < |CannedReplies| ==> CannedReplies[i].0 != emotion) ==> r == FallbackDefault
  {
    CannedRepliesNonEmpty();
    LookupNonEmpty(CannedReplies, emotion, FallbackDefault);
    Lookup(CannedReplies, emotion, FallbackDefault)
  }

  /** A history entry handed to `format_messages_for_api`. */
  datatype HistoryItem = HistoryItem(role: string, content: string)

  function ApiOf(m: HistoryItem): ApiMessage
  {
    ApiMessage(m.role, m.content)
  }

  /** The loop over the trimmed history: `system` entries dropped, the rest reduced to role and content. */
  function NonSystem(ms: seq<HistoryItem>): (r: seq<ApiMessage>)
    ensures |r| <= |ms|
    ensures forall i :: 0 <= i < |r| ==> r[i].role != "system"
    ensures forall m :: m in ms && m.role != "system" ==> ApiOf(m) in r
    ensures forall a :: a in r ==> exists m :: m in ms && ApiOf(m) == a
    decreases |ms|
  {
    if |ms| == 0 then []
    else
      var rest := NonSystem(ms[1..]);
      assert forall m :: m in ms <==> m == ms[0] || m in ms[1..];
      if ms[0].role == "system" then rest else [ApiOf(ms[0])] + rest
  }

  /** Filtering distributes over concatenation, so relative order is kept. */
  lemma {:induction false} NonSystemAppend(a: seq<HistoryItem>, b: seq<HistoryItem>)
    ensures NonSystem(a + b) == NonSystem(a) + NonSystem(b)
    decreases |a|
  {
    if |a| > 0 {
      assert (a + b)[1..] == a[1..] + b;
      NonSystemAppend(a[1..], b);
    } else {
      assert a + b == b;
    }
  }

  /** A history without `system` entries passes through whole. */
  lemma {:induction false} NonSystemKeepsAll(ms: seq<HistoryItem>)
    requires forall i :: 0 <= i < |ms| ==> ms[i].role != "system"
    ensures |NonSystem(ms)| == |ms|
    ensures forall i :: 0 <= i < |ms| ==> NonSystem(ms)[i] == ApiOf(ms[i])
    decreases |ms|
  {
    if |ms| > 0 {
      NonSystemKeepsAll(ms[1..]);
    }
  }

  /**
   * `format_messages_for_api`: Python's `[-max_history:]`, then the filter.
   * A positive limit keeps the last `max_history` entries; `[-0:]` is the
   * whole list, and a negative limit drops the first `-max_history`.
   */
  function FormatMessagesForApi(history: seq<HistoryItem>, maxHistory: int): (r: seq<ApiMessage>)
    ensures maxHistory > 0 ==> |r| <= maxHistory
    ensures |r| <= |history|
    ensures forall i :: 0 <= i < |r| ==> r[i].role != "system"
    ensures maxHistory > 0 ==> r == NonSystem(Last(history, maxHistory))
    ensures maxHistory == 0 ==> r == NonSystem(history)
    ensures maxHistory < 0 ==> r == NonSystem(history[Min(-maxHistory, |history|)..])
  {
    NonSystem(PyTail(history, maxHistory))
  }
}

=== FILE: results.dfy ===
/** Failure-carrying values shared by every module of the model. */
module Results {

  /** A value that may be missing (Python's `None`). */
  datatype Option<T> = None | Some(value: T)
  {
    function GetOr(default: T): T
    {
      match this
      case Some(v) => v
      case None => default
    }
  }

  /** The outcome of an operation that can raise. */
  datatype Result<T, E> = Success(value: T) | Failure(error: E)
}

=== FILE: score_sums.dfy ===
/**
 * Summing and averaging a list of score maps the way
 * `EmotionHistory.get_emotion_trend` does: one pass over the results and,
 * inside it, over each result's items, accumulating into a dict in
 * first-appearance order.
 */
module ScoreSums {
  import opened OrderedMaps

  /** Every score map of `w` is a well-formed dict. */
  ghost predicate AllValid(w: seq<Dict<real>>)
  {
    forall i :: 0 <= i < |w| ==> Valid(w[i])
  }

  /** The sum of `x`'s scores over `w`, a map without `x` counting 0. */
  function TotalOf(w: seq<Dict<real>>, x: string): real
    decreases |w|
  {
    if |w| == 0 then 0.0 else GetOr(w[0], x, 0.0) + TotalOf(w[1..], x)
  }

  /** Some map of `w` scores emotion `x`. */
  ghost predicate Scored(w: seq<Dict<real>>, x: string)
  {
    exists i :: 0 <= i < |w| && x in w[i].vals
  }

  /**
   * The inner loop over one result's items `ks`:
   * `sums[k] = sums.get(k, 0) + d[k]`.
   */
  function AddScores(acc: Dict<real>, d: Dict<real>, ks: seq<string>): (r: Dict<real>)
    decreases |ks|
    ensures Valid(acc) ==> Valid(r)
  {
    if |ks| == 0 then acc
    else
      var k := ks[0];
      AddScores(Put(acc, k, GetOr(acc, k, 0.0) + GetOr(d, k, 0.0)), d, ks[1..])
  }

  /** A key new to the sums is appended; one already there keeps its place. */
  lemma {:induction false} AddScoresOrderFirsts(acc: Dict<real>, d: Dict<real>, ks: seq<string>)
    requires Valid(acc)
    ensures AddScores(acc, d, ks).keys == Firsts(acc.keys + ks)
    decreases |ks|
  {
    if |ks| == 0 {
      assert acc.keys + ks == acc.keys;
      FirstsOfDistinct(acc.keys);
    } else {
      var k := ks[0];
      var next := Put(acc, k, GetOr(acc, k, 0.0) + GetOr(d, k, 0.0));
      assert AddScores(acc, d, ks) == AddScores(next, d, ks[1..]);
      assert next.keys == if k in acc.keys then acc.keys else acc.keys + [k];
      AddScoresOrderFirsts(next, d, ks[1..]);
      FirstsInsertThen(acc.keys, k, ks[1..]);
      HeadThenTail(ks);
    }
  }

  /** The sums gain exactly the keys `ks`. */
  lemma {:induction false} AddScoresHas(acc: Dict<real>, d: Dict<real>, ks: seq<string>, x: string)
    ensures x in AddScores(acc, d, ks).vals <==> x in acc.vals || x in ks
    decreases |ks|
  {
    if |ks| > 0 {
      var k := ks[0];
      var next := Put(acc, k, GetOr(acc, k, 0.0) + GetOr(d, k, 0.0));
      assert AddScores(acc, d, ks) == AddScores(next, d, ks[1..]);
      AddScoresHas(next, d, ks[1..], x);
      assert x in ks <==> x == k || x in ks[1..];
    }
  }

  /** With distinct `ks`, each of them gains `d`'s score and nothing else changes. */
  lemma {:induction false} AddScoresAt(acc: Dict<real>, d: Dict<real>, ks: seq<string>, x: string)
    requires Unique(ks) && x in AddScores(acc, d, ks).vals
    ensures AddScores(acc, d, ks).vals[x] == GetOr(acc, x, 0.0) + (if x in ks then GetOr(d, x, 0.0) else 0.0)
    decreases |ks|
  {
    if |ks| > 0 {
      var k := ks[0];
      var next := Put(acc, k, GetOr(acc, k, 0.0) + GetOr(d, k, 0.0));
      assert AddScores(acc, d, ks) == AddScores(next, d, ks[1..]);
      AddScoresAt(next, d, ks[1..], x);
      AddScoresStep(acc, d, ks, x);
    }
  }

  /** No element repeats, stated one element at a time. */
  ghost predicate Unique(ks: seq<string>)
    decreases |ks|
  {
    |ks| == 0 || (ks[0] !in ks[1..] && Unique(ks[1..]))
  }

  lemma {:induction false} DistinctIsUnique(ks: seq<string>)
    requires Distinct(ks)
    ensures Unique(ks)
    decreases |ks|
  {
    if |ks| > 0 {
      DistinctTail(ks);
      DistinctIsUnique(ks[1..]);
    }
  }

  /** One step of `AddScores`, for a single key `x`. */
  lemma AddScoresStep(acc: Dict<real>, d: Dict<real>, ks: seq<string>, x: string)
    requires |ks| > 0 && ks[0] !in ks[1..]
    ensures var next := Put(acc, ks[0], GetOr(acc, ks[0], 0.0) + GetOr(d, ks[0], 0.0));
      GetOr(next, x, 0.0) + (if x in ks[1..] then GetOr(d, x, 0.0) else 0.0)
      == GetOr(acc, x, 0.0) + (if x in ks then GetOr(d, x, 0.0) else 0.0)
  {
    if x != ks[0] {
      assert x in ks <==> x in ks[1..];
    }
  }

  /** Keys new to `acc` are appended in the order of `ks`. */
  lemma {:induction false} AddScoresOrder(acc: Dict<real>, d: Dict<real>, ks: seq<string>)
    requires Distinct(ks) && forall k :: k in ks ==> k in d.vals && k !in acc.vals
    ensures AddScores(acc, d, ks).keys == acc.keys + ks
    decreases |ks|
  {
    if |ks| > 0 {
      var k := ks[0];
      var next := Put(acc, k, GetOr(acc, k, 0.0) + GetOr(d, k, 0.0));
      DistinctTail(ks);
      AddScoresOrder(next, d, ks[1..]);
      AppendFirst(acc.keys, ks);
    }
  }

  lemma AppendFirst<T>(s: seq<T>, xs: seq<T>)
    requires |xs| > 0
    ensures s + [xs[0]] + xs[1..] == s + xs
  {
    assert xs == [xs[0]] + xs[1..];
  }

  /** Every map's keys, map after map: the order the sums first see them in. */
  function KeysOf(w: seq<Dict<real>>): (r: seq<string>)
    decreases |w|
  {
    if |w| == 0 then [] else w[0].keys + KeysOf(w[1..])
  }

  /** The outer loop over the window: `acc` plus every map's scores. */
  function SumScores(acc: Dict<real>, w: seq<Dict<real>>): (r: Dict<real>)
    requires AllValid(w)
    decreases |w|
    ensures Valid(acc) ==> Valid(r)
  {
    if |w| == 0 then acc
    else
      assert AllValid(w[1..]);
      SumScores(AddScores(acc, w[0], w[0].keys), w[1..])
  }

  /**
   * A new emotion takes its place after the ones already summed, so the
   * sums' keys come in the order the window first mentions them.
   */
  lemma {:induction false} SumScoresOrder(acc: Dict<real>, w: seq<Dict<real>>)
    requires AllValid(w) && Valid(acc)
    ensures SumScores(acc, w).keys == Firsts(acc.keys + KeysOf(w))
    decreases |w|
  {
    if |w| == 0 {
      assert acc.keys + KeysOf(w) == acc.keys;
      FirstsOfDistinct(acc.keys);
    } else {
      assert AllValid(w[1..]);
      var next := AddScores(acc, w[0], w[0].keys);
      AddScoresOrderFirsts(acc, w[0], w[0].keys);
      SumScoresOrder(next, w[1..]);
      FirstsRegroup(acc.keys, w[0].keys, KeysOf(w[1..]));
    }
  }

  lemma FirstsRegroup(a: seq<string>, b: seq<string>, c: seq<string>)
    ensures Firsts(Firsts(a + b) + c) == Firsts(a + (b + c))
  {
    ConcatAssoc(a, b, c);
    FirstsOfFirsts(a + b, c);
  }

  lemma HeadThenTail(ks: seq<string>)
    requires |ks| > 0
    ensures ks == [ks[0]] + ks[1..]
  {
  }

  lemma ConcatAssoc(a: seq<string>, b: seq<string>, c: seq<string>)
    ensures a + b + c == a + (b + c)
  {
  }

  lemma ScoredSplit(w: seq<Dict<real>>, x: string)
    requires |w| > 0
    ensures Scored(w, x) <==> x in w[0].vals || Scored(w[1..], x)
  {
    if Scored(w[1..], x) {
      var i :| 0 <= i < |w[1..]| && x in w[1..][i].vals;
      assert x in w[i + 1].vals;
    }
    if Scored(w, x) && x !in w[0].vals {
      var i :| 0 <= i < |w| && x in w[i].vals;
      assert i > 0 && w[1..][i - 1] == w[i];
    }
  }

  /** The sums hold exactly the emotions scored somewhere. */
  lemma {:induction false} SumScoresKeys(acc: Dict<real>, w: seq<Dict<real>>, x: string)
    requires AllValid(w)
    ensures x in SumScores(acc, w).vals <==> x in acc.vals || Scored(w, x)
    decreases |w|
  {
    if |w| > 0 {
      assert AllValid(w[1..]);
      SumScoresKeys(AddScores(acc, w[0], w[0].keys), w[1..], x);
      AddScoresHas(acc, w[0], w[0].keys, x);
      ScoredSplit(w, x);
    }
  }

  /** Each emotion in the sums holds its total over the window. */
  lemma {:induction false} SumScoresAt(acc: Dict<real>, w: seq<Dict<real>>, x: string)
    requires AllValid(w) && x in SumScores(acc, w).vals
    ensures SumScores(acc, w).vals[x] == GetOr(acc, x, 0.0) + TotalOf(w, x)
    decreases |w|
  {
    if |w| > 0 {
      var d := w[0];
      var next := AddScores(acc, d, d.keys);
      assert AllValid(w[1..]);
      SumScoresAt(next, w[1..], x);
      AddScoresHas(acc, d, d.keys, x);
      if x in next.vals {
        DistinctIsUnique(d.keys);
        AddScoresAt(acc, d, d.keys, x);
      }
    }
  }

  /** `{e: s / n for e, s in sums.items()}` */
  function Divide(sums: Dict<real>, n: real): (r: Dict<real>)
    requires n != 0.0
    ensures r.keys == sums.keys && r.vals.Keys == sums.vals.Keys
    ensures forall x :: x in r.vals ==> r.vals[x] == sums.vals[x] / n
  {
    Dict(sums.keys, map x | x in sums.vals :: sums.vals[x] / n)
  }

  /** The mean of the maps of a non-empty window, per emotion scored. */
  function Mean(w: seq<Dict<real>>): (r: Dict<real>)
    requires AllValid(w) && |w| > 0
    ensures Valid(r)
  {
    Divide(SumScores(Empty(), w), |w| as real)
  }

  lemma MeanIsMean(w: seq<Dict<real>>)
    requires AllValid(w) && |w| > 0
    ensures forall x :: HasKey(Mean(w), x) <==> Scored(w, x)
    ensures forall x :: HasKey(Mean(w), x) ==> Mean(w).vals[x] == TotalOf(w, x) / |w| as real
    ensures Mean(w).keys == Firsts(KeysOf(w))
  {
    var sums := SumScores(Empty(), w);
    SumScoresOrder(Empty(), w);
    assert Empty<real>().keys + KeysOf(w) == KeysOf(w);
    forall x ensures x in sums.vals <==> Scored(w, x) {
      SumScoresKeys(Empty(), w, x);
    }
    forall x | x in sums.vals ensures sums.vals[x] == TotalOf(w, x) {
      SumScoresAt(Empty(), w, x);
    }
  }

  /** Adding one map's items into an empty accumulator copies the map. */
  lemma CopyScores(d: Dict<real>)
    requires Valid(d)
    ensures AddScores(Empty(), d, d.keys) == d
  {
    var once := AddScores(Empty(), d, d.keys);
    AddScoresOrder(Empty(), d, d.keys);
    DistinctIsUnique(d.keys);
    forall x ensures x in once.vals <==> x in d.vals {
      AddScoresHas(Empty(), d, d.keys, x);
    }
    forall x | x in once.vals ensures once.vals[x] == d.vals[x] {
      AddScoresAt(Empty(), d, d.keys, x);
    }
    assert once.vals == d.vals;
  }

  /** The mean of one map is that map, keys in the same order. */
  lemma MeanOfOne(d: Dict<real>)
    requires Valid(d)
    ensures Mean([d]) == d
  {
    var w := [d];
    assert AllValid(w);
    var once := AddScores(Empty(), d, d.keys);
    assert SumScores(Empty(), w) == SumScores(once, w[1..]);
    assert w[1..] == [];
    CopyScores(d);
    assert Divide(d, 1.0).vals == d.vals;
  }
}

=== FILE: security.dfy ===
/**
 * The pure helpers of `SecurityManager` in `security/security_config.py`:
 * the API-key format check, the pattern-stripping input sanitiser, and the
 * sliding-window rate limiter over the session's request times (the
 * session map and the clock are parameters).
 */
module Security {
  import opened Text
  import opened Slices

  /**
   * `validate_api_key_format`: at least ten characters, and for an OpenAI
   * key the prefix `sk-`.
   */
  function ValidateApiKeyFormat(apiKey: string, keyType: string): (r: bool)
    ensures r <==> |apiKey| >= 10 && (keyType == "openai" ==> StartsWith(apiKey, "sk-"))
    ensures apiKey == "" ==> !r
  {
    if apiKey == "" || |apiKey| < 10 then false
    else if keyType == "openai" && !StartsWith(apiKey, "sk-") then false
    else true
  }

  // ---------------------------------------------------------------------
  // sanitize_input
  // ---------------------------------------------------------------------

  /** `dangerous_patterns`, in the order they are removed. */
  const Patterns: seq<string> := ["<script", "</script>", "javascript:", "data:"]

  ghost predicate NonEmptyPatterns(ps: seq<string>)
  {
    forall i :: 0 <= i < |ps| ==> |ps[i]| > 0
  }

  /** No pattern of `ps` occurs in `s`. */
  ghost predicate Clean(s: string, ps: seq<string>)
  {
    forall i :: 0 <= i < |ps| ==> !Contains(s, ps[i])
  }

  /**
   * The loop `sanitized = sanitized.replace(pattern, '')` over `ps`, in
   * order: the text only shrinks, and it is unchanged exactly when no
   * pattern occurs in it.
   */
  function RemovePatterns(s: string, ps: seq<string>): (r: string)
    requires NonEmptyPatterns(ps)
    ensures |r| <= |s|
    ensures r == s || |r| < |s|
    ensures Clean(s, ps) ==> r == s
    ensures r == s ==> Clean(s, ps)
    decreases |ps|
  {
    if |ps| == 0 then s
    else
      var t := RemoveAll(s, ps[0]);
      var r := RemovePatterns(t, ps[1..]);
      assert r == s ==> t == s;
      r
  }

  /** `sanitize_input` as written: one pass over the patterns, then `strip()`. */
  function SanitizeInput(s: string): (r: string)
    ensures |r| <= |s|
    ensures Clean(s, Patterns) ==> r == Strip(s)
  {
    Strip(RemovePatterns(s, Patterns))
  }

  /**
   * A single pass can assemble a pattern out of the pieces around a
   * removed one: `<<scriptscript` comes out as `<script`.
   */
  lemma SanitizeLeavesScriptTag()
    ensures SanitizeInput("<<scriptscript") == "<script"
    ensures !Clean(SanitizeInput("<<scriptscript"), Patterns)
  {
    var tag := "<script";
    OnePassLeavesTag();
    NoSpaceStrip(tag);
    assert StartsWith(tag, Patterns[0]);
  }

  lemma OnePassLeavesTag()
    ensures RemovePatterns("<<scriptscript", Patterns) == "<script"
  {
    RemoveSplitTag();
    TagSurvivesRest();
  }

  /** The first removal: `<` + (`<script` removed) + `script`. */
  lemma RemoveSplitTag()
    ensures RemoveAll("<<scriptscript", "<script") == "<script"
  {
    var p, tail := "<script", "script";
    assert "<<scriptscript" == "<" + (p + tail);
    RemoveKeepsHead('<', p + tail, p);
    RemoveDropsHead(p, tail);
    NotContainsShort(tail, p);
    assert "<" + tail == p;
  }

  /** A first character that does not start the pattern is kept. */
  lemma RemoveKeepsHead(c: char, rest: string, p: string)
    requires |p| > 1 && |rest| > 0 && p[1] != rest[0]
    ensures RemoveAll([c] + rest, p) == [c] + RemoveAll(rest, p)
  {
    var s := [c] + rest;
    assert s[1..] == rest;
    assert s[1] != p[1];
  }

  /** An occurrence at the front is removed. */
  lemma RemoveDropsHead(p: string, rest: string)
    requires |p| > 0
    ensures RemoveAll(p + rest, p) == RemoveAll(rest, p)
  {
    var s := p + rest;
    assert s[..|p|] == p && s[|p|..] == rest;
  }

  /** `<script` holds none of the other three patterns. */
  lemma TagSurvivesRest()
    ensures RemovePatterns("<script", Patterns[1..]) == "<script"
  {
    NotContainsShort("<script", "</script>");
    NotContainsShort("<script", "javascript:");
    NotContainsMissing("<script", "data:", 0);
    assert Clean("<script", Patterns[1..]);
  }

  lemma NoSpaceStrip(s: string)
    requires s == "<script"
    ensures Strip(s) == s
  {
    assert forall i :: 0 <= i < |s| ==> !IsSpace(s[i]);
  }

  /** Remove the patterns again until none occurs. */
  function Scrub(s: string, ps: seq<string>): (r: string)
    requires NonEmptyPatterns(ps)
    ensures |r| <= |s|
    ensures Clean(r, ps)
    ensures Clean(s, ps) ==> r == s
    decreases |s|
  {
    var t := RemovePatterns(s, ps);
    if t == s then s else Scrub(t, ps)
  }

  /**
   * The sanitiser the patterns call for: removal repeated to a fixpoint,
   * then `strip()`. Its output never contains a dangerous pattern, and
   * it agrees with the single pass on text that has none.
   */
  function SanitizeClean(s: string): (r: string)
    ensures |r| <= |s|
    ensures Clean(r, Patterns)
    ensures Clean(s, Patterns) ==> r == SanitizeInput(s)
  {
    var t := Scrub(s, Patterns);
    StripKeepsClean(t, Patterns);
    Strip(t)
  }

  lemma StripKeepsClean(s: string, ps: seq<string>)
    requires Clean(s, ps)
    ensures Clean(Strip(s), ps)
  {
  }

  // ---------------------------------------------------------------------
  // check_rate_limit
  // ---------------------------------------------------------------------

  /** `[t for t in ts if t > start]` */
  function Recent(ts: seq<real>, start: real): (r: seq<real>)
    ensures |r| <= |ts|
    ensures forall i :: 0 <= i < |r| ==> r[i] > start
    ensures forall t :: t in r <==> t in ts && t > start
    ensures forall t :: multiset(r)[t] == if t > start then multiset(ts)[t] else 0
    decreases |ts|
  {
    if |ts| == 0 then []
    else
      var init := Recent(ts[..|ts| - 1], start);
      var last := ts[|ts| - 1];
      SplitLast(ts);
      assert multiset(ts) == multiset(ts[..|ts| - 1]) + multiset{last};
      if last > start then init + [last] else init
  }

  /**
   * The filter keeps the order of the timestamps: it maps a concatenation
   * to the concatenation of the filtered parts, and one timestamp to itself
   * exactly when it is inside the window.
   */
  lemma {:induction false} RecentAppend(a: seq<real>, b: seq<real>, start: real)
    ensures Recent(a + b, start) == Recent(a, start) + Recent(b, start)
    ensures forall t :: Recent([t], start) == if t > start then [t] else []
    decreases |b|
  {
    assert forall t: real :: [t][..0] == [];
    if |b| > 0 {
      var b0 := b[..|b| - 1];
      RecentAppend(a, b0, start);
      assert (a + b)[..|a + b| - 1] == a + b0;
      assert (a + b)[|a + b| - 1] == b[|b| - 1];
    } else {
      assert a + b == a;
    }
  }

  /**
   * `check_rate_limit`: only the user's requests after `now - window*60`
   * count; with `max_requests` of them the request is refused and nothing
   * is stored, otherwise it is allowed and the user's list becomes the
   * counted requests plus `now`.
   */
  function CheckRateLimit(limits: map<string, seq<real>>, user: string, now: real, maxRequests: int, windowMinutes: int)
    : (r: (bool, map<string, seq<real>>))
    ensures var counted := Recent(if user in limits then limits[user] else [], now - windowMinutes as real * 60.0);
      && (r.0 <==> |counted| < maxRequests)
      && (!r.0 ==> r.1 == limits)
      && (r.0 ==> r.1 == limits[user := counted + [now]])
    ensures r.0 ==> |r.1[user]| <= maxRequests && r.1[user][|r.1[user]| - 1] == now
    ensures r.0 && windowMinutes > 0 ==> forall i :: 0 <= i < |r.1[user]| ==> r.1[user][i] > now - windowMinutes as real * 60.0
    ensures forall u :: u != user ==> (u in r.1 <==> u in limits) && (u in r.1 ==> r.1[u] == limits[u])
  {
    var requests := if user in limits then limits[user] else [];
    var start := now - windowMinutes as real * 60.0;
    var counted := Recent(requests, start);
    if |counted| >= maxRequests then (false, limits)
    else (true, limits[user := counted + [now]])
  }

  /**
   * Requests at one instant: the first `max_requests` of them are all
   * allowed, and the user's list then holds one entry per request.
   */
  lemma {:induction false} RateLimitFills(limits: map<string, seq<real>>, user: string, now: real, maxRequests: nat, windowMinutes: int, n: nat)
    requires windowMinutes > 0 && user !in limits && n <= maxRequests
    ensures var r := Admit(limits, user, now, maxRequests, windowMinutes, n);
      && r.0 == n
      && (n == 0 ==> r.1 == limits)
      && (n > 0 ==> user in r.1 && |r.1[user]| == n && forall i :: 0 <= i < n ==> r.1[user][i] == now)
    decreases n
  {
    if n > 0 {
      RateLimitFills(limits, user, now, maxRequests, windowMinutes, n - 1);
      var r := Admit(limits, user, now, maxRequests, windowMinutes, n - 1);
      OneMoreAtNow(r.1, user, now, maxRequests, windowMinutes);
    }
  }

  /** The request after `max_requests` at the same instant is refused. */
  lemma RateLimitRefusesNext(limits: map<string, seq<real>>, user: string, now: real, maxRequests: nat, windowMinutes: int)
    requires windowMinutes > 0 && user !in limits
    ensures Admit(limits, user, now, maxRequests, windowMinutes, maxRequests + 1).0 == maxRequests
  {
    RateLimitFills(limits, user, now, maxRequests, windowMinutes, maxRequests);
    var r := Admit(limits, user, now, maxRequests, windowMinutes, maxRequests);
    FullIsRefused(r.1, user, now, maxRequests, windowMinutes);
    var step := CheckRateLimit(r.1, user, now, maxRequests, windowMinutes);
    assert Admit(limits, user, now, maxRequests, windowMinutes, maxRequests + 1) == (r.0, step.1);
  }

  /** A user with `max_requests` requests at `now` is refused at `now`. */
  lemma FullIsRefused(limits: map<string, seq<real>>, user: string, now: real, maxRequests: nat, windowMinutes: int)
    requires windowMinutes > 0
    requires user in limits ==> |limits[user]| == maxRequests && forall i :: 0 <= i < |limits[user]| ==> limits[user][i] == now
    requires user !in limits ==> maxRequests == 0
    ensures !CheckRateLimit(limits, user, now, maxRequests, windowMinutes).0
  {
    var prior := if user in limits then limits[user] else [];
    AllRecent(prior, now - windowMinutes as real * 60.0, now);
  }

  /** A user whose counted requests all came at `now` and number fewer than the limit gets one more. */
  lemma OneMoreAtNow(limits: map<string, seq<real>>, user: string, now: real, maxRequests: int, windowMinutes: int)
    requires windowMinutes > 0
    requires user in limits ==> |limits[user]| < maxRequests && forall i :: 0 <= i < |limits[user]| ==> limits[user][i] == now
    requires user !in limits ==> maxRequests > 0
    ensures var prior := if user in limits then limits[user] else [];
      var r := CheckRateLimit(limits, user, now, maxRequests, windowMinutes);
      r.0 && user in r.1 && r.1[user] == prior + [now]
  {
    var prior := if user in limits then limits[user] else [];
    AllRecent(prior, now - windowMinutes as real * 60.0, now);
  }

  /** `n` requests at time `now`: how many were allowed, and the final session map. */
  function Admit(limits: map<string, seq<real>>, user: string, now: real, maxRequests: int, windowMinutes: int, n: nat)
    : (r: (nat, map<string, seq<real>>))
    ensures r.0 <= n
  {
    if n == 0 then (0, limits)
    else
      var prior := Admit(limits, user, now, maxRequests, windowMinutes, n - 1);
      var step := CheckRateLimit(prior.1, user, now, maxRequests, windowMinutes);
      (prior.0 + (if step.0 then 1 else 0), step.1)
  }

  /** A list of requests all inside the window is counted whole. */
  lemma {:induction false} AllRecent(ts: seq<real>, start: real, now: real)
    requires forall i :: 0 <= i < |ts| ==> ts[i] == now
    requires now > start
    ensures Recent(ts, start) == ts
    decreases |ts|
  {
    if |ts| > 0 {
      AllRecent(ts[..|ts| - 1], start, now);
      assert ts == ts[..|ts| - 1] + [ts[|ts| - 1]];
    }
  }
}

=== FILE: slices.dfy ===
/** Python list slicing with negative and out-of-range bounds. */
module Slices {

  function Min(a: int, b: int): int { if a <= b then a else b }

  function Max(a: int, b: int): int { if a <= b then b else a }

  /** The last `n` elements of `s` (all of `s` when it is shorter). */
  function Last<T>(s: seq<T>, n: nat): (r: seq<T>)
    ensures |r| == Min(n, |s|)
    ensures s == s[..|s| - |r|] + r
  {
    s[|s| - Min(n, |s|)..]
  }

  /**
   * Python `s[-k:]`. The start index `-k` is normalised the way Python
   * does it: a negative start counts from the end and is clamped at 0, a
   * start past the end is clamped at `len(s)`. So `k = 0` keeps the whole
   * list (`-0` is `0`) and a negative `k` drops the first `-k` elements.
   */
  function PyTail<T>(s: seq<T>, k: int): (r: seq<T>)
    ensures 0 < k ==> r == Last(s, k)
    ensures k == 0 ==> r == s
    ensures k < 0 ==> r == s[Min(-k, |s|)..]
  {
    var start := -k;
    var lo := if start < 0 then Max(start + |s|, 0) else Min(start, |s|);
    s[lo..]
  }

  /** Python `s[:k]`, with the same normalisation of the stop index. */
  function PyHead<T>(s: seq<T>, k: int): (r: seq<T>)
    ensures 0 <= k ==> r == s[..Min(k, |s|)]
    ensures k < 0 ==> r == s[..Max(|s| + k, 0)]
  {
    var hi := if k < 0 then Max(k + |s|, 0) else Min(k, |s|);
    s[..hi]
  }

  /** A non-empty sequence is its front followed by its last element. */
  lemma SplitLast<T>(s: seq<T>)
    requires |s| > 0
    ensures s == s[..|s| - 1] + [s[|s| - 1]]
  {
  }
}

=== FILE: stable_sort.dfy ===
/**
 * Python's `sorted(xs, key=..., reverse=True)`: a stable sort into
 * non-increasing key order. Keys are floats or pairs of floats compared
 * lexicographically, both represented by `Rank`.
 */
module StableSort {

  datatype Rank = Rank(primary: real, secondary: real)

  /** Tuple comparison `a < b`. */
  predicate Below(a: Rank, b: Rank)
  {
    a.primary < b.primary || (a.primary == b.primary && a.secondary < b.secondary)
  }

  predicate SortedDesc<T>(s: seq<T>, key: T -> Rank)
  {
    forall i, j :: 0 <= i < j < |s| ==> !Below(key(s[i]), key(s[j]))
  }

  /** The elements of `s` whose key is `v`, in their order in `s`. */
  function WithKey<T>(s: seq<T>, key: T -> Rank, v: Rank): seq<T>
  {
    if |s| == 0 then []
    else (if key(s[0]) == v then [s[0]] else []) + WithKey(s[1..], key, v)
  }

  lemma WithKeyCons<T>(x: T, s: seq<T>, key: T -> Rank, v: Rank)
    ensures WithKey([x] + s, key, v) == (if key(x) == v then [x] else []) + WithKey(s, key, v)
  {
    assert ([x] + s)[0] == x;
    assert ([x] + s)[1..] == s;
  }

  /** Puts `x` after every element with a strictly greater key. */
  function Insert<T(==)>(x: T, s: seq<T>, key: T -> Rank): (r: seq<T>)
    requires SortedDesc(s, key)
    ensures SortedDesc(r, key)
    ensures multiset(r) == multiset(s) + multiset{x}
  {
    if |s| == 0 then [x]
    else if !Below(key(x), key(s[0])) then [x] + s
    else
      var tail := Insert(x, s[1..], key);
      assert s == [s[0]] + s[1..];
      InsertBounded(s[0], x, s[1..], tail, key);
      [s[0]] + tail
  }

  lemma InsertBounded<T>(top: T, x: T, rest: seq<T>, tail: seq<T>, key: T -> Rank)
    requires SortedDesc([top] + rest, key)
    requires Below(key(x), key(top))
    requires SortedDesc(tail, key)
    requires multiset(tail) == multiset(rest) + multiset{x}
    ensures SortedDesc([top] + tail, key)
  {
    forall i | 0 <= i < |tail| ensures !Below(key(top), key(tail[i])) {
      assert tail[i] in multiset(tail);
      if tail[i] != x {
        assert tail[i] in multiset(rest);
        assert tail[i] in rest;
        var k :| 0 <= k < |rest| && rest[k] == tail[i];
        assert ([top] + rest)[0] == top && ([top] + rest)[k + 1] == tail[i];
      }
    }
  }

  /** `Insert` places `x` after the earlier elements that share its key. */
  lemma {:induction false} InsertStable<T>(x: T, s: seq<T>, key: T -> Rank, v: Rank)
    requires SortedDesc(s, key)
    ensures WithKey(Insert(x, s, key), key, v) == (if key(x) == v then [x] else []) + WithKey(s, key, v)
  {
    if |s| == 0 {
    } else if !Below(key(x), key(s[0])) {
      WithKeyCons(x, s, key, v);
    } else {
      var tail := Insert(x, s[1..], key);
      assert s == [s[0]] + s[1..];
      InsertStable(x, s[1..], key, v);
      WithKeyCons(s[0], tail, key, v);
      WithKeyCons(s[0], s[1..], key, v);
    }
  }

  /** Stable sort into non-increasing key order (insertion sort). */
  function SortDesc<T(==)>(s: seq<T>, key: T -> Rank): (r: seq<T>)
    ensures SortedDesc(r, key)
    ensures multiset(r) == multiset(s)
    ensures |r| == |s|
    ensures forall v :: WithKey(r, key, v) == WithKey(s, key, v)
  {
    if |s| == 0 then []
    else
      var r := Insert(s[0], SortDesc(s[1..], key), key);
      assert s == [s[0]] + s[1..];
      assert |r| == |multiset(r)|;
      forall v ensures WithKey(r, key, v) == WithKey(s, key, v) {
        InsertStable(s[0], SortDesc(s[1..], key), key, v);
        WithKeyCons(s[0], s[1..], key, v);
      }
      r
  }

  /**
   * A prefix of a sorted sequence is a selection of the largest keys:
   * nothing left behind outranks anything kept.
   */
  lemma PrefixIsTop<T>(r: seq<T>, key: T -> Rank, m: nat)
    requires SortedDesc(r, key)
    requires m <= |r|
    ensures SortedDesc(r[..m], key)
    ensures forall i, j :: 0 <= i < m <= j < |r| ==> !Below(key(r[i]), key(r[j]))
  {
  }
}

=== FILE: text.dfy ===
/** String operations of Python's `str` that the modelled code relies on. */
module Text {

  /** An ASCII upper-case letter. */
  predicate IsUpper(c: char)
  {
    'A' <= c <= 'Z'
  }

  /**
   * The characters whose `str.lower()` holds an ASCII letter: `A`-`Z`,
   * U+0130 (capital I with dot, lowered to `i` and a combining dot) and
   * U+212A (Kelvin sign, lowered to `k`).
   */
  predicate LowersToAscii(c: char)
  {
    IsUpper(c) || c == '\U{0130}' || c == '\U{212A}'
  }

  /** `str.lower()` of one character, for the characters above; any other is kept. */
  function LowerChar(c: char): (r: string)
    ensures |r| >= 1 && forall i :: 0 <= i < |r| ==> !IsUpper(r[i])
    ensures c != '\U{0130}' ==> |r| == 1
    ensures IsUpper(c) ==> r == [(c as int + 32) as char] && 'a' <= r[0] <= 'z'
    ensures c == '\U{212A}' ==> r == "k"
    ensures c == '\U{0130}' ==> r == "i\U{0307}"
    ensures !LowersToAscii(c) ==> r == [c]
  {
    if IsUpper(c) then [(c as int + 32) as char]
    else if c == '\U{212A}' then "k"
    else if c == '\U{0130}' then "i\U{0307}"
    else [c]
  }

  /**
   * `str.lower()` wherever it matters to an ASCII word: every character
   * whose lower case holds an ASCII letter is lowered as Python lowers it;
   * any other character is kept, and no ASCII word can match at it either
   * way.
   */
  function Lower(s: string): (r: string)
    ensures |s| <= |r|
    ensures forall i :: 0 <= i < |r| ==> !IsUpper(r[i])
    ensures (forall i :: 0 <= i < |s| ==> !LowersToAscii(s[i])) ==> r == s
    decreases |s|
  {
    if |s| == 0 then ""
    else
      var t := Lower(s[1..]);
      assert forall i :: 1 <= i < |s| ==> s[1..][i - 1] == s[i];
      LowerChar(s[0]) + t
  }

  /**
   * Without U+0130, the only character whose lower case is two long, the
   * text is lowered in place: character `i` becomes the lower case of
   * character `i`.
   */
  lemma {:induction false} LowerEach(s: string)
    requires forall i :: 0 <= i < |s| ==> s[i] != '\U{0130}'
    ensures |Lower(s)| == |s| && forall i :: 0 <= i < |s| ==> [Lower(s)[i]] == LowerChar(s[i])
    decreases |s|
  {
    if |s| > 0 {
      LowerEach(s[1..]);
      assert forall i :: 1 <= i < |s| ==> s[1..][i - 1] == s[i];
    }
  }

  /** Lower-casing works character by character, so it distributes over concatenation. */
  lemma {:induction false} LowerAppend(a: string, b: string)
    ensures Lower(a + b) == Lower(a) + Lower(b)
    decreases |a|
  {
    if |a| == 0 {
      assert a + b == b;
    } else {
      assert (a + b)[0] == a[0] && (a + b)[1..] == a[1..] + b;
      LowerAppend(a[1..], b);
    }
  }

  /** The Kelvin sign lowers to `k`, as in Python: `"SHOC\u212AED".lower() == "shocked"`. */
  lemma KelvinSignLowers()
    ensures Lower("SHOC\U{212A}ED") == "shocked"
  {
    assert Lower("D") == "d";
    assert Lower("ED") == "ed";
    assert Lower("\U{212A}ED") == "ked";
    assert Lower("C\U{212A}ED") == "cked";
    assert Lower("OC\U{212A}ED") == "ocked";
    assert Lower("HOC\U{212A}ED") == "hocked";
  }

  /** Capitals lower as in Python: `"HAPPY".lower()` is the keyword `happy`. */
  lemma CapitalsLower()
    ensures Lower("HAPPY") == "happy"
  {
    LowerEach("HAPPY");
    var r := Lower("HAPPY");
    assert LowerChar('H') == "h" && LowerChar('A') == "a" && LowerChar('P') == "p" && LowerChar('Y') == "y";
    assert r[0] == 'h' && r[1] == 'a' && r[2] == 'p' && r[3] == 'p' && r[4] == 'y';
  }

  predicate StartsWith(s: string, p: string)
  {
    |p| <= |s| && s[..|p|] == p
  }

  /** Python's `p in s` for strings. */
  predicate Contains(s: string, p: string)
    decreases |s|
  {
    StartsWith(s, p) || (|s| > 0 && Contains(s[1..], p))
  }

  lemma {:induction false} ContainsInPrefix(s: string, p: string, n: nat)
    requires n <= |s|
    requires Contains(s[..n], p)
    ensures Contains(s, p)
    decreases n
  {
    if StartsWith(s[..n], p) {
      assert s[..n][..|p|] == s[..|p|];
    } else {
      assert s[..n][1..] == s[1..][..n - 1];
      ContainsInPrefix(s[1..], p, n - 1);
    }
  }

  lemma {:induction false} ContainsInSuffix(s: string, p: string, n: nat)
    requires n <= |s|
    requires Contains(s[n..], p)
    ensures Contains(s, p)
    decreases n
  {
    if n > 0 {
      assert s[1..][n - 1..] == s[n..];
      ContainsInSuffix(s[1..], p, n - 1);
    }
  }

  /** `s.replace(p, '')`: leftmost, non-overlapping occurrences, one pass. */
  function RemoveAll(s: string, p: string): (r: string)
    requires |p| > 0
    ensures |r| <= |s|
    ensures !Contains(s, p) ==> r == s
    ensures Contains(s, p) ==> |r| < |s|
    decreases |s|
  {
    if |s| == 0 then s
    else if StartsWith(s, p) then RemoveAll(s[|p|..], p)
    else [s[0]] + RemoveAll(s[1..], p)
  }

  /** The characters Python's `str.isspace()` accepts. */
  predicate IsSpace(c: char)
  {
    var n := c as int;
    (9 <= n <= 13) || (28 <= n <= 32) || n == 0x85 || n == 0xA0 || n == 0x1680
    || (0x2000 <= n <= 0x200A) || n == 0x2028 || n == 0x2029 || n == 0x202F
    || n == 0x205F || n == 0x3000
  }

  function StripStart(s: string): (r: string)
    ensures |r| <= |s| && r == s[|s| - |r|..]
    ensures |r| > 0 ==> !IsSpace(r[0])
    ensures forall i :: 0 <= i < |s| - |r| ==> IsSpace(s[i])
  {
    if |s| > 0 && IsSpace(s[0]) then StripStart(s[1..]) else s
  }

  function StripEnd(s: string): (r: string)
    ensures |r| <= |s| && r == s[..|r|]
    ensures |r| > 0 ==> !IsSpace(r[|r| - 1])
    ensures forall i :: |r| <= i < |s| ==> IsSpace(s[i])
  {
    if |s| > 0 && IsSpace(s[|s| - 1]) then StripEnd(s[..|s| - 1]) else s
  }

  /**
   * `str.strip()`: the longest infix with no surrounding whitespace; only
   * whitespace is dropped, so a string with none comes back unchanged.
   */
  function Strip(s: string): (r: string)
    ensures |r| <= |s|
    ensures |r| > 0 ==> !IsSpace(r[0]) && !IsSpace(r[|r| - 1])
    ensures (forall i :: 0 <= i < |s| ==> !IsSpace(s[i])) ==> r == s
    ensures forall p :: Contains(r, p) ==> Contains(s, p)
  {
    var t := StripStart(s);
    var r := StripEnd(t);
    forall p | Contains(r, p) ensures Contains(s, p) {
      ContainsInPrefix(t, p, |r|);
      ContainsInSuffix(s, p, |s| - |t|);
    }
    r
  }

  /** A pattern longer than the text does not occur in it. */
  lemma {:induction false} NotContainsShort(s: string, p: string)
    requires |s| < |p|
    ensures !Contains(s, p)
    decreases |s|
  {
    if |s| > 0 {
      NotContainsShort(s[1..], p);
    }
  }

  /** A pattern with a character the text lacks does not occur in it. */
  lemma {:induction false} NotContainsMissing(s: string, p: string, k: nat)
    requires k < |p| && p[k] !in s
    ensures !Contains(s, p)
    decreases |s|
  {
    assert forall j :: 0 <= j < |s| ==> s[j] != p[k];
    if |s| > 0 {
      assert forall c :: c in s[1..] ==> c in s;
      NotContainsMissing(s[1..], p, k);
    }
  }
}

=== FILE: utils.dfy ===
/**
 * The pure helpers of `src/utils.py`: the top-N emotion summary, the
 * required-key check of a configuration, and the `with_retry` loop.
 */
module Utilities {
  import opened Results
  import opened OrderedMaps
  import opened Slices
  import opened StableSort
  import opened Rankings

  // ---------------------------------------------------------------------
  // get_emotion_analysis_summary
  // ---------------------------------------------------------------------

  /** One line of the summary: its 1-based number, the emotion and its score. */
  datatype SummaryLine = SummaryLine(rank: nat, emotion: string, score: real)

  /** "No emotion data available." or the numbered lines. */
  datatype Summary = NoData | Lines(lines: seq<SummaryLine>)

  const TopNError := "top_n must be a positive integer"

  function Numbered(items: seq<(string, real)>): (r: seq<SummaryLine>)
    ensures |r| == |items|
    ensures forall i :: 0 <= i < |r| ==> r[i] == SummaryLine(i + 1, items[i].0, items[i].1)
  {
    seq(|items|, i requires 0 <= i < |items| => SummaryLine(i + 1, items[i].0, items[i].1))
  }

  /**
   * `get_emotion_analysis_summary`: a non-positive `top_n` is an error even
   * for missing data; a missing or empty map gives the no-data sentence;
   * otherwise the `min(top_n, len)` highest scores, numbered from 1, in
   * non-increasing order with ties in map order.
   */
  function EmotionSummary(emotions: Option<Dict<real>>, topN: int): (r: Result<Summary, string>)
    requires emotions.Some? ==> Valid(emotions.value)
    ensures topN <= 0 <==> r.Failure?
    ensures r.Failure? ==> r.error == TopNError
    ensures r.Success? ==> (r.value.NoData? <==> emotions.None? || Size(emotions.value) == 0)
    ensures r.Success? && r.value.Lines? ==>
      var d := emotions.value;
      var top := TopItems(d, topN);
      && |r.value.lines| == Min(topN, Size(d))
      && (forall i :: 0 <= i < |r.value.lines| ==>
            && r.value.lines[i].rank == i + 1
            && (r.value.lines[i].emotion, r.value.lines[i].score) == top[i]
            && HasKey(d, r.value.lines[i].emotion)
            && d.vals[r.value.lines[i].emotion] == r.value.lines[i].score)
      && (forall i, j :: 0 <= i < j < |r.value.lines| ==> r.value.lines[j].score <= r.value.lines[i].score)
  {
    if topN <= 0 then Failure(TopNError)
    else if emotions.None? || Size(emotions.value) == 0 then Success(NoData)
    else
      var top := TopItems(emotions.value, topN);
      assert forall i :: 0 <= i < |top| ==> top[i] in Items(emotions.value);
      Success(Lines(Numbered(top)))
  }

  // ---------------------------------------------------------------------
  // validate_config
  // ---------------------------------------------------------------------

  /** `[key for key in required_keys if key not in config]` */
  function MissingKeys<V>(config: Dict<V>, required: seq<string>): (r: seq<string>)
    ensures forall k :: k in r <==> k in required && !HasKey(config, k)
    ensures |r| <= |required|
    decreases |required|
  {
    if |required| == 0 then []
    else
      var rest := MissingKeys(config, required[1..]);
      assert forall k :: k in required <==> k == required[0] || k in required[1..];
      if HasKey(config, required[0]) then rest else [required[0]] + rest
  }

  /** `validate_config`: true exactly when every required key is present. */
  function ValidateConfig<V>(config: Dict<V>, required: seq<string>): (r: bool)
    ensures r <==> forall k :: k in required ==> HasKey(config, k)
  {
    var missing := MissingKeys(config, required);
    assert (exists k :: k in required && !HasKey(config, k)) ==> |missing| > 0 by {
      if exists k :: k in required && !HasKey(config, k) {
        var k :| k in required && !HasKey(config, k);
        assert k in missing;
      }
    }
    assert |missing| > 0 ==> missing[0] in missing;
    |missing| == 0
  }

  // ---------------------------------------------------------------------
  // with_retry
  // ---------------------------------------------------------------------

  /** What one call of the wrapped function does: return a value or raise. */
  datatype Outcome<V, E> = Returned(value: V) | Raised(error: E)

  /**
   * How the wrapper ends: with the first returned value, by raising an
   * error, or — with a negative `max_retries` — by raising `None`, which
   * Python turns into a `TypeError`.
   */
  datatype RetryResult<V, E> = Value(value: V) | Error(error: E) | RaisedNone | SleepFailed(fault: SleepFault)

  /**
   * Why computing or sleeping the wait raised: `time.sleep` refuses a
   * negative wait (`ValueError`), and `backoff_factor * 2**(r-1)` cannot
   * convert `2**(r-1)` to a float once `r - 1` reaches 1024 (`OverflowError`).
   */
  datatype SleepFault = NegativeWait | WaitOverflow

  /** The first exponent whose power of two a float cannot hold. */
  const FloatExponentLimit: nat := 1024

  const MaxWait: real := 60.0

  function Pow2(k: nat): (r: nat)
    ensures r >= 1
  {
    if k == 0 then 1 else 2 * Pow2(k - 1)
  }

  /** The wait before retry `r` (1-based): `min(backoff_factor * 2**(r-1), 60)`. */
  function Backoff(factor: real, r: nat): (w: real)
    requires r >= 1
    ensures w <= MaxWait
    ensures factor >= 0.0 ==> w >= 0.0
    ensures factor < 0.0 ==> w < 0.0
  {
    Cap(Scale(factor, Pow2(r - 1)))
  }

  /** `backoff_factor * n` */
  function Scale(factor: real, n: nat): (x: real)
    ensures factor >= 0.0 ==> x >= 0.0
    ensures factor < 0.0 && n >= 1 ==> x < 0.0
  {
    factor * n as real
  }

  /** `min(x, 60)` */
  function Cap(x: real): (w: real)
    ensures w <= MaxWait && w <= x
    ensures x <= MaxWait ==> w == x
  {
    if x <= MaxWait then x else MaxWait
  }

  /** With a non-negative factor the waits never shrink. */
  lemma BackoffMonotone(factor: real, r: nat, s: nat)
    requires factor >= 0.0 && 1 <= r <= s
    ensures Backoff(factor, r) <= Backoff(factor, s)
  {
    Pow2Monotone(r - 1, s - 1);
    ScaleMonotone(factor, Pow2(r - 1), Pow2(s - 1));
    CapMonotone(Scale(factor, Pow2(r - 1)), Scale(factor, Pow2(s - 1)));
  }

  lemma CapMonotone(x: real, y: real)
    requires x <= y
    ensures Cap(x) <= Cap(y)
  {
  }

  lemma ScaleMonotone(f: real, a: nat, b: nat)
    requires f >= 0.0 && a <= b
    ensures Scale(f, a) <= Scale(f, b)
  {
    var x, y := a as real, b as real;
    assert f * y - f * x == f * (y - x);
  }

  lemma {:induction false} Pow2Monotone(a: nat, b: nat)
    requires a <= b
    ensures Pow2(a) <= Pow2(b)
    decreases b
  {
    if a < b {
      Pow2Monotone(a, b - 1);
    }
  }

  /** The waits of the first `n` retries, in order. */
  function Schedule(factor: real, n: nat): (ws: seq<real>)
    ensures |ws| == n
    ensures forall i :: 0 <= i < n ==> ws[i] == Backoff(factor, i + 1)
  {
    seq(n, i requires 0 <= i < n => Backoff(factor, i + 1))
  }

  /**
   * The `with_retry` wrapper around `call`, whose `i`-th invocation
   * (0-based) has outcome `call(i)`; `retryable` says whether an error is
   * an instance of the `exceptions` tuple. Returns the result, the number
   * of calls and the waits slept, in order. A wait that cannot be
   * computed or slept ends the wrapper with that error.
   */
  method WithRetry<V, E>(call: nat -> Outcome<V, E>, retryable: E -> bool, maxRetries: int, factor: real)
    returns (result: RetryResult<V, E>, calls: nat, waits: seq<real>)
    ensures maxRetries < 0 ==> result == RaisedNone && calls == 0 && waits == []
    ensures maxRetries >= 0 ==> 1 <= calls <= maxRetries + 1
    ensures waits == Schedule(factor, if calls == 0 then 0 else calls - 1)
    ensures forall i :: 0 <= i < |waits| ==> 0.0 <= waits[i] <= MaxWait
    ensures forall i :: 0 <= i < calls - 1 ==> call(i).Raised? && retryable(call(i).error)
    ensures result.Value? ==> call(calls - 1) == Returned(result.value)
    ensures result.Error? ==> calls >= 1 && call(calls - 1) == Raised(result.error)
    ensures result.Error? && retryable(result.error) ==> calls == maxRetries + 1
    ensures result.SleepFailed? ==> 1 <= calls <= maxRetries && call(calls - 1).Raised? && retryable(call(calls - 1).error)
    ensures result == SleepFailed(NegativeWait) ==> factor < 0.0 && calls == 1
    ensures result == SleepFailed(WaitOverflow) ==> factor >= 0.0 && calls == FloatExponentLimit + 1
    ensures factor < 0.0 && maxRetries >= 1 && call(0).Raised? && retryable(call(0).error) ==>
      result == SleepFailed(NegativeWait) && calls == 1
    ensures factor >= 0.0 && maxRetries <= FloatExponentLimit ==> !result.SleepFailed?
    ensures maxRetries >= 0 ==> !result.RaisedNone?
  {
    var retries := 0;
    calls := 0;
    waits := [];
    var last: Option<E> := None;
    while retries <= maxRetries
      invariant 0 <= retries == calls
      invariant retries > 0 ==> retries <= maxRetries
      invariant waits == Schedule(factor, retries)
      invariant forall i :: 0 <= i < |waits| ==> 0.0 <= waits[i] <= MaxWait
      invariant retries > 0 ==> factor >= 0.0 && retries <= FloatExponentLimit
      invariant forall i :: 0 <= i < calls ==> call(i).Raised? && retryable(call(i).error)
      invariant retries > 0 ==> last == Some(call(retries - 1).error)
      invariant retries == 0 ==> last.None?
      decreases maxRetries + 1 - retries
    {
      var o := call(retries);
      calls := calls + 1;
      if o.Returned? {
        return Value(o.value), calls, waits;
      }
      if !retryable(o.error) {
        return Error(o.error), calls, waits;
      }
      last := Some(o.error);
      retries := retries + 1;
      if retries > maxRetries {
        break;
      }
      if retries - 1 >= FloatExponentLimit {
        return SleepFailed(WaitOverflow), calls, waits;
      }
      var w := Backoff(factor, retries);
      if w < 0.0 {
        return SleepFailed(NegativeWait), calls, waits;
      }
      waits := waits + [w];
    }
    if last.None? {
      return RaisedNone, calls, waits;
    }
    result := Error(last.value);
  }
}

=== FILE: visualization.dfy ===
/**
 * The session-state bookkeeping of `EmotionVisualizer` in
 * `src/visualization.py`: the bounded list of recent emotion readings,
 * the running personality profile, the response-strategy counter, and the
 * matrix behind the emotion heat map. The session state is passed in and
 * returned; the charts themselves are not modelled.
 */
module Visualization {
  import opened Results
  import opened OrderedMaps
  import opened Slices

  // ---------------------------------------------------------------------
  // add_emotion_data
  // ---------------------------------------------------------------------

  /** `self.max_points` */
  const MaxPoints: nat := 50

  /**
   * `add_emotion_data` as written: the oldest reading is dropped only when
   * the list already holds MORE than `max_points`, then the new one is
   * appended. The result ends with the new reading, is otherwise the
   * newest readings of the old list, and holds one more reading unless
   * the old list was over the limit.
   */
  function AddEmotionData<T>(history: seq<T>, e: T, maxPoints: nat): (r: seq<T>)
    ensures |r| == if |history| > maxPoints then |history| else |history| + 1
    ensures r == Last(history, |r| - 1) + [e]
    ensures |history| <= maxPoints + 1 ==> |r| <= maxPoints + 1
  {
    if |history| > maxPoints then history[1..] + [e] else history + [e]
  }

  /** A list already at the limit grows past it. */
  lemma AddEmotionDataOverflows<T>(history: seq<T>, e: T)
    requires |history| == MaxPoints
    ensures |AddEmotionData(history, e, MaxPoints)| == MaxPoints + 1
  {
  }

  /** `add_emotion_data` for each reading of `es` in turn. */
  function AddAll<T>(history: seq<T>, es: seq<T>, maxPoints: nat): seq<T>
  {
    if |es| == 0 then history
    else AddEmotionData(AddAll(history, es[..|es| - 1], maxPoints), es[|es| - 1], maxPoints)
  }

  /**
   * From an empty list, `n` readings leave `min(n, max_points + 1)` of
   * them, the newest ones: the list settles one above the limit.
   */
  lemma {:induction false} AddAllSettlesAboveLimit<T>(es: seq<T>, maxPoints: nat)
    ensures AddAll([], es, maxPoints) == Last(es, maxPoints + 1)
  {
    if |es| > 0 {
      var init := es[..|es| - 1];
      var e := es[|es| - 1];
      AddAllSettlesAboveLimit(init, maxPoints);
      var w := AddAll([], init, maxPoints);
      LastStep(init, e, maxPoints + 1);
      assert AddAll([], es, maxPoints) == AddEmotionData(w, e, maxPoints);
      AddEmotionDataStep(w, e, maxPoints);
      SplitLast(es);
    }
  }

  lemma AddEmotionDataStep<T>(w: seq<T>, e: T, maxPoints: nat)
    ensures AddEmotionData(w, e, maxPoints) == (if |w| > maxPoints then w[1..] else w) + [e]
  {
  }

  /** Appending to the newest `k` and trimming back to `k` is the newest `k` of the longer list. */
  lemma LastStep<T>(s: seq<T>, e: T, k: nat)
    requires k >= 1
    ensures var w := Last(s, k);
      Last(s + [e], k) == (if |w| >= k then w[1..] else w) + [e]
  {
    var w := Last(s, k);
    var t := s + [e];
    if |s| >= k {
      assert Last(t, k) == t[|t| - k..];
      assert w == s[|s| - k..];
    } else {
      assert Last(t, k) == t;
    }
  }

  /**
   * The intended `add_emotion_data`: drop the oldest reading once the list
   * is AT the limit. A list within the limit stays within it and keeps
   * exactly the newest `max_points` readings.
   */
  function AddEmotionDataCapped<T>(history: seq<T>, e: T, maxPoints: nat): (r: seq<T>)
    requires maxPoints >= 1
    ensures |history| <= maxPoints ==> |r| <= maxPoints
    ensures |history| <= maxPoints ==> r == Last(history + [e], maxPoints)
    ensures |r| > 0 && r[|r| - 1] == e
  {
    if |history| >= maxPoints then
      var r := history[1..] + [e];
      assert |history| == maxPoints ==> r == (history + [e])[|history| + 1 - maxPoints..];
      r
    else history + [e]
  }

  lemma CappedStep<T>(w: seq<T>, e: T, maxPoints: nat)
    requires maxPoints >= 1
    ensures AddEmotionDataCapped(w, e, maxPoints) == (if |w| >= maxPoints then w[1..] else w) + [e]
  {
  }

  lemma AppendAssoc<T>(a: seq<T>, b: seq<T>, e: T)
    ensures a + b + [e] == a + (b + [e])
  {
  }

  /** `AddEmotionDataCapped` for each reading of `es` in turn. */
  function AddAllCapped<T>(history: seq<T>, es: seq<T>, maxPoints: nat): seq<T>
    requires maxPoints >= 1 && |history| <= maxPoints
    ensures |AddAllCapped(history, es, maxPoints)| <= maxPoints
  {
    if |es| == 0 then history
    else AddEmotionDataCapped(AddAllCapped(history, es[..|es| - 1], maxPoints), es[|es| - 1], maxPoints)
  }

  /** Any run of readings leaves exactly the newest `max_points` of them. */
  lemma {:induction false} AddAllCappedKeepsNewest<T>(history: seq<T>, es: seq<T>, maxPoints: nat)
    requires maxPoints >= 1 && |history| <= maxPoints
    ensures AddAllCapped(history, es, maxPoints) == Last(history + es, maxPoints)
  {
    if |es| > 0 {
      var init := es[..|es| - 1];
      var e := es[|es| - 1];
      AddAllCappedKeepsNewest(history, init, maxPoints);
      var w := AddAllCapped(history, init, maxPoints);
      LastStep(history + init, e, maxPoints);
      assert AddAllCapped(history, es, maxPoints) == AddEmotionDataCapped(w, e, maxPoints);
      CappedStep(w, e, maxPoints);
      SplitLast(es);
      AppendAssoc(history, init, e);
    }
  }

  // ---------------------------------------------------------------------
  // update_personality_profile
  // ---------------------------------------------------------------------

  /** Every value lies in [0, 1]. */
  ghost predicate InUnit(d: Dict<real>)
  {
    forall k :: k in d.vals ==> 0.0 <= d.vals[k] <= 1.0
  }

  /** The loop over `traits.items()`, keys `ks` taken in order. */
  function MergeTraits(p: Dict<real>, ks: seq<string>, t: map<string, real>): (r: Dict<real>)
    requires Distinct(ks) && forall k :: k in ks ==> k in t
    ensures forall x :: x in ks && x in p.vals ==> x in r.vals && r.vals[x] == (p.vals[x] + t[x]) / 2.0
    ensures forall x :: x in ks && x !in p.vals ==> x in r.vals && r.vals[x] == t[x]
    ensures forall x :: x !in ks ==> (x in r.vals <==> x in p.vals) && (x in p.vals ==> r.vals[x] == p.vals[x])
    ensures |p.keys| <= |r.keys| && r.keys[..|p.keys|] == p.keys
    ensures Valid(p) ==> Valid(r)
    decreases |ks|
  {
    if |ks| == 0 then p
    else
      var k := ks[0];
      DistinctTail(ks);
      var v := if k in p.vals then (p.vals[k] + t[k]) / 2.0 else t[k];
      var q := Put(p, k, v);
      var r := MergeTraits(q, ks[1..], t);
      assert q.keys[..|p.keys|] == p.keys;
      PrefixTrans(p.keys, q.keys, r.keys);
      r
  }

  lemma PrefixTrans(a: seq<string>, b: seq<string>, c: seq<string>)
    requires |a| <= |b| && b[..|a|] == a && |b| <= |c| && c[..|b|] == b
    ensures c[..|a|] == a
  {
    assert c[..|a|] == c[..|b|][..|a|];
  }

  /**
   * `update_personality_profile`: the first call stores the traits as
   * given; later calls average each known trait with its new value, add
   * unknown traits (after the known ones), and leave traits not mentioned
   * alone. Values in [0, 1] stay there.
   */
  function UpdatePersonality(profile: Option<Dict<real>>, traits: Dict<real>): (r: Dict<real>)
    requires Valid(traits) && (profile.Some? ==> Valid(profile.value))
    ensures Valid(r)
    ensures profile.None? ==> r == traits
    ensures profile.Some? ==>
      var p := profile.value;
      && (forall x :: HasKey(r, x) <==> HasKey(p, x) || HasKey(traits, x))
      && (forall x :: HasKey(traits, x) && HasKey(p, x) ==> r.vals[x] == (p.vals[x] + traits.vals[x]) / 2.0)
      && (forall x :: HasKey(traits, x) && !HasKey(p, x) ==> r.vals[x] == traits.vals[x])
      && (forall x :: !HasKey(traits, x) && HasKey(p, x) ==> r.vals[x] == p.vals[x])
      && |p.keys| <= |r.keys| && r.keys[..|p.keys|] == p.keys
    ensures (profile.Some? ==> InUnit(profile.value)) && InUnit(traits) ==> InUnit(r)
  {
    match profile
    case None => traits
    case Some(p) =>
      var r := MergeTraits(p, traits.keys, traits.vals);
      assert InUnit(p) && InUnit(traits) ==> InUnit(r) by {
        if InUnit(p) && InUnit(traits) {
          forall x | x in r.vals ensures 0.0 <= r.vals[x] <= 1.0 {
            if x in traits.keys && x in p.vals {
              assert 0.0 <= p.vals[x] <= 1.0 && 0.0 <= traits.vals[x] <= 1.0;
            }
          }
        }
      }
      r
  }

  // ---------------------------------------------------------------------
  // update_response_strategy
  // ---------------------------------------------------------------------

  /** The sum of the counts stored under `ks`. */
  function SumOver(ks: seq<string>, m: map<string, nat>): nat
    requires forall k :: k in ks ==> k in m
  {
    if |ks| == 0 then 0 else SumOver(ks[..|ks| - 1], m) + m[ks[|ks| - 1]]
  }

  /** The number of responses counted so far. */
  function Total(d: Dict<nat>): nat
    requires Valid(d)
  {
    SumOver(d.keys, d.vals)
  }

  /** Changing one count changes the sum by the same amount; other keys do not matter. */
  lemma {:induction false} SumOverUpdate(ks: seq<string>, m: map<string, nat>, k: string, v: nat)
    requires Distinct(ks) && forall x :: x in ks ==> x in m
    ensures k in ks ==> SumOver(ks, m[k := v]) + m[k] == SumOver(ks, m) + v
    ensures k !in ks ==> SumOver(ks, m[k := v]) == SumOver(ks, m)
    decreases |ks|
  {
    if |ks| > 0 {
      var init := ks[..|ks| - 1];
      assert forall x :: x in ks <==> x in init || x == ks[|ks| - 1];
      SumOverUpdate(init, m, k, v);
    }
  }

  /** Storing `v` under `k` moves the total by `v` minus the count it replaces. */
  lemma TotalPut(d: Dict<nat>, k: string, v: nat)
    requires Valid(d)
    ensures Valid(Put(d, k, v))
    ensures Total(Put(d, k, v)) + (if HasKey(d, k) then d.vals[k] else 0) == Total(d) + v
  {
    var r := Put(d, k, v);
    SumOverUpdate(d.keys, d.vals, k, v);
    if !HasKey(d, k) {
      assert r.keys[..|r.keys| - 1] == d.keys;
    }
  }

  /**
   * `update_response_strategy`: the strategy's count goes up by one (to 1
   * when it is new, the counter itself created empty on first use), every
   * other count stays, so the total goes up by exactly one.
   */
  function UpdateResponseStrategy(counts: Option<Dict<nat>>, strategy: string): (r: Dict<nat>)
    requires counts.Some? ==> Valid(counts.value)
    ensures Valid(r) && HasKey(r, strategy)
    ensures var d := if counts.Some? then counts.value else Empty();
      && r.vals[strategy] == (if HasKey(d, strategy) then d.vals[strategy] + 1 else 1)
      && (forall x :: x != strategy ==> Get(r, x) == Get(d, x))
      && Total(r) == Total(d) + 1
  {
    var d := if counts.Some? then counts.value else Empty();
    var v := if HasKey(d, strategy) then d.vals[strategy] + 1 else 1;
    TotalPut(d, strategy, v);
    Put(d, strategy, v)
  }

  // ---------------------------------------------------------------------
  // create_emotion_heatmap (the matrix)
  // ---------------------------------------------------------------------

  /** `primary_emotions`, the rows of the heat map in order. */
  const PrimaryEmotions: seq<string> := ["joy", "sadness", "anger", "fear", "surprise", "excitement", "amusement", "contentment"]

  /** The fields of one exchange the heat map reads. */
  datatype Exchange = Exchange(emotion: Option<string>, details: Option<Dict<real>>)

  /** `exchange.get('emotion', 'neutral')` */
  function EmotionOf(ex: Exchange): string
  {
    if ex.emotion.Some? then ex.emotion.value else "neutral"
  }

  /** One exchange's entry in the row of `emotion`. */
  function Cell(ex: Exchange, emotion: string): (c: real)
    ensures ex.details.Some? ==> c == GetOr(ex.details.value, emotion, 0.0)
    ensures ex.details.None? ==> (c == 1.0 <==> emotion == EmotionOf(ex)) && (c == 0.0 <==> emotion != EmotionOf(ex))
  {
    match ex.details
    case Some(d) => GetOr(d, emotion, 0.0)
    case None => if emotion == EmotionOf(ex) then 1.0 else 0.0
  }

  /**
   * `emotions_over_time`, built as the source does: each exchange appends
   * one entry to the row of every primary emotion. Row `i`, entry `j` is
   * exchange `j`'s cell for emotion `i`.
   */
  function HeatRows(history: seq<Exchange>): (rows: seq<seq<real>>)
    ensures |rows| == |PrimaryEmotions|
    ensures forall i :: 0 <= i < |rows| ==> |rows[i]| == |history|
    ensures forall i, j :: 0 <= i < |rows| && 0 <= j < |history| ==> rows[i][j] == Cell(history[j], PrimaryEmotions[i])
  {
    if |history| == 0 then seq(|PrimaryEmotions|, i => [])
    else
      var rows := HeatRows(history[..|history| - 1]);
      var ex := history[|history| - 1];
      seq(|PrimaryEmotions|, i requires 0 <= i < |PrimaryEmotions| => rows[i] + [Cell(ex, PrimaryEmotions[i])])
  }

  /** ASCII `str.title()` of a lower-case word: the first letter upper-cased. */
  function Title(w: string): (r: string)
    ensures |r| == |w| && (|w| > 0 ==> r[1..] == w[1..])
    ensures |w| > 0 && 'a' <= w[0] <= 'z' ==> 'A' <= r[0] <= 'Z' && r[0] as int + 32 == w[0] as int
    ensures |w| > 0 && !('a' <= w[0] <= 'z') ==> r == w
  {
    if |w| == 0 || !('a' <= w[0] <= 'z') then w
    else [(w[0] as int - 32) as char] + w[1..]
  }

  /** The heat map's data: rows `z` and their labels. */
  datatype HeatMap = HeatMap(z: seq<seq<real>>, labels: seq<string>)

  /**
   * The matrix of `create_emotion_heatmap`: no figure data for an empty
   * history; otherwise one row per primary emotion, labelled with its
   * title-cased name, each with one column per exchange.
   */
  function EmotionHeatmap(history: seq<Exchange>): (r: Option<HeatMap>)
    ensures r.None? <==> |history| == 0
    ensures r.Some? ==>
      && |r.value.z| == |r.value.labels| == |PrimaryEmotions|
      && (forall i :: 0 <= i < |PrimaryEmotions| ==> r.value.labels[i] == Title(PrimaryEmotions[i]))
      && (forall i :: 0 <= i < |PrimaryEmotions| ==> |r.value.z[i]| == |history|)
      && (forall i, j :: 0 <= i < |PrimaryEmotions| && 0 <= j < |history| ==>
            r.value.z[i][j] == Cell(history[j], PrimaryEmotions[i]))
  {
    if |history| == 0 then None
    else Some(HeatMap(HeatRows(history), seq(|PrimaryEmotions|, i requires 0 <= i < |PrimaryEmotions| => Title(PrimaryEmotions[i]))))
  }

  /**
   * An exchange without `emotion_details` contributes a one-hot column:
   * 1.0 in the row of its emotion (if that is a primary one), 0.0
   * elsewhere.
   */
  lemma FallbackColumnIsOneHot(history: seq<Exchange>, j: nat)
    requires j < |history| && history[j].details.None?
    ensures var r := EmotionHeatmap(history);
      r.Some? && forall i :: 0 <= i < |PrimaryEmotions| ==>
        (r.value.z[i][j] == 1.0 <==> PrimaryEmotions[i] == EmotionOf(history[j])) &&
        (r.value.z[i][j] == 0.0 <==> PrimaryEmotions[i] != EmotionOf(history[j]))
  {
  }

  /**
   * `neutral`, the emotion of an exchange that names none, is not a row of
   * the heat map, so such an exchange without details contributes a column
   * of zeros.
   */
  lemma NeutralColumnIsZero(history: seq<Exchange>, j: nat)
    requires j < |history| && history[j].details.None?
    requires history[j].emotion.None? || history[j].emotion == Some("neutral")
    ensures var r := EmotionHeatmap(history);
      r.Some? && forall i :: 0 <= i < |PrimaryEmotions| ==> r.value.z[i][j] == 0.0
  {
  }
}

=== FILE: vocabulary.dfy ===
/**
 * The analyzer's own vocabulary and fallback lexicon: the constants that
 * instantiate the vocabulary-generic definitions of `EmotionAnalysis`.
 */
module EmotionVocabulary {
  import opened Results
  import opened OrderedMaps
  import opened Text
  import opened EmotionScores
  import opened KeywordFallback
  import opened EmotionAnalysis
  import opened FallbackProperties

  /** The eighteen labels the analyzer tracks, in the analyzer's order. */
  const PrimaryEmotions: seq<string> := [
    "joy", "sadness", "anger", "fear", "surprise", "disgust",
    "contempt", "excitement", "amusement", "contentment",
    "disappointment", "doubt", "enthusiasm", "interest",
    "satisfaction", "shame", "sympathy", "tiredness"
  ]

  const JoyKeywords: seq<string> := ["happy", "joy", "excited", "great", "awesome", "wonderful", "amazing"]

  /** The fallback lexicon of `_fallback_emotion_analysis`, in source order. */
  const KeywordTable: Lexicon := Dict(
    ["joy", "sadness", "anger", "fear", "surprise", "amusement"],
    map[
      "joy" := JoyKeywords,
      "sadness" := ["sad", "depressed", "down", "unhappy", "disappointed", "upset"],
      "anger" := ["angry", "mad", "furious", "annoyed", "frustrated", "irritated"],
      "fear" := ["scared", "afraid", "worried", "anxious", "nervous", "terrified"],
      "surprise" := ["surprised", "shocked", "unexpected", "sudden", "wow"],
      "amusement" := ["funny", "hilarious", "laugh", "haha", "lol", "amusing"]
    ])

  /** The source's vocabulary and lexicon meet what the fallback needs of them. */
  lemma SourceVocabularyFits()
    ensures Fits(PrimaryEmotions, KeywordTable)
  {
    LexiconLabelsDistinct();
    LexiconKeysListed();
    LexiconLabelsTracked();
  }

  lemma LexiconLabelsDistinct()
    ensures Distinct(KeywordTable.keys)
  {
  }

  lemma LexiconKeysListed()
    ensures forall k :: k in KeywordTable.vals <==> k in KeywordTable.keys
  {
  }

  lemma LexiconLabelsTracked()
    ensures forall k :: k in KeywordTable.vals ==> k in PrimaryEmotions
    ensures "contentment" in PrimaryEmotions && "contentment" !in KeywordTable.vals
  {
  }

  /**
   * The tracked labels are eighteen distinct names, so no score is counted
   * under two of them; every keyword list is non-empty and repeats no word,
   * so each word found adds 0.3 exactly once.
   */
  lemma VocabularyShape()
    ensures |PrimaryEmotions| == 18 && Distinct(PrimaryEmotions)
    ensures KeywordTable.keys == ["joy", "sadness", "anger", "fear", "surprise", "amusement"]
    ensures forall k :: k in KeywordTable.vals ==> |KeywordTable.vals[k]| >= 5 && Distinct(KeywordTable.vals[k])
  {
  }

  /** `joy` is tracked, is not the neutral default, and has the seven keywords above. */
  lemma JoyEntry()
    ensures "joy" in PrimaryEmotions && "joy" != "contentment"
    ensures KeywordsOf(KeywordTable, "joy") == JoyKeywords && |JoyKeywords| == 7
  {
  }

  /**
   * With the source's lexicon, a text holding every joy keyword scores joy
   * at 7 * 0.3 = 2.1, well past 1.0, and the confidence is at least that.
   */
  lemma JoyScoresPastOne(text: string, now: real)
    requires forall k :: k in JoyKeywords ==> Contains(Lower(text), k)
    ensures FallbackScoresAtLeast(PrimaryEmotions, KeywordTable, text, now, "joy", 2.1)
  {
    SourceVocabularyFits();
    JoyEntry();
    assert AllKeywordsFound(PrimaryEmotions, KeywordTable, text, "joy");
    FallbackNotCapped(PrimaryEmotions, KeywordTable, text, now, "joy");
  }

  /** Predictions naming sadness, then joy, both at 0.5. */
  const TiedPredictions := [Prediction("Sadness", 0.5), Prediction("Joy", 0.5)]

  /** A classifier reply holding just those predictions. */
  const TiedReply := ClassifierReply([LanguagePrediction([TiedPredictions])])

  lemma LowerSadness()
    ensures Lower("Sadness") == "sadness"
  {
    assert "Sadness"[1..] == "adness";
    assert Lower("adness") == "adness";
  }

  lemma LowerJoy()
    ensures Lower("Joy") == "joy"
  {
    assert "Joy"[1..] == "oy";
    assert Lower("oy") == "oy";
  }

  lemma LowerSadnessJoy()
    ensures Lower("Sadness") == "sadness" && Lower("Joy") == "joy"
  {
    LowerSadness();
    LowerJoy();
  }

  lemma SadnessJoyTracked()
    ensures "sadness" in PrimaryEmotions && "joy" in PrimaryEmotions
  {
    assert PrimaryEmotions[0] == "joy" && PrimaryEmotions[1] == "sadness";
  }

  lemma TiedTrackedNames()
    ensures TrackedNames(PrimaryEmotions, TiedPredictions) == ["sadness", "joy"]
  {
    LowerSadnessJoy();
    SadnessJoyTracked();
    var preds := TiedPredictions;
    assert preds[..1] == [Prediction("Sadness", 0.5)] && preds[..1][..0] == [];
    assert TrackedNames(PrimaryEmotions, preds[..1]) == ["sadness"];
  }

  lemma TiedReplyNames()
    ensures ReplyNames(PrimaryEmotions, TiedReply) == ["sadness", "joy"]
  {
    TiedTrackedNames();
  }

  lemma TiedLastScore(e: string)
    ensures LastScore(TiedPredictions, e) == if e == "sadness" || e == "joy" then Some(0.5) else None
  {
    LowerSadnessJoy();
    var preds := TiedPredictions;
    assert preds[..1] == [Prediction("Sadness", 0.5)] && preds[..1][..0] == [];
    assert LastScore(preds[..1], e) == if e == "sadness" then Some(0.5) else None;
  }

  lemma TiedReplyScores(e: string)
    ensures ReplyScore(TiedReply, e) == if e == "sadness" || e == "joy" then 0.5 else 0.0
  {
    TiedLastScore(e);
  }

  /**
   * Ties in a classifier reply go to the emotion predicted first: the
   * reply's labels come first in the scores, in prediction order, so
   * sadness wins over joy although joy comes first among the tracked
   * labels.
   */
  lemma ReplyTieGoesToFirstPredicted(now: real)
    ensures var r := AnalyzeReply(PrimaryEmotions, TiedReply, "", now);
      r.dominantEmotion == "sadness" && r.confidence == 0.5
  {
    TiedReplyNames();
    forall e ensures ReplyScore(TiedReply, e) <= 0.5 {
      TiedReplyScores(e);
    }
    TiedReplyScores("sadness");
    ReplyTieGoesFirst(PrimaryEmotions, TiedReply, "", now, 0.5);
  }
}

=== FILE: windows.dfy ===
/**
 * Bounded first-in first-out windows: a list that drops its oldest
 * element when an append takes it over its limit.
 */
module Windows {
  import opened Slices

  /** How many elements a window with limit `max` keeps: none when `max <= 0`. */
  function Capacity(max: int): nat
  {
    Max(max, 0)
  }

  /** `s.append(x)` followed by one `s.pop(0)` when `len(s) > max`. */
  function Push<T>(s: seq<T>, x: T, max: int): (r: seq<T>)
    ensures |s| <= Capacity(max) ==> r == Last(s + [x], Capacity(max))
  {
    var appended := s + [x];
    if |appended| > max then appended[1..] else appended
  }

  /** `Push` each of `xs` in turn. */
  function PushAll<T>(s: seq<T>, xs: seq<T>, max: int): seq<T>
    decreases |xs|
  {
    if |xs| == 0 then s else PushAll(Push(s, xs[0], max), xs[1..], max)
  }

  /** Keeping the last `n` before appending `t` does not change the last `n` after. */
  lemma LastOfConcat<T>(s: seq<T>, t: seq<T>, n: nat)
    ensures Last(Last(s, n) + t, n) == Last(s + t, n)
  {
    var u := Last(s, n);
    assert s == s[..|s| - |u|] + u;
    assert s + t == s[..|s| - |u|] + (u + t);
  }

  /**
   * A window that starts within its bound holds exactly the last
   * `Capacity(max)` elements ever pushed, oldest first.
   */
  lemma {:induction false} PushAllKeepsLast<T>(s: seq<T>, xs: seq<T>, max: int)
    requires |s| <= Capacity(max)
    ensures PushAll(s, xs, max) == Last(s + xs, Capacity(max))
    decreases |xs|
  {
    var n := Capacity(max);
    if |xs| == 0 {
      assert s + xs == s;
    } else {
      var next := Push(s, xs[0], max);
      PushAllKeepsLast(next, xs[1..], max);
      LastOfConcat(s + [xs[0]], xs[1..], n);
      SplitFirst(s, xs);
    }
  }

  lemma SplitFirst<T>(s: seq<T>, xs: seq<T>)
    requires |xs| > 0
    ensures s + [xs[0]] + xs[1..] == s + xs
  {
    assert xs == [xs[0]] + xs[1..];
  }
}
